=== FILE: README.md ===
# Student–Alumni Network: a verified model of its domain rules

The Student–Alumni Network is a web application. Students and alumni register, and an administrator verifies alumni. Users connect with each other, and connected users exchange direct messages. Alumni post opportunities, students apply to them, and the poster reviews the applications.

This project models that application in Dafny:

- **Backend handlers** (Express controllers over a MySQL store). Each handler is a pure function from (store, caller, request) to (store afterwards, reply). The store is an immutable value with one table per entity.
- **Request middleware**: bearer-token parsing and the role gate.
- **Frontend helpers** (React components): the pure list, string and filter logic behind the registration wizards, the profile editors, the user search, the connection list and the application list.

Each module follows one source file:

| module | file | models |
|---|---|---|
| `Db` | store.dfy | the tables, the caller (the decoded token payload), replies, and the store invariant `Valid` |
| `Base` | base.dfy | optional values and the replies, plus `Filter`, `Find`, `Reverse` and the orderings that express `WHERE` and `ORDER BY` |
| `Strings` | strings.dfy | JavaScript `trim`, ASCII case mapping, `includes`, `split` and `join` over `seq<char>` |
| `Numerals` | numerals.dfy | the numeric strings Joi's `number()` converts, and their values |
| `Auth` | auth.dfy | registration, the company get-or-create helper, login |
| `Admin` | admin.dfy | pending alumni, verify and revoke |
| `Middleware` | middleware.dfy | `authenticate` and `requireRole` |
| `Connections` | connections.dfy | the pending → accepted / rejected connection state machine |
| `Messages` | messages.dfy | the messaging gate, conversations, read receipts, unread counts |
| `Opportunities` | opportunities.dfy | creating, listing and editing postings |
| `Applications` | applications.dfy | the student side of applications |
| `Review` | review.dfy | the poster side of applications |
| `Directory` | directory.dfy | user search and browsing |
| `Profiles` | profiles.dfy | `safeJsonParse`, profile viewing and profile updates |
| `Lists` | ui_lists.dfy | tag fields and comma-separated list text |
| `Register` | ui_register.dfy | the registration wizards |
| `EditProfile` | ui_edit_profile.dfy | the profile edit forms |
| `Views` | ui_views.dfy | search, connection-list and application-list helpers |

The store invariant `Db.Valid` states five things:
- ids equal their insertion position plus one;
- timestamps come from a logical clock and ascend in every table;
- emails are unique;
- connection pairs are stored low id first, and each pair appears once;
- read receipts are consistent, and a student has at most one application per posting.

Every writing handler has a lemma stating that it preserves `Valid`.

## Model

| member | source | states |
|---|---|---|
| Connections.NormalizePair | backend/src/controllers/connection.controller.js:4-6 | the stored pair is the two ids, lower first |
| Connections.NormalizePairSymmetric | backend/src/controllers/connection.controller.js:4-6 | the order in which the two users are named does not change the stored pair |
| Connections.NormalizePairSamePair | backend/src/controllers/connection.controller.js:4-6 | two requests map to the same stored pair exactly when they name the same two users, in either order |
| Connections.SendRequest | backend/src/controllers/connection.controller.js:9-33 | a missing, zero or non-numeric target gives 400 with no write; the request succeeds exactly when the pair is free; success appends exactly one pending row for the normalised pair, recording the sender; self-requests are accepted; a taken pair gives 400 with no write |
| Connections.DuplicateRequestRejected | backend/src/controllers/connection.controller.js:27-29 | after one successful request, any request for the same two users, from either side, is refused and adds nothing |
| Connections.FindConnection | backend/src/controllers/connection.controller.js:41-42 | finds the row with the given id; none exactly when no row has it or the id is missing |
| Connections.SetStatus | backend/src/controllers/connection.controller.js:54 | only rows with the given id change, and only in their status |
| Connections.RespondRequest | backend/src/controllers/connection.controller.js:36-61 | 404 exactly for an unknown id; a row that is no longer pending gives 400 before the participant check; a non-participant gets 403; every failure leaves the store unchanged; success changes only that row's status |
| Connections.RespondDecision | backend/src/controllers/connection.controller.js:53-54 | the exact action `accept` accepts, and every other action rejects |
| Connections.RespondIsFinal | backend/src/controllers/connection.controller.js:45-47 | once a request is answered, any later answer, by anyone and with any action, is refused and writes nothing |
| Connections.StatusLeavesOnlyPending | backend/src/controllers/connection.controller.js:45-54 | answering a request changes a status only from pending to a non-pending one, and sending a request never alters an existing row |
| Connections.GetConnections | backend/src/controllers/connection.controller.js:64-82 | returns, for every accepted row holding the caller, the other participant; only accepted rows are returned |
| Connections.AcceptListsBothPeers | backend/src/controllers/connection.controller.js:36-82 | after a request is accepted, each participant (with a user row) is listed among the other's connections under that connection's id |
| Connections.RejectListsNeitherPeer | backend/src/controllers/connection.controller.js:36-82 | after a request is rejected, neither participant shows the other among its connections, because the unique pair key leaves no other row for the pair |
| Connections.GetPendingRequests | backend/src/controllers/connection.controller.js:85-104 | returns exactly the pending rows holding the caller that somebody else sent |
| Connections.SentRequestIsIncomingForPeer | backend/src/controllers/connection.controller.js:18-25 | a new request appears among the addressee's pending requests and never among the sender's |
| Connections.SendRequestKeepsValid | backend/src/controllers/connection.controller.js:18-25 | sending a request keeps pairs canonical and unique |
| Connections.RespondRequestKeepsValid | backend/src/controllers/connection.controller.js:53-54 | answering a request keeps the store invariant |
| Messages.SendMessage | backend/src/controllers/message.controller.js:5-34 | succeeds exactly when an accepted row joins the two users in either column order; otherwise 403 with no write; a success appends one unread message from the caller with the text as given, and echoes it as unread |
| Messages.ConnectedSymmetric | backend/src/controllers/message.controller.js:11-18 | if one side may write to the other, so may the other side |
| Messages.ConnectedIsNormalizedRow | backend/src/controllers/message.controller.js:11-18 | with canonical pairs, the gate is one accepted row for the normalised pair |
| Messages.AcceptOpensMessaging | backend/src/controllers/message.controller.js:11-18 | accepting a request lets either participant send to the other |
| Messages.RejectKeepsGateClosed | backend/src/controllers/message.controller.js:11-18 | after a rejection the two users cannot message each other, because the unique pair key leaves no other row that could open the gate |
| Messages.GetMessages | backend/src/controllers/message.controller.js:37-55 | returns exactly the messages between the two users, in either direction, in table order |
| Messages.GetMessagesChronological | backend/src/controllers/message.controller.js:46 | the conversation is strictly ascending by creation time |
| Messages.GetMessagesIgnoresConnections | backend/src/controllers/message.controller.js:42-48 | reading a conversation does not depend on the connections table |
| Messages.MarkRows | backend/src/controllers/message.controller.js:77-82 | marks read exactly the listed messages that are unread and addressed to the caller, recording the time; all other messages stay unchanged |
| Messages.MarkAsRead | backend/src/controllers/message.controller.js:58-94 | missing or non-array ids give 400; an empty list is a no-op success; otherwise only the caller's listed unread messages become read, and no message becomes unread |
| Messages.MarkCountIsNewlyRead | backend/src/controllers/message.controller.js:77-89 | the rows the update matches are exactly the rows it flips from unread to read |
| Messages.UpdatedCountIsFlips | backend/src/controllers/message.controller.js:86-89 | the reported `updated_count` equals the number of messages flipped from unread to read |
| Messages.MarkAsReadTwice | backend/src/controllers/message.controller.js:77-82 | repeating a mark-as-read reports zero updates and leaves the store as the first call left it |
| Messages.MarkingClearsSender | backend/src/controllers/message.controller.js:77-82 | marking all of one sender's unread messages read removes that sender from the caller's unread counts |
| Messages.MarkAsReadKeepsValid | backend/src/controllers/message.controller.js:77-82 | marking keeps `read_at` set exactly for read messages |
| Messages.SendMessageKeepsValid | backend/src/controllers/message.controller.js:20-23 | sending keeps ids, timestamps and receipts consistent |
| Messages.Bump | backend/src/controllers/message.controller.js:101-107 | counting one more message raises that sender's group by one and no other group |
| Messages.Group | backend/src/controllers/message.controller.js:101-107 | the group-by has one non-empty group per sender; each group's count is the number of unread messages from that sender to the caller; the groups sum to the caller's total unread |
| Messages.ToMap | backend/src/controllers/message.controller.js:109-112 | the object's keys are exactly the senders of the groups |
| Messages.ToMapAgreesWithLookup | backend/src/controllers/message.controller.js:109-112 | with distinct groups, the object maps each sender to its group's count, and a sender is present exactly when that count is positive |
| Messages.GetUnreadCount | backend/src/controllers/message.controller.js:97-119 | each sender with unread messages for the caller maps to how many there are; senders with none are absent |
| Messages.UnreadGroupsAddUp | backend/src/controllers/message.controller.js:101-112 | the counts sum to the caller's total unread, and the keys are exactly the senders with a group |
| Applications.GetAllOpportunities | backend/src/controllers/applications.controller.js:8-23 | exactly the active postings, each with its company name |
| Applications.GetAllOpportunitiesNewestFirst | backend/src/controllers/applications.controller.js:16 | the listing is strictly descending by creation time |
| Applications.Apply | backend/src/controllers/applications.controller.js:25-86 | the checks run in order: a non-student gets 403; a missing or closed posting gets 404; a repeat gets 400, all with no write; otherwise exactly one pending application is appended; the reply is 201 when the applicant's rows exist, and otherwise 500 with the application kept |
| Applications.ApplyTwice | backend/src/controllers/applications.controller.js:44-49 | a second application by the same student to the same posting gets 400 and writes nothing |
| Applications.ApplyKeepsValid | backend/src/controllers/applications.controller.js:52-55 | applying keeps at most one application per student and posting, along with the other invariants |
| Applications.ApplyBumpsPostingCount | backend/src/controllers/applications.controller.js:52-55 | a successful application raises the posting's application count by one |
| Applications.ClosedPostingRefusesApplications | backend/src/controllers/applications.controller.js:33-41 | once its owner sets any status other than active, the posting answers applications with 404 |
| Applications.GetMyApplications | backend/src/controllers/applications.controller.js:92-114 | non-students get 403; otherwise every application of the caller whose posting exists, with that posting, and nothing else |
| Applications.GetMyApplicationsNewestFirst | backend/src/controllers/applications.controller.js:105 | the caller's applications are strictly descending by application time |
| Review.ParseStatus | backend/src/controllers/application.controller.js:49-50 | a string is accepted only as the spelling of the status it yields |
| Review.ParseStatusName | backend/src/controllers/application.controller.js:49 | each of the three status names is accepted as itself |
| Review.OwnedPosting | backend/src/controllers/application.controller.js:11-20 | non-alumni get 403; a missing posting gets 404; a posting owned by someone else gets 403; otherwise the caller's own posting is returned |
| Review.Applicants | backend/src/controllers/application.controller.js:23-33 | exactly the posting's applications whose student has a profile and a user row, with that profile and email (only the accepted ones when asked) |
| Review.ApplicantsNewestFirst | backend/src/controllers/application.controller.js:31 | applicants are strictly descending by application time |
| Review.GetApplicationsForOpportunity | backend/src/controllers/application.controller.js:6-40 | fails exactly as the ownership gate does (so a non-owner gets 403 "Not authorized"), and otherwise returns every applicant to the posting |
| Review.GetAcceptedStudents | backend/src/controllers/application.controller.js:91-141 | fails exactly as the ownership gate does; otherwise returns the posting's title and only accepted applications to that posting |
| Review.NonOwnerRefused | backend/src/controllers/application.controller.js:18-20 | an alumnus asking for the applicants or the accepted students of somebody else's posting gets 403 "Not authorized" from both listings |
| Review.AcceptedAreAcceptedApplicants | backend/src/controllers/application.controller.js:119-127 | the accepted list is exactly the applicant list restricted to the accepted status |
| Review.FindReviewable | backend/src/controllers/application.controller.js:53-59 | finds the application with the given id whose posting exists; none exactly when no such application exists |
| Review.SetAppStatus | backend/src/controllers/application.controller.js:63 | only the application with the given id changes, and only in its status |
| Review.UpdateApplicationStatus | backend/src/controllers/application.controller.js:42-86 | non-alumni get 403, and a status other than the three names gets 400, both with no write; a missing application gets 404; an application on somebody else's posting gets 403 "Not authorized" with no write; an owner's call changes only that application's status |
| Review.UpdateApplicationStatusKeepsValid | backend/src/controllers/application.controller.js:63 | a status update keeps the store invariant |
| Review.SetAppStatusKeepsInvariants | backend/src/controllers/application.controller.js:63 | a status update keeps ids, timestamps and the one-application-per-student rule |
| Review.UpdateByOwner | backend/src/controllers/application.controller.js:60-63 | an owner's update lands on the application, which stays reviewable by the same owner |
| Review.NoTerminalStatus | backend/src/controllers/application.controller.js:63 | after any status is set, the owner can move the application to any of the three statuses, so no status is terminal |
| Opportunities.CompanyByName | backend/src/controllers/opportunity.controller.js:11-14 | the company is looked up by name under the assumed binary collation; a missing name matches nothing |
| Opportunities.CreateOpportunity | backend/src/controllers/opportunity.controller.js:5-74 | an unknown company gives 400 with no write; otherwise exactly one posting is appended, owned by the caller, with the found company and the given fields; the reply is 201 when the poster's profile exists and the mail went out, and otherwise 500 with the posting kept |
| Opportunities.CreateHasNoRoleCheck | backend/src/controllers/opportunity.controller.js:5-26 | a student caller also creates a posting |
| Opportunities.CreateOpportunityKeepsValid | backend/src/controllers/opportunity.controller.js:23-26 | creating a posting keeps the store invariant |
| Opportunities.ApplicationCountAppend | backend/src/controllers/opportunity.controller.js:84 | a new application raises the count of its own posting by one and leaves every other count unchanged |
| Opportunities.GetMyPostings | backend/src/controllers/opportunity.controller.js:76-97 | non-alumni get 403; otherwise exactly the caller's postings, each with its company name and application count |
| Opportunities.GetMyPostingsNewestFirst | backend/src/controllers/opportunity.controller.js:88 | postings are strictly descending by creation time |
| Opportunities.ApplyEdit | backend/src/controllers/opportunity.controller.js:111-114 | only the row with the given id changes, and only in title, description, type and status |
| Opportunities.UpdateOpportunity | backend/src/controllers/opportunity.controller.js:100-121 | non-alumni get 403, a missing id gets 404, and a non-owner gets 403, each with no write; success changes only the four editable fields of that posting |
| Opportunities.UpdateOpportunityKeepsValid | backend/src/controllers/opportunity.controller.js:111-114 | an edit keeps the store invariant |
| Admin.GetPendingUsers | backend/src/controllers/admin.controller.js:6-23 | exactly the unverified alumni that have a profile row |
| Admin.GetPendingUsersOldestFirst | backend/src/controllers/admin.controller.js:15 | pending alumni are strictly ascending by creation time |
| Admin.SetVerified | backend/src/controllers/admin.controller.js:43 | only the alumni rows with the given id change, and only in their verified flag |
| Admin.SetVerification | backend/src/controllers/admin.controller.js:30-44 | 404 with no write exactly when the id is not an alumnus; otherwise the flag is written and the reply is success; only the users table changes |
| Admin.VerifyUser | backend/src/controllers/admin.controller.js:26-105 | a non-alumnus gets 404 with no write; otherwise that alumnus becomes verified and the reply is success |
| Admin.RevokeUser | backend/src/controllers/admin.controller.js:108-172 | a non-alumnus gets 404 with no write; otherwise that alumnus becomes unverified and the reply is success |
| Admin.MailDoesNotMatter | backend/src/controllers/admin.controller.js:47-100 | whether the e-mail goes out changes neither the reply nor the store |
| Admin.OnlyAlumniRowsChange | backend/src/controllers/admin.controller.js:43-44 | student and admin rows are never touched by verify or revoke |
| Admin.VerifyIdempotent | backend/src/controllers/admin.controller.js:43-44 | verifying twice leaves the store as verifying once does |
| Admin.VerifyThenRevoke | backend/src/controllers/admin.controller.js:124-125 | verify followed by revoke leaves the alumnus unverified |
| Admin.VerifyClearsPending | backend/src/controllers/admin.controller.js:9-16 | a verified alumnus is no longer pending |
| Admin.RevokeRestoresPending | backend/src/controllers/admin.controller.js:9-16 | a revoked alumnus with a profile is pending again |
| Admin.SetVerificationKeepsValid | backend/src/controllers/admin.controller.js:43 | verify and revoke keep the store invariant |
| Auth.FindCompany | backend/src/controllers/auth.controller.js:68-69 | finds a company whose lower-cased name equals the key; none exactly when no company matches |
| Auth.FindCompanyAppend | backend/src/controllers/auth.controller.js:68-73 | appending a company keeps an existing first match and is found when nothing earlier matched |
| Auth.GetOrCreateCompany | backend/src/controllers/auth.controller.js:62-74 | a missing or blank name gives NULL with no write; a case-insensitive match on the trimmed name returns its id with no write; otherwise the trimmed name is inserted with the next id |
| Auth.GetOrCreateCompanyIdempotent | backend/src/controllers/auth.controller.js:68-73 | a second call with a name differing only in case or surrounding space returns the same id and adds no row |
| Auth.GetOrCreateCompanyKeepsNumbered | backend/src/controllers/auth.controller.js:72-73 | the companies table grows by at most the inserted row and keeps positional ids |
| Auth.RegisterStudent | backend/src/controllers/auth.controller.js:77-135 | a form outside the schema (bounds, a CGPA string that is no numeral, "" included, the CGPA range after Joi rounds it to hundredths, an empty string inside a list) or a taken email gets 400 with no write; success appends a verified student and its profile; a clashing profile row rolls back to 500 |
| Auth.RegisterAlumni | backend/src/controllers/auth.controller.js:138-198 | the same gates (an experience entry needs company, role and duration, an education entry degree, institution and year, and no list item may be empty); success appends an unverified alumnus, the company from get-or-create, and the profile; a rollback undoes the company too |
| Auth.RoundToCents | backend/src/controllers/auth.controller.js:16 | `precision(2)` with conversion rounds to the nearest hundredth: the result is within 0.005 of the input, halves going up, and is a whole number of hundredths |
| Auth.RoundToCentsKeepsCents | backend/src/controllers/auth.controller.js:16 | a number that is a whole number of hundredths is its own rounding |
| Auth.RoundToCentsIdempotent | backend/src/controllers/auth.controller.js:16 | rounding an already rounded CGPA changes nothing |
| Auth.JoiCgpa | backend/src/controllers/auth.controller.js:16 | the CGPA field is refused exactly when it is a string that is no numeral; a missing or null field hands on no CGPA; otherwise the number sent, or the numeral's value, comes out rounded to within 0.005 |
| Numerals.NatNumeral | backend/src/controllers/auth.controller.js:16 | Joi's string conversion reads a rendered whole number back as that number |
| Numerals.CentsNumeral | backend/src/controllers/auth.controller.js:16 | Joi's string conversion reads a number written with two decimals as its value |
| Auth.RegisteredStudentColumns | backend/src/controllers/auth.controller.js:108-122 | the columns written through `OrNull`, `OrEmpty` and `CgpaOrNull`: phone and major hold NULL exactly when the form field was falsy and otherwise the field itself, so never ""; the CGPA is the rounded number sent, NULL when it rounds to 0, and within 0.005 of what was sent; bio and the three URLs hold "" exactly when the field was falsy and otherwise the field itself, so never NULL; skills, certifications and projects are stored as sent, without empty items |
| Auth.RegisterTwiceRejected | backend/src/controllers/auth.controller.js:91-95 | after a student registration, registering the same email again, as a student or with a valid alumni form, gets 400 with no write |
| Auth.RegisterStudentKeepsValid | backend/src/controllers/auth.controller.js:98-123 | student registration keeps emails unique and the other invariants |
| Auth.RegisterAlumniKeepsValid | backend/src/controllers/auth.controller.js:158-186 | alumni registration keeps emails unique and the other invariants |
| Auth.FindByEmail | backend/src/controllers/auth.controller.js:206-210 | finds a user with the given email; none exactly when the email is not taken |
| Auth.Login | backend/src/controllers/auth.controller.js:201-230 | missing credentials give 400; an unknown email gives 400; a known email with a wrong password gives 400 before any verification check, so it reveals nothing about the account; an unverified alumnus with the right password gets 403; everyone else gets the token of the stored user |
| Auth.LoginGate | backend/src/controllers/auth.controller.js:216-219 | with correct credentials, the only refusal is for an unverified alumnus, and students and admins are never blocked; an accepted login carries the stored user's id, role and verified flag (`TokenOf`, the payload `signToken` signs at lines 53-59) |
| Auth.FindByEmailUnique | backend/src/controllers/auth.controller.js:206-210 | with unique emails, the lookup finds exactly the user holding that email |
| Auth.RegisteredStudentCanLogIn | backend/src/controllers/auth.controller.js:98-101 | a newly registered student can log in straight away, with a token for its new id, the student role and verified set |
| Auth.RegisteredAlumnusWaitsForVerification | backend/src/controllers/auth.controller.js:158-161 | a newly registered alumnus gets 403 at login until an admin verifies the account, and gets a token afterwards |
| Auth.VerifiedAlumnusFound | backend/src/controllers/auth.controller.js:206-219 | after verification, a login by the alumnus's email finds the verified row |
| Middleware.SplitBearer | backend/src/middleware/auth.middleware.js:8-12 | splitting on one space gives exactly `Bearer` and one more piece precisely for a header of that shape, and the second piece is the token |
| Middleware.Authenticate | backend/src/middleware/auth.middleware.js:4-23 | a missing or empty header, a malformed header, an empty token or a failed verification each get 401; the request passes exactly for a well-shaped header whose token verifies, with the decoded payload as caller |
| Middleware.LowerCaseSchemeRefused | backend/src/middleware/auth.middleware.js:9-11 | the scheme is compared case-sensitively, so `bearer` is refused as malformed |
| Middleware.DoubleSpaceRefused | backend/src/middleware/auth.middleware.js:8-11 | two spaces after the scheme make three pieces, and the header is refused |
| Middleware.EmptyTokenRefused | backend/src/middleware/auth.middleware.js:13 | `Bearer ` with nothing after it is refused as a missing token |
| Middleware.Guard | backend/src/routes/admin.routes.js:8-10 | `authenticate` followed by `requireRole` (`RequireRole`: no caller 401, another role 403) passes exactly an authenticated caller with the required role |
| Middleware.VerifyRoute | backend/src/routes/admin.routes.js:9 | a request stopped by the gate changes nothing; otherwise it is `verifyUser` |
| Middleware.NonAdminCannotVerify | backend/src/routes/admin.routes.js:9 | a valid token whose payload is not an admin's gets 403, and the users table is not touched |
| Directory.RowOf | backend/src/controllers/user.controller.js:16-27 | a result row carries the user's id, email and role; its name is the student profile's when there is one, else the alumni profile's (`COALESCE`), NULL exactly without either profile; position comes from the alumni profile and major from the student profile, NULL without it; the company name is that of a company row with the profile's company id, and is present whenever such a row exists |
| Directory.RegisteredAlumnusRow | backend/src/controllers/user.controller.js:16-27 | after an alumni registration, the new user's directory row shows the registered name and position, no major, and a company exactly when a non-blank company name was typed, whose name matches the typed one up to case and surrounding white space |
| Directory.CompanyAtItsId | backend/src/controllers/user.controller.js:26 | with positional ids, the `LEFT JOIN companies` on a company row's id yields that row's name |
| Directory.Ranked | backend/src/controllers/user.controller.js:28-35 | the ranking holds exactly the verified users whose student name, alumni name or email contains the term |
| Directory.RankedNamesFirst | backend/src/controllers/user.controller.js:30-35 | a name match is never ranked after an email-only match |
| Directory.Search | backend/src/controllers/user.controller.js:5-44 | a missing query, or one shorter than two characters after trimming, gets 400; otherwise the first twenty ranked matches for the trimmed query |
| Directory.SearchSound | backend/src/controllers/user.controller.js:28-36 | there are at most twenty results, each the row of a verified user matching the trimmed query |
| Directory.SearchComplete | backend/src/controllers/user.controller.js:28-36 | with at most twenty matches, every match is returned |
| Directory.SearchTrimsQuery | backend/src/controllers/user.controller.js:8-13 | surrounding white space in the query makes no difference |
| Directory.SearchSkipsUnverified | backend/src/controllers/user.controller.js:29 | an unverified user is never found |
| Directory.GetAllUsers | backend/src/controllers/user.controller.js:47-72 | always 200; as many rows as there are verified users, up to fifty; every row is the row of a verified user; with fifty or fewer verified users every one of them is listed (the order is the next row) |
| Directory.GetAllUsersNewestFirst | backend/src/controllers/user.controller.js:62-64 | the browse list is at most fifty verified users, strictly descending by creation time |
| Profiles.SafeJsonParse | backend/src/controllers/profile.controller.js:5-16 | falsy input gives the default; an already-decoded object or array is returned as is; text gives its parse when that is an array, and the default otherwise |
| Profiles.StoredListReadsBack | backend/src/controllers/profile.controller.js:10-11 | a list written with `JSON.stringify` reads back as the same list |
| Profiles.NonArrayTextFallsBack | backend/src/controllers/profile.controller.js:10-14 | text that fails to parse, or parses to a non-array, gives the default |
| Profiles.GetUserProfile | backend/src/controllers/profile.controller.js:19-128 | an unknown user gets 404 "User not found"; an unverified alumnus gets 403 (and only that case gets 403); a student without a profile row gets 404 "Student profile not found", a verified alumnus without one 404 "Alumni profile not found"; otherwise the view matches the role; an alumnus's company name is the name of the company row the profile points at, none when there is no such row; an admin is shown as `Administrator` with role admin |
| Profiles.AlumniProfileVisibility | backend/src/controllers/profile.controller.js:38-40 | an alumnus with a profile row is visible exactly when verified |
| Profiles.UpdateStudentProfile | backend/src/controllers/profile.controller.js:131-171 | 404 with no write exactly when the caller has no student profile; an omitted name or graduation year (NULL for a NOT NULL column) makes the update fail with 500 and no write; otherwise only that row changes, every other column to the value sent, an omitted one to NULL, and an omitted list to `[]` (`OrNone`) |
| Profiles.ResolveCompany | backend/src/controllers/profile.controller.js:198-214 | a missing or empty name gives NULL with no write; a case-insensitive match on the untrimmed name gives its id; otherwise the untrimmed name is inserted |
| Profiles.UpdateAlumniProfile | backend/src/controllers/profile.controller.js:174-243 | 404 with no write exactly when the caller has no alumni profile; an omitted name or graduation year makes the update fail with 500 and rolls back any company insert; otherwise the company is resolved, that row takes the values sent (an omitted column NULL, an omitted list `[]`), and possibly one new company is the only other change |
| Profiles.OmittedBioBecomesNull | backend/src/controllers/profile.controller.js:150-164 | a registered student's bio is never NULL, but an update that omits it writes NULL over it, while the fields it does send are stored as sent |
| Profiles.EditDoesNotTrimCompany | backend/src/controllers/profile.controller.js:199-214 | a company name with a leading space finds the existing company at registration but creates a second company on a profile edit |
| Profiles.RegistrationTrimsCompany | backend/src/controllers/auth.controller.js:64-69 | registration trims a leading space away before the case-insensitive lookup |
| Profiles.EditKeepsSpacedCompany | backend/src/controllers/profile.controller.js:200-212 | the profile edit looks up the name with its space and, finding nothing, inserts it |
| Profiles.ResolveCompanyIdempotent | backend/src/controllers/profile.controller.js:199-214 | resolving the same name twice gives the same id and adds at most one row |
| Profiles.UpdateProfilesKeepValid | backend/src/controllers/profile.controller.js:150-232 | both profile updates keep the store invariant |
| Strings.Trim | backend/src/controllers/user.controller.js:8 | the trimmed text neither starts nor ends with white space, is no longer than the input, and is empty exactly for blank input; `TrimIsSlice` places it in the input |
| Strings.TrimIsSlice | backend/src/controllers/user.controller.js:8 | the trim is the slice of the input between a blank prefix and a blank suffix |
| Strings.BlankIffTrimsEmpty | frontend/src/components/AlumniRegister.jsx:58 | `!s.trim()` holds exactly for text made only of white space |
| Strings.TrimIdempotent | frontend/src/components/EditAlumniProfile.jsx:100 | trimming twice is trimming once |
| Strings.ContainsMeansOccurs | frontend/src/components/Connections/ConnectionList.jsx:156 | `includes` holds exactly when the needle occurs at some offset |
| Strings.Split | frontend/src/components/EditAlumniProfile.jsx:100 | splitting on a character gives at least one piece, and no piece holds the separator |
| Strings.JoinSplit | frontend/src/components/EditAlumniProfile.jsx:100 | joining the pieces of a split with the separator gives back the text |
| Strings.SplitJoin | frontend/src/components/EditStudentProfile.jsx:43 | splitting a join of separator-free pieces gives back the pieces |
| Lists.RemoveAt | frontend/src/components/AlumniRegister.jsx:67-69 | removing index i keeps the elements before and after i in order; an index outside the list removes nothing |
| Lists.EnterUniqueKeepsInvariant | frontend/src/components/AlumniRegister.jsx:60-63 | Enter in a skills box (`EnterUnique`: blank input ignored, the trimmed text appended unless present, the box cleared) never gives the skill list a duplicate, nor a blank or untrimmed entry |
| Lists.EnterAppendKeepsTrimmed | frontend/src/components/StudentRegister.jsx:82-88 | Enter in a certifications or projects box (`EnterAppend`: the same without the duplicate check) only adds non-empty trimmed entries |
| Lists.EnterUniqueTwice | frontend/src/components/StudentRegister.jsx:54-62 | entering the same skill twice leaves the list as entering it once does |
| Lists.RemoveAtKeepsNoDuplicates | frontend/src/components/StudentRegister.jsx:64-66 | removing an entry keeps the skill list free of duplicates |
| Lists.ParseList | frontend/src/components/EditAlumniProfile.jsx:100-101 | the parsed list holds exactly the non-empty trimmed comma pieces, each non-empty and already trimmed |
| Lists.ParseListText | frontend/src/components/EditAlumniProfile.jsx:28-29 | a list joined with `", "` for the pre-fill parses back to itself, when its entries are non-empty, trimmed and free of commas |
| Lists.ParseListOfEmpty | frontend/src/components/EditStudentProfile.jsx:43-45 | empty text parses to the empty list, so the `text ? … : []` guard changes nothing |
| Register.SkillsStayDistinct | frontend/src/components/AlumniRegister.jsx:57-69 | whatever sequence of typing, Enter and removals the user performs, the skill list stays free of duplicates and of blank or untrimmed entries |
| Register.RemoveAtKeepsTrimmed | frontend/src/components/AlumniRegister.jsx:67-69 | removing an entry keeps every remaining entry non-empty and trimmed |
| Register.RemoveUndoesAppend | frontend/src/components/AlumniRegister.jsx:80-82 | the remove button of the entry just added restores the earlier list |
| Register.SaveEducation | frontend/src/components/AlumniRegister.jsx:121-128 | the entry is taken exactly when institution and degree are non-empty, the year being left optional, and the list is otherwise unchanged |
| Register.EducationWithoutYearRefused | frontend/src/components/AlumniRegister.jsx:121-128 | an education entry saved without a year makes every alumni registration carrying it fail with 400, whatever the rest of the form |
| Register.SaveEducationForSchema | backend/src/controllers/auth.controller.js:43-48 | the corrected save takes an entry exactly when it meets the schema's education rule (degree, institution and year non-empty) |
| Register.SavedEducationPassesSchema | backend/src/controllers/auth.controller.js:43-48 | whatever entries the user tries to save, the list the corrected saves build always passes the schema's education rule |
| Register.SavedExperienceComplete | frontend/src/components/AlumniRegister.jsx:96-103 | `saveExperience` (`SaveExperience`) takes an entry exactly when it meets the registration schema's experience rule, so a list built by saves always passes that rule |
| Register.BackUndoesNext | frontend/src/components/AlumniRegister.jsx:135-145 | back (`PrevStep`, one step down) undoes a successful next (`NextStep`) |
| Register.StuckOnFirstStep | frontend/src/components/AlumniRegister.jsx:136-139 | with a required account field empty, no number of Next presses (`NextStep`) leaves step 1 |
| Register.SubmittedSkillsDistinct | frontend/src/components/StudentRegister.jsx:54-66 | the payload `StudentSubmit` sends carries the skill list as the box left it, and after any session at the box those skills are distinct, non-empty and trimmed |
| Register.SentCgpa | frontend/src/components/StudentRegister.jsx:99-104 | the CGPA goes out as the number box's text, and Joi refuses it exactly when that text is no numeral |
| Register.BlankCgpaRefused | frontend/src/components/StudentRegister.jsx:12-13 | a student who leaves the optional CGPA box empty sends "" and every registration is refused with 400 and no write, whatever the rest of the form |
| Register.SentCgpaCorrected | frontend/src/components/StudentRegister.jsx:99-104 | the corrected payload (`cgpa: form.cgpa || null`) is refused only for non-empty text that is no numeral, and sends a filled box as before |
| Register.BlankCgpaAccepted | backend/src/controllers/auth.controller.js:16 | with the correction an empty CGPA box means no CGPA: the form is judged, and the profile written, as if the field were left out |
| Register.FilledCgpaConverted | frontend/src/components/StudentRegister.jsx:381-390 | a two-decimal number in the box (`"8.50"`) reaches the server as that number under both payloads |
| EditProfile.ValidateAsWritten | frontend/src/components/EditAlumniProfile.jsx:51-75 | the verdict is true exactly when no error is recorded; a name error stored by an earlier check is never cleared |
| EditProfile.StaleErrorBlocksSubmit | frontend/src/components/EditAlumniProfile.jsx:52-55 | a form once submitted with a blank name stays refused after the name is filled in, however complete it now is |
| EditProfile.StaleErrorExample | frontend/src/components/EditAlumniProfile.jsx:52-55 | concretely: a filled form submitted with the name cleared, then refilled, is still refused |
| EditProfile.Validate | frontend/src/components/EditAlumniProfile.jsx:55-71 | accepted exactly when name, company and position are not blank, the year is filled in, and both JSON fields are blank or parse; the name error is set exactly for a blank name |
| EditProfile.ValidateAgreesOnFirstSubmit | frontend/src/components/EditAlumniProfile.jsx:51-75 | on a first submit the written check equals the corrected one, and the written check never accepts a form the corrected one refuses |
| EditProfile.SubmitAlumni | frontend/src/components/EditAlumniProfile.jsx:77-102 | `handleSubmit` over the corrected check `Validate`: a refused form sends nothing and shows the fix-errors message; otherwise the text fields go out trimmed (name, company and position non-empty), blank JSON fields as `[]`, a filled JSON field as the parse of its text, and the lists parsed from comma text |
| EditProfile.AlumniListsSurviveEdit | frontend/src/components/EditAlumniProfile.jsx:28-29 | opening the form and submitting it untouched sends the same skills and certifications, for entries that are trimmed, non-empty and free of commas |
| EditProfile.SubmittedList | frontend/src/components/EditStudentProfile.jsx:43-45 | empty text submits `[]`; any other text submits its split, trimmed, non-empty pieces |
| EditProfile.SubmitStudent | frontend/src/components/EditStudentProfile.jsx:41-46 | the non-list fields go out unchanged, and each list is the comma split of its text with the pieces trimmed and empty ones dropped (`[]` for empty text) |
| EditProfile.StudentListSurvivesEdit | frontend/src/components/EditStudentProfile.jsx:26-45 | opening the form (the pre-fill `StudentListText` joins a stored array with `", "`) and submitting it untouched sends each list back as it was, for entries that are trimmed, non-empty and free of commas |
| EditProfile.StudentListsSurviveSubmit | frontend/src/components/EditStudentProfile.jsx:26-46 | submitting the pre-filled form untouched sends exactly the stored skills, certifications and projects, and the other fields unchanged, for entries that are trimmed, non-empty and free of commas |
| EditProfile.CommaSplitsEntry | frontend/src/components/EditStudentProfile.jsx:26-45 | an entry holding a comma comes back as two entries |
| Views.FilterUsers | frontend/src/components/UserSearch.jsx:34-45 | keeps exactly the non-admin users other than the signed-in one, restricted to the chosen role, as an order-preserving subsequence |
| Views.RoleFilterNarrowsAll | frontend/src/components/UserSearch.jsx:40-42 | choosing a role shows exactly the users of the `all` view that have that role, in the same order |
| Views.HeadsAreWordStarts | frontend/src/components/UserSearch.jsx:112-115 | taking the first character of each piece of a split on spaces gives exactly the non-space characters that start a word |
| Views.TakeTwo | frontend/src/components/UserSearch.jsx:116 | takes a prefix of at most two characters, and exactly two when the text has them |
| Views.SearchInitials | frontend/src/components/UserSearch.jsx:111-118 | at most two characters with no lower-case letter: the first two word starts, upper-cased |
| Views.DoubleSpaceAddsNothing | frontend/src/components/UserSearch.jsx:111-118 | two words separated by two spaces give the same initials as with one space |
| Views.EmailLocalPart | frontend/src/components/Connections/ConnectionList.jsx:145 | the text before the first `@`, or all of it when there is none |
| Views.DisplayName | frontend/src/components/Connections/ConnectionList.jsx:144-146 | never empty; a non-empty name wins, then a non-empty email local part, then `User <id>` |
| Views.DisplayNameFallback | frontend/src/components/Connections/ConnectionList.jsx:145 | without a name or a usable email, the display name starts with `User ` and holds no `@` |
| Views.ListInitials | frontend/src/components/Connections/ConnectionList.jsx:148-150 | a missing name, or one with no word start, gives `??`; otherwise the same initials as the search page; always one or two characters with no lower-case letter |
| Views.FilterContacts | frontend/src/components/Connections/ConnectionList.jsx:152-157 | keeps exactly the connections whose lower-cased display name or email contains the lower-cased query, as an order-preserving subsequence |
| Views.EmptyQueryKeepsAll | frontend/src/components/Connections/ConnectionList.jsx:152-157 | an empty search box shows every connection |
| Views.QueryCaseIgnored | frontend/src/components/Connections/ConnectionList.jsx:155 | upper-casing the query does not change the result |
| Views.OwnMessagesAreThoseToPeer | frontend/src/components/Connections/ConnectionList.jsx:140-142 | in a conversation with someone else, a message is drawn as one's own (`IsCurrentUser`: signed in and the sender) exactly when it was sent to that peer |
| Views.SentTextIsTyped | frontend/src/components/Connections/ConnectionList.jsx:98-105 | `sendMessage`'s guard (`SendGuard`) sends nothing for blank text or no open chat; to a connection, a guarded message is stored with its surrounding white space intact |
| Views.FilterApplications | frontend/src/components/MyApplications.jsx:39-41 | `all` shows the list unchanged; any other filter keeps exactly the applications with that lower-cased status, in order |
| Views.StatusCounts | frontend/src/components/MyApplications.jsx:44-49 | the total is the list length, and each counter is the length of the list its filter would show |
| Views.CountsWithinTotal | frontend/src/components/MyApplications.jsx:44-49 | pending + accepted + rejected never exceeds the total |
| Views.DefaultIconIffUnknown | frontend/src/components/MyApplications.jsx:61 | each of the six known types gets its own icon (`TypeIcon`), and the light bulb is shown exactly for types outside the six |
| Base.NewestFirst | backend/src/controllers/applications.controller.js:15-16 | selecting rows of an ascending table and reversing them gives a strictly descending listing |

## Left out

- SQL text, connection pools, transactions and JOIN mechanics: tables are sequences, and a join is a lookup in the model. `LIKE` collation and the `%` / `_` wildcards are not modelled; search matching is plain substring containment.
- The MySQL schema is not part of this model. Five schema facts are assumed:
  - ids are auto-increment;
  - a posting inserted without a status is `active`;
  - `(user_a, user_b)` is a unique key, as the duplicate-entry branch at connection.controller.js:27-29 implies;
  - `name` and `graduation_year` of both profile tables are NOT NULL, so an update that writes NULL to either fails;
  - text columns use a binary collation, so `=` on names and emails is exact string equality.
- bcrypt and jsonwebtoken are foreign code. Password hashing and comparison, and token signing and verification, are parameters (a hash string, a comparison predicate, a verify function). Token expiry belongs to the verify function.
- Joi format checks (email syntax, URIs, maximum lengths) and the text of Joi's error messages are not modelled. The numeric bounds, the minimum lengths, the refusal of empty strings (also inside arrays) and the rounding of the CGPA to hundredths are kept. A validation failure replies with one constant message.
- Auth.RoundToCents: JavaScript computes `Math.round(v * 100) / 100` in binary floating point; the model rounds exact reals, so results can differ in the last bit for inputs that are not exactly representable.
- Auth.RegisterStudent, Auth.RegisterAlumni, Connections.SendRequest: ids are taken to be the next position in the table. MySQL's auto-increment can leave gaps after a failed or rolled-back insert, so a real id can be larger than the model's; id values are the model's choice, and only their uniqueness and the row they name are promised.
- `JSON.parse` and `JSON.stringify` are parameters. A parse is an optional decoded value, so the model states what `safeJsonParse` does with each outcome, not how text is decoded.
- Every e-mail send (`sendEmail`, utils/email.js). Delivery is a boolean parameter, and it matters only where the handler awaits it outside a try (`createOpportunity`).
  - In admin.controller.js the helper is destructured from a module that exports a bare function, so it is `undefined` there. That failure is caught inside verify and revoke and never reaches the reply.
- `notifyAcceptedStudents` (application.controller.js:144-227): it only sends e-mail to a list of students and writes nothing.
- `getProfile` in auth.controller.js (line 233 onward): it duplicates profile reading.
- Concurrency: races between duplicate requests, the check-then-insert in `sendMessage` and `applyToOpportunity`, and the frontends' polling timers. The model is sequential.
- Timestamps come from a logical clock. Date formatting and display arithmetic in the components are left out.
- The `affectedRows === 0` branches after a successful select in `verifyUser` and `revokeUser` (admin.controller.js:44, 125): sequentially they cannot be reached, because the row was just found.
- Profiles.UpdateStudentProfile, Profiles.UpdateAlumniProfile: a field absent from the body is `undefined`, which the driver writes as NULL; the edit records hold such fields as `None`, and a `None` is stored as NULL (or makes the update fail for a NOT NULL column). An explicit `null` in the body is not told apart from an absent field.
- Profiles.UpdateStudentProfile: the edit form sends the CGPA and the graduation year as text (`profile.cgpa || ""`, EditStudentProfile.jsx:17-21), bound straight into the DECIMAL and INT columns. The edit record holds the values MySQL would convert that text to; the conversion itself, and its refusal of "" under strict SQL mode, are not modelled.
- Opportunities.CreateOpportunity, Opportunities.UpdateOpportunity, Messages.SendMessage: these bodies are read as plain strings. A `title`, `description`, `type`, `status` or `message_text` left out of the body is `undefined` and bound as NULL, exactly as for profile updates; the model cannot express an omitted field, and what the columns do with NULL is not modelled.
- Auth.StudentForm: only `cgpa` is read as a raw body value. The other numeric field, `graduation_year`, is taken as the integer Joi converts it to, so a graduation year sent as text is not modelled.
- Numerals.NumeralValue: Joi's `number.unsafe` rule, which refuses a numeral whose digits a double cannot hold exactly, is not modelled; the model reads every numeral exactly.
- Strings.Lower, Strings.Upper: `toLowerCase` and `toUpperCase` are modelled on ASCII letters only; other characters map to themselves.
- Directory.Search: the SQL gives no order within a rank (`ORDER BY CASE … END` only separates name hits from e-mail hits); the model's order within a rank is table order, which is its own choice. Which twenty rows are returned when more than twenty match therefore is not promised to agree with MySQL, only that they are the best-ranked.
- Directory.Search, Auth.CommonBounds: `q.trim().length` and Joi's `min(6)` count UTF-16 code units, while the model counts Unicode scalar values; a query or password with characters outside the Basic Multilingual Plane is measured shorter in the model.
- Views.TakeTwo: JavaScript strings are UTF-16 code units while Dafny `char` is a Unicode scalar value, so `n[0]` and `substring(0, 2)` are modelled on whole characters; surrogate pairs are not split.
- Views.TypeIcon: a lookup on the icon object with an inherited key such as `toString` would return a function in JavaScript; the model treats every key outside the six as unknown.
- Views.DisplayName: the user id is a natural number rendered in decimal; other renderings of `user_id` are not modelled.
- Database failures and the 500 replies of the `catch` blocks they would reach are not modelled: the in-memory store never fails. The 500 replies that follow from the data (a missing profile row read after a write, a failed e-mail in `createOpportunity`) are modelled.
- ChatBox.jsx and MessageNotification.jsx: their helpers duplicate ConnectionList's, and the rest is UI and polling.
- Server wiring, routes, scripts and the other React components are UI glue. The only route fact carried over is the admin gate on the verification routes (admin.routes.js:8-10), modelled by `Middleware.Guard` and `Middleware.VerifyRoute`.

## Findings

| source | as written | input that shows it | evidently intended | confidence | as-written member | corrected member |
|---|---|---|---|---|---|---|
| frontend/src/components/StudentRegister.jsx:12-13 | the wizard starts `cgpa` as "" and `handleSubmit` sends `...form` (lines 99-104), so an untouched optional CGPA box reaches the server as "", which `Joi.number()` refuses (auth.controller.js:16) | fill every required field and leave CGPA empty: registration fails with 400 every time | an empty CGPA box is sent as null (or left out), so the optional field can really be skipped | not executed | Register.BlankCgpaRefused | Register.SentCgpaCorrected |
| frontend/src/components/AlumniRegister.jsx:121-128 | `saveEducation` takes an entry with institution and degree but no year, while the registration schema (auth.controller.js:46) requires a non-empty year | save institution "X", degree "Y" with the year left blank, then submit: the server refuses the registration with 400 every time | the wizard only saves an entry the registration accepts | not executed | Register.EducationWithoutYearRefused | Register.SaveEducationForSchema |
| frontend/src/components/EditAlumniProfile.jsx:51-75 | `validateForm` starts from the previously stored errors (`{ ...jsonErrors }`). It only ever sets required-field messages, and `handleChange` clears only the JSON fields' errors, so a "Name is required" stored once is never removed | submit the form with the name cleared, type the name back, submit again: the second submit is refused although every field is valid | each check recomputes the required-field errors from the current form, so a complete form is accepted | not executed | EditProfile.StaleErrorBlocksSubmit | EditProfile.Validate |

=== FILE: admin.dfy ===
/**
 Alumni verification (backend/src/controllers/admin.controller.js). The
 routes put these handlers behind `authenticate` and `requireRole('admin')`
 (backend/src/routes/admin.routes.js), so they take no caller; the gate is
 modelled in the `Middleware` module.
 */
module Admin {
  import opened Base
  import opened Db

  const NOT_ALUMNI: string := "User not found or not alumni"
  const VERIFIED: string := "User verified"
  const REVOKED: string := "User revoked"

  /** One row of `getPendingUsers`. */
  datatype PendingAlumnus = PendingAlumnus(user: User, profile: AlumniProfile, companyName: Option<string>)

  /** An unverified alumnus with a profile row. */
  predicate AwaitsVerification(s: Store, u: User) {
    u.role == Alumni && !u.verified && u.id in s.alumniProfiles
  }

  function PendingOf(s: Store, u: User): PendingAlumnus
    requires u.id in s.alumniProfiles
  {
    var p := s.alumniProfiles[u.id];
    PendingAlumnus(u, p, if p.companyId.Some? then CompanyName(s, p.companyId.value) else None)
  }

  function PendingTime(p: PendingAlumnus): int { p.user.createdAt }

  /** `getPendingUsers`: unverified alumni with a profile, oldest first. */
  function GetPendingUsers(s: Store): (r: Reply<seq<PendingAlumnus>>)
    ensures r.Ok? && r.code == HTTP_OK
    ensures forall k :: 0 <= k < |r.value| ==>
      r.value[k].user in s.users && AwaitsVerification(s, r.value[k].user) && r.value[k] == PendingOf(s, r.value[k].user)
    ensures forall u :: u in s.users && AwaitsVerification(s, u) ==> PendingOf(s, u) in r.value
  {
    var us := Filter(s.users, (u: User) => AwaitsVerification(s, u));
    var rows := seq(|us|, i requires 0 <= i < |us| => PendingOf(s, us[i]));
    assert forall u :: u in us ==> PendingOf(s, u) in rows by {
      forall u | u in us ensures PendingOf(s, u) in rows {
        var i :| 0 <= i < |us| && us[i] == u;
        assert rows[i] == PendingOf(s, u);
      }
    }
    Ok(HTTP_OK, rows)
  }

  lemma GetPendingUsersOldestFirst(s: Store)
    requires Valid(s)
    ensures IncreasingBy(GetPendingUsers(s).value, PendingTime)
  {
    var us := Filter(s.users, (u: User) => AwaitsVerification(s, u));
    var rows := GetPendingUsers(s).value;
    FilterKeepsIncreasing(s.users, (u: User) => AwaitsVerification(s, u), UserTime);
    forall i, j | 0 <= i < j < |rows| ensures PendingTime(rows[i]) < PendingTime(rows[j]) {
      assert UserTime(us[i]) < UserTime(us[j]);
    }
  }

  /** A user row with id `id` and role alumni exists. */
  predicate IsAlumnus(s: Store, id: int) {
    exists i :: 0 <= i < |s.users| && s.users[i].id == id && s.users[i].role == Alumni
  }

  /** `UPDATE users SET verified = v WHERE user_id = id AND role = 'alumni'`. */
  function SetVerified(users: seq<User>, id: int, v: bool): (r: seq<User>)
    ensures |r| == |users|
    ensures forall i :: 0 <= i < |users| ==>
      r[i] == (if users[i].id == id && users[i].role == Alumni then users[i].(verified := v) else users[i])
  {
    seq(|users|, i requires 0 <= i < |users| =>
      if users[i].id == id && users[i].role == Alumni then users[i].(verified := v) else users[i])
  }

  /** Shared body of verify and revoke: 404 unless `id` is an alumnus, then
      the flag is written. `mailDelivered` says whether the notification
      e-mail went out; its failure is caught and never reaches the reply. */
  function SetVerification(s: Store, id: int, v: bool, done: string, mailDelivered: bool): (r: Step<string>)
    ensures !IsAlumnus(s, id) <==> r == Step(s, Fail(HTTP_NOT_FOUND, NOT_ALUMNI))
    ensures IsAlumnus(s, id) ==> r.reply == Ok(HTTP_OK, done)
    ensures r.store.(users := s.users) == s
    ensures |r.store.users| == |s.users|
    ensures forall i :: 0 <= i < |s.users| ==>
      var before, after := s.users[i], r.store.users[i];
      && after.(verified := before.verified) == before
      && (after.verified != before.verified ==> before.id == id && before.role == Alumni)
      && (IsAlumnus(s, id) && before.id == id && before.role == Alumni ==> after.verified == v)
  {
    if !IsAlumnus(s, id) then Step(s, Fail(HTTP_NOT_FOUND, NOT_ALUMNI))
    else
      var s1 := s.(users := SetVerified(s.users, id, v));
      Step(s1, Ok(HTTP_OK, done))
  }

  /** `verifyUser`. */
  function VerifyUser(s: Store, id: int, mailDelivered: bool): (r: Step<string>)
    ensures !IsAlumnus(s, id) ==> r == Step(s, Fail(HTTP_NOT_FOUND, NOT_ALUMNI))
    ensures IsAlumnus(s, id) ==> r.reply == Ok(HTTP_OK, VERIFIED)
    ensures |r.store.users| == |s.users|
    ensures forall i :: 0 <= i < |s.users| && s.users[i].id == id && s.users[i].role == Alumni ==>
              r.store.users[i].verified
  {
    SetVerification(s, id, true, VERIFIED, mailDelivered)
  }

  /** `revokeUser`. */
  function RevokeUser(s: Store, id: int, mailDelivered: bool): (r: Step<string>)
    ensures !IsAlumnus(s, id) ==> r == Step(s, Fail(HTTP_NOT_FOUND, NOT_ALUMNI))
    ensures IsAlumnus(s, id) ==> r.reply == Ok(HTTP_OK, REVOKED)
    ensures |r.store.users| == |s.users|
    ensures forall i :: 0 <= i < |s.users| && s.users[i].id == id && s.users[i].role == Alumni ==>
              !r.store.users[i].verified
  {
    SetVerification(s, id, false, REVOKED, mailDelivered)
  }

  /** Whether the e-mail goes out changes neither the reply nor the store. */
  lemma MailDoesNotMatter(s: Store, id: int)
    ensures VerifyUser(s, id, true) == VerifyUser(s, id, false)
    ensures RevokeUser(s, id, true) == RevokeUser(s, id, false)
  {
  }

  /** Student and admin rows are never touched by either operation. */
  lemma OnlyAlumniRowsChange(s: Store, id: int, mail: bool)
    ensures forall i :: 0 <= i < |s.users| && s.users[i].role != Alumni ==>
      VerifyUser(s, id, mail).store.users[i] == s.users[i] && RevokeUser(s, id, mail).store.users[i] == s.users[i]
  {
  }

  lemma VerifyIdempotent(s: Store, id: int, m1: bool, m2: bool)
    ensures var s1 := VerifyUser(s, id, m1).store;
            VerifyUser(s1, id, m2).store == s1
  {
    var s1 := VerifyUser(s, id, m1).store;
    if IsAlumnus(s, id) {
      var i :| 0 <= i < |s.users| && s.users[i].id == id && s.users[i].role == Alumni;
      assert s1.users[i].id == id && s1.users[i].role == Alumni;
      assert SetVerified(s1.users, id, true) == s1.users;
    }
  }

  /** Verify followed by revoke leaves the alumnus unverified. */
  lemma VerifyThenRevoke(s: Store, id: int, m1: bool, m2: bool)
    requires IsAlumnus(s, id)
    ensures var s2 := RevokeUser(VerifyUser(s, id, m1).store, id, m2).store;
            forall i :: 0 <= i < |s.users| && s.users[i].id == id && s.users[i].role == Alumni ==>
              |s2.users| == |s.users| && !s2.users[i].verified
  {
    var s1 := VerifyUser(s, id, m1).store;
    var i :| 0 <= i < |s.users| && s.users[i].id == id && s.users[i].role == Alumni;
    assert s1.users[i].id == id && s1.users[i].role == Alumni;
  }

  /** Verification takes an alumnus off the pending list; revocation puts
      one with a profile back. */
  lemma VerifyClearsPending(s: Store, id: int, mail: bool)
    ensures var s1 := VerifyUser(s, id, mail).store;
            forall k :: 0 <= k < |GetPendingUsers(s1).value| ==> GetPendingUsers(s1).value[k].user.id != id
  {
  }

  lemma RevokeRestoresPending(s: Store, id: int, mail: bool, i: int)
    requires 0 <= i < |s.users| && s.users[i].id == id && s.users[i].role == Alumni && id in s.alumniProfiles
    ensures var s1 := RevokeUser(s, id, mail).store;
            PendingOf(s1, s1.users[i]) in GetPendingUsers(s1).value
  {
    var s1 := RevokeUser(s, id, mail).store;
    assert s1.users[i] in s1.users;
  }

  lemma SetVerificationKeepsValid(s: Store, id: int, v: bool, done: string, mail: bool)
    requires Valid(s)
    ensures Valid(SetVerification(s, id, v, done, mail).store)
  {
    var s1 := SetVerification(s, id, v, done, mail).store;
    assert forall i :: 0 <= i < |s.users| ==>
      UserIdOf(s1.users[i]) == UserIdOf(s.users[i]) && UserTime(s1.users[i]) == UserTime(s.users[i])
      && s1.users[i].email == s.users[i].email;
  }
}

=== FILE: applications.dfy ===
/**
 The student side of opportunities
 (backend/src/controllers/applications.controller.js): browsing active
 postings, applying once per posting, and listing one's own applications.
 */
module Applications {
  import opened Base
  import opened Db
  import Opportunities

  const ONLY_STUDENTS_APPLY: string := "Only students can apply"
  const NOT_FOUND_OR_CLOSED: string := "Opportunity not found or closed"
  const ALREADY_APPLIED: string := "Already applied"
  const FAILED_TO_APPLY: string := "Failed to apply"
  const ONLY_STUDENTS_VIEW: string := "Only students can view their applications"

  const ACTIVE: string := "active"

  /** One row of `getAllOpportunities`: the posting and its company's name. */
  datatype Listing = Listing(opportunity: Opportunity, companyName: Option<string>)

  function ListingOf(s: Store, o: Opportunity): Listing {
    Listing(o, CompanyName(s, o.companyId))
  }

  function ListingTime(l: Listing): int { l.opportunity.createdAt }

  /** `getAllOpportunities`: every active posting, newest first. */
  function GetAllOpportunities(s: Store): (r: Reply<seq<Listing>>)
    ensures r.Ok? && r.code == HTTP_OK
    ensures forall k :: 0 <= k < |r.value| ==>
      && r.value[k].opportunity in s.opportunities
      && r.value[k].opportunity.status == ACTIVE
      && r.value[k] == ListingOf(s, r.value[k].opportunity)
    ensures forall o :: o in s.opportunities && o.status == ACTIVE ==> ListingOf(s, o) in r.value
  {
    var open := Reverse(Filter(s.opportunities, (o: Opportunity) => o.status == ACTIVE));
    var rows := seq(|open|, i requires 0 <= i < |open| => ListingOf(s, open[i]));
    assert forall o :: o in open ==> ListingOf(s, o) in rows by {
      forall o | o in open ensures ListingOf(s, o) in rows {
        var i :| 0 <= i < |open| && open[i] == o;
        assert rows[i] == ListingOf(s, o);
      }
    }
    Ok(HTTP_OK, rows)
  }

  lemma GetAllOpportunitiesNewestFirst(s: Store)
    requires Valid(s)
    ensures DecreasingBy(GetAllOpportunities(s).value, ListingTime)
  {
    var open := Reverse(Filter(s.opportunities, (o: Opportunity) => o.status == ACTIVE));
    var rows := GetAllOpportunities(s).value;
    NewestFirst(s.opportunities, (o: Opportunity) => o.status == ACTIVE, OpportunityTime);
    forall i, j | 0 <= i < j < |rows| ensures ListingTime(rows[i]) > ListingTime(rows[j]) {
      assert OpportunityTime(open[i]) > OpportunityTime(open[j]);
    }
  }

  /** A posting a student may apply to: it has id `oid`, it is active, and
      its poster has a user row and an alumni profile (the handler's inner
      joins). */
  predicate OpenFor(s: Store, o: Opportunity, oid: int) {
    o.id == oid && o.status == ACTIVE && FindUser(s, o.alumniId).Some? && o.alumniId in s.alumniProfiles
  }

  predicate IsOpen(s: Store, oid: Option<int>) {
    oid.Some? && exists i :: 0 <= i < |s.opportunities| && OpenFor(s, s.opportunities[i], oid.value)
  }

  /** The student already has an application for the posting. */
  predicate HasApplied(apps: seq<Application>, oid: int, student: int) {
    exists i :: 0 <= i < |apps| && apps[i].opportunityId == oid && apps[i].studentId == student
  }

  /** `applyToOpportunity`: 403 for non-students, 404 for a missing or
      closed posting, 400 for a repeat; otherwise a pending application is
      inserted. The applicant's profile is read after the insert, so an
      applicant without a user row or student profile gets a 500 with the
      application kept. */
  function Apply(s: Store, caller: Caller, oid: Option<int>, resumeUrl: Option<string>): (r: Step<()>)
    ensures caller.role != Student ==> r == Step(s, Fail(HTTP_FORBIDDEN, ONLY_STUDENTS_APPLY))
    ensures caller.role == Student && !IsOpen(s, oid) ==> r == Step(s, Fail(HTTP_NOT_FOUND, NOT_FOUND_OR_CLOSED))
    ensures caller.role == Student && IsOpen(s, oid) && HasApplied(s.applications, oid.value, caller.userId) ==>
              r == Step(s, Fail(HTTP_BAD_REQUEST, ALREADY_APPLIED))
    ensures r.store != s <==>
              caller.role == Student && IsOpen(s, oid) && !HasApplied(s.applications, oid.value, caller.userId)
    ensures r.store != s ==>
      && r.store.(applications := s.applications, clock := s.clock) == s
      && r.store.clock == s.clock + 1
      && |r.store.applications| == |s.applications| + 1
      && r.store.applications[..|s.applications|] == s.applications
      && r.store.applications[|s.applications|] ==
           Application(|s.applications| + 1, oid.value, caller.userId, resumeUrl, AppPending, s.clock)
    ensures r.reply.Ok? <==>
      r.store != s && FindUser(s, caller.userId).Some? && caller.userId in s.studentProfiles
    ensures r.reply.Ok? ==> r.reply.code == HTTP_CREATED
    ensures r.store != s && r.reply.Fail? ==> r.reply == Fail(HTTP_SERVER_ERROR, FAILED_TO_APPLY)
  {
    if caller.role != Student then Step(s, Fail(HTTP_FORBIDDEN, ONLY_STUDENTS_APPLY))
    else if !IsOpen(s, oid) then Step(s, Fail(HTTP_NOT_FOUND, NOT_FOUND_OR_CLOSED))
    else if HasApplied(s.applications, oid.value, caller.userId) then Step(s, Fail(HTTP_BAD_REQUEST, ALREADY_APPLIED))
    else
      var a := Application(|s.applications| + 1, oid.value, caller.userId, resumeUrl, AppPending, s.clock);
      var s1 := s.(applications := s.applications + [a], clock := s.clock + 1);
      assert s1.applications[..|s.applications|] == s.applications;
      assert |s1.applications| != |s.applications|;
      if FindUser(s, caller.userId).None? || caller.userId !in s.studentProfiles then
        Step(s1, Fail(HTTP_SERVER_ERROR, FAILED_TO_APPLY))
      else Step(s1, Ok(HTTP_CREATED, ()))
  }

  /** A second application by the same student to the same posting is
      refused and writes nothing, whatever the first reply was. */
  lemma ApplyTwice(s: Store, caller: Caller, oid: Option<int>, cv1: Option<string>, cv2: Option<string>)
    requires Apply(s, caller, oid, cv1).store != s
    ensures var s1 := Apply(s, caller, oid, cv1).store;
            Apply(s1, caller, oid, cv2) == Step(s1, Fail(HTTP_BAD_REQUEST, ALREADY_APPLIED))
  {
    var s1 := Apply(s, caller, oid, cv1).store;
    var i :| 0 <= i < |s.opportunities| && OpenFor(s, s.opportunities[i], oid.value);
    assert s1.opportunities == s.opportunities;
    assert FindUser(s1, s.opportunities[i].alumniId) == FindUser(s, s.opportunities[i].alumniId);
    assert OpenFor(s1, s1.opportunities[i], oid.value);
    assert s1.applications[|s.applications|].opportunityId == oid.value;
  }

  lemma ApplyKeepsValid(s: Store, caller: Caller, oid: Option<int>, resumeUrl: Option<string>)
    requires Valid(s)
    ensures Valid(Apply(s, caller, oid, resumeUrl).store)
  {
    var r := Apply(s, caller, oid, resumeUrl);
    if r.store != s {
      var a := r.store.applications[|s.applications|];
      assert r.store.applications == s.applications + [a];
      NumberedAppend(s.applications, ApplicationIdOf, a);
      StampedAppend(s.applications, ApplicationTime, s.clock, a);
      StampedTick(s.users, UserTime, s.clock);
      StampedTick(s.messages, MessageTime, s.clock);
      StampedTick(s.opportunities, OpportunityTime, s.clock);
    }
  }

  /** A successful application shows up in the poster's count. */
  lemma ApplyBumpsPostingCount(s: Store, caller: Caller, oid: Option<int>, resumeUrl: Option<string>)
    requires Apply(s, caller, oid, resumeUrl).store != s
    ensures var s1 := Apply(s, caller, oid, resumeUrl).store;
            Opportunities.ApplicationCount(s1.applications, oid.value)
              == Opportunities.ApplicationCount(s.applications, oid.value) + 1
  {
    var s1 := Apply(s, caller, oid, resumeUrl).store;
    var a := s1.applications[|s.applications|];
    assert s1.applications == s.applications + [a];
    Opportunities.ApplicationCountAppend(s.applications, a, oid.value);
  }

  /** Once its owner sets a status other than active, a posting takes no
      new applications. */
  lemma ClosedPostingRefusesApplications(s: Store, owner: Caller, id: int, e: Opportunities.Edit,
                                         student: Caller, resumeUrl: Option<string>)
    requires Valid(s)
    requires Opportunities.UpdateOpportunity(s, owner, id, e).reply.Ok?
    requires e.status != ACTIVE
    requires student.role == Student
    ensures var s1 := Opportunities.UpdateOpportunity(s, owner, id, e).store;
            Apply(s1, student, Some(id), resumeUrl) == Step(s1, Fail(HTTP_NOT_FOUND, NOT_FOUND_OR_CLOSED))
  {
    var s1 := Opportunities.UpdateOpportunity(s, owner, id, e).store;
    forall i | 0 <= i < |s1.opportunities| ensures !OpenFor(s1, s1.opportunities[i], id) {
      assert OpportunityIdOf(s.opportunities[i]) == i + 1;
    }
  }

  /** One row of `getMyApplications`: the application, its posting and the
      posting's company name. */
  datatype Mine = Mine(application: Application, opportunity: Opportunity, companyName: Option<string>)

  /** An application of `me` whose posting still has a row (inner join). */
  predicate IsMine(s: Store, a: Application, me: int) {
    a.studentId == me && FindOpportunity(s, a.opportunityId).Some?
  }

  function MineOf(s: Store, a: Application): Mine
    requires FindOpportunity(s, a.opportunityId).Some?
  {
    var o := FindOpportunity(s, a.opportunityId).value;
    Mine(a, o, CompanyName(s, o.companyId))
  }

  function MineTime(m: Mine): int { m.application.appliedAt }

  /** `getMyApplications`: 403 for non-students; otherwise the caller's
      applications, newest first, with their postings. */
  function GetMyApplications(s: Store, caller: Caller): (r: Reply<seq<Mine>>)
    ensures caller.role != Student <==> r == Fail(HTTP_FORBIDDEN, ONLY_STUDENTS_VIEW)
    ensures r.Ok? ==> r.code == HTTP_OK
    ensures r.Ok? ==> forall k :: 0 <= k < |r.value| ==>
      && r.value[k].application in s.applications
      && IsMine(s, r.value[k].application, caller.userId)
      && r.value[k] == MineOf(s, r.value[k].application)
    ensures r.Ok? ==> forall a :: a in s.applications && IsMine(s, a, caller.userId) ==> MineOf(s, a) in r.value
  {
    if caller.role != Student then Fail(HTTP_FORBIDDEN, ONLY_STUDENTS_VIEW)
    else
      var apps := Reverse(Filter(s.applications, (a: Application) => IsMine(s, a, caller.userId)));
      var rows := seq(|apps|, i requires 0 <= i < |apps| => MineOf(s, apps[i]));
      assert forall a :: a in apps ==> MineOf(s, a) in rows by {
        forall a | a in apps ensures MineOf(s, a) in rows {
          var i :| 0 <= i < |apps| && apps[i] == a;
          assert rows[i] == MineOf(s, a);
        }
      }
      Ok(HTTP_OK, rows)
  }

  lemma GetMyApplicationsNewestFirst(s: Store, caller: Caller)
    requires Valid(s) && caller.role == Student
    ensures DecreasingBy(GetMyApplications(s, caller).value, MineTime)
  {
    var apps := Reverse(Filter(s.applications, (a: Application) => IsMine(s, a, caller.userId)));
    var rows := GetMyApplications(s, caller).value;
    NewestFirst(s.applications, (a: Application) => IsMine(s, a, caller.userId), ApplicationTime);
    forall i, j | 0 <= i < j < |rows| ensures MineTime(rows[i]) > MineTime(rows[j]) {
      assert ApplicationTime(apps[i]) > ApplicationTime(apps[j]);
    }
  }
}

=== FILE: auth.dfy ===
/**
 Registration, login and the company get-or-create helper
 (backend/src/controllers/auth.controller.js).

 bcrypt is foreign: registration receives the hash it would compute, and
 login receives the comparison as a predicate. The token is modelled by its
 payload, a `Caller`; signing is left out.
 */
module Auth {
  import opened Base
  import opened Strings
  import opened Db
  import Admin
  import opened Numerals

  const VALIDATION_FAILED: string := "Validation failed"
  const EMAIL_EXISTS: string := "Email already exists"
  const REGISTRATION_FAILED: string := "Registration failed"
  const CREDENTIALS_REQUIRED: string := "Email and password required"
  const INVALID_CREDENTIALS: string := "Invalid credentials"
  const NOT_VERIFIED: string := "Account not verified by admin yet"

  const MIN_PASSWORD: nat := 6
  const MIN_GRADUATION_YEAR: int := 1900
  const MAX_GRADUATION_YEAR: int := 2100

  // ---------------------------------------------------------------------
  // Schema bounds

  /** The numeric and length bounds both schemas share. A Joi string that is
      required or merely allowed rejects the empty string, so the required
      strings must be non-empty. */
  predicate CommonBounds(email: string, password: string, name: string, graduationYear: int) {
    && email != ""
    && |password| >= MIN_PASSWORD
    && name != ""
    && MIN_GRADUATION_YEAR <= graduationYear <= MAX_GRADUATION_YEAR
  }

  predicate CgpaInRange(cgpa: Option<real>) {
    cgpa.None? || 0.0 <= cgpa.value <= 10.0
  }

  /** `Math.round(v * 100) / 100`, the conversion Joi applies to a number
      with `precision(2)` before its range rules: to the nearest hundredth,
      halves rounded up. */
  function RoundToCents(v: real): (r: real)
    ensures -0.005 < r - v <= 0.005
    ensures (r * 100.0).Floor as real == r * 100.0
  {
    ((v * 100.0 + 0.5).Floor as real) / 100.0
  }

  /** A number already in hundredths is left as it is, so the conversion
      is idempotent. */
  lemma RoundToCentsKeepsCents(n: int)
    ensures RoundToCents(n as real / 100.0) == n as real / 100.0
  {
    var v := n as real / 100.0;
    assert v * 100.0 + 0.5 == n as real + 0.5;
    assert (n as real + 0.5).Floor == n;
  }

  lemma RoundToCentsIdempotent(v: real)
    ensures RoundToCents(RoundToCents(v)) == RoundToCents(v)
  {
    var n := (v * 100.0 + 0.5).Floor;
    RoundToCentsKeepsCents(n);
  }

  /** A body field the schema reads with `Joi.number()`: left out, `null`,
      a JSON number, or a string, which Joi converts when it is a numeral. */
  datatype BodyNumber = Omitted | JsonNull | JsonNumber(n: real) | JsonString(text: string)

  /** The number a body field denotes, if any. */
  function SentNumber(v: BodyNumber): Option<real> {
    match v
    case JsonNumber(n) => Some(n)
    case JsonString(text) => NumeralValue(text)
    case _ => None
  }

  /** Joi's reading of `cgpa` (`number().precision(2).allow(null)`): `None`
      when the field is refused as not a number, which is the case exactly
      for a string that is no numeral, "" included; otherwise the CGPA
      handed on, absent for a missing or null field and else the number
      sent, rounded to hundredths. */
  function JoiCgpa(v: BodyNumber): (r: Option<Option<real>>)
    ensures r.None? <==> v.JsonString? && NumeralValue(v.text).None?
    ensures r == Some(None) <==> v.Omitted? || v.JsonNull?
    ensures r.Some? && r.value.Some? ==>
              SentNumber(v).Some? && -0.005 < r.value.value - SentNumber(v).value <= 0.005
  {
    if v.JsonString? && NumeralValue(v.text).None? then None
    else if SentNumber(v).Some? then Some(Some(RoundToCents(SentNumber(v).value)))
    else Some(None)
  }

  /** `Joi.array().items(Joi.string())`: an item that is the empty string
      fails the item schema. */
  predicate NoEmptyItems(xs: seq<string>) {
    forall i :: 0 <= i < |xs| ==> xs[i] != ""
  }

  datatype StudentForm = StudentForm(
    email: string,
    password: string,
    name: string,
    phone: Option<string>,
    graduationYear: int,
    major: Option<string>,
    cgpa: BodyNumber,
    bio: Option<string>,
    githubUrl: Option<string>,
    linkedinUrl: Option<string>,
    portfolioUrl: Option<string>,
    skills: seq<string>,
    certifications: seq<string>,
    projects: seq<string>)

  datatype AlumniForm = AlumniForm(
    email: string,
    password: string,
    name: string,
    phone: Option<string>,
    companyName: Option<string>,
    position: Option<string>,
    graduationYear: int,
    bio: Option<string>,
    linkedinUrl: Option<string>,
    githubUrl: Option<string>,
    experience: seq<Experience>,
    education: seq<Education>,
    certifications: seq<string>,
    skills: seq<string>)

  /** The range rules see the converted CGPA. */
  predicate StudentFormValid(f: StudentForm) {
    && CommonBounds(f.email, f.password, f.name, f.graduationYear)
    && JoiCgpa(f.cgpa).Some? && CgpaInRange(JoiCgpa(f.cgpa).value)
    && NoEmptyItems(f.skills) && NoEmptyItems(f.certifications) && NoEmptyItems(f.projects)
  }

  /** An experience entry needs company, role and duration. */
  predicate ExperienceEntryValid(e: Experience) {
    e.company != "" && e.role != "" && e.duration != ""
  }

  /** An education entry needs degree, institution and year. */
  predicate EducationEntryValid(e: Education) {
    e.degree != "" && e.institution != "" && e.year != ""
  }

  predicate AlumniFormValid(f: AlumniForm) {
    && CommonBounds(f.email, f.password, f.name, f.graduationYear)
    && (forall i :: 0 <= i < |f.experience| ==> ExperienceEntryValid(f.experience[i]))
    && (forall i :: 0 <= i < |f.education| ==> EducationEntryValid(f.education[i]))
    && NoEmptyItems(f.certifications) && NoEmptyItems(f.skills)
  }

  // ---------------------------------------------------------------------
  // JavaScript `x || null` and `x || ''` on optional text

  /** JavaScript falsiness of an optional text field: absent, null or "". */
  predicate FalsyText(x: Option<string>) {
    x.None? || x.value == ""
  }

  /** JavaScript falsiness of an optional number: absent, null or 0. */
  predicate FalsyNumber(x: Option<real>) {
    x.None? || x.value == 0.0
  }

  function OrNull(x: Option<string>): (r: Option<string>)
    ensures r.None? <==> FalsyText(x)
    ensures r.Some? ==> r == x
  {
    if x.Some? && x.value != "" then x else None
  }

  function OrEmpty(x: Option<string>): (r: string)
    ensures FalsyText(x) ==> r == ""
    ensures !FalsyText(x) ==> r == x.value
  {
    if x.Some? then x.value else ""
  }

  /** `cgpa || null`: 0 is falsy, so a CGPA of exactly 0 is stored as NULL. */
  function CgpaOrNull(cgpa: Option<real>): (r: Option<real>)
    ensures r.None? <==> FalsyNumber(cgpa)
    ensures r.Some? ==> r == cgpa
  {
    if cgpa.Some? && cgpa.value != 0.0 then cgpa else None
  }

  // ---------------------------------------------------------------------
  // getOrCreateCompany

  /** `SELECT company_id FROM companies WHERE LOWER(name) = key LIMIT 1`:
      the first company whose lower-cased name is `key`. */
  function FindCompany(cs: seq<Company>, key: string): (r: Option<Company>)
    ensures r.Some? ==> r.value in cs && Lower(r.value.name) == key
    ensures r.None? <==> forall i :: 0 <= i < |cs| ==> Lower(cs[i].name) != key
  {
    if cs == [] then None
    else if Lower(cs[0].name) == key then Some(cs[0])
    else FindCompany(cs[1..], key)
  }

  /** Appending a row never changes an existing first match, and is found
      when nothing earlier matched. */
  lemma {:induction false} FindCompanyAppend(cs: seq<Company>, c: Company, key: string)
    ensures FindCompany(cs + [c], key) ==
      if FindCompany(cs, key).Some? then FindCompany(cs, key)
      else if Lower(c.name) == key then Some(c) else None
  {
    if cs != [] {
      assert (cs + [c])[1..] == cs[1..] + [c];
      FindCompanyAppend(cs[1..], c, key);
    }
  }

  /** The companies table after the call and the id it returned. */
  datatype CompanyPick = CompanyPick(companies: seq<Company>, id: Option<int>)

  /** The matching key of a company name: trimmed and lower-cased. */
  function CompanyKey(name: string): string { Lower(Trim(name)) }

  /** `getOrCreateCompany`: no name or a blank one gives NULL and no write;
      a case-insensitive match on the trimmed name gives its id; otherwise
      the trimmed name is inserted. */
  function GetOrCreateCompany(cs: seq<Company>, name: Option<string>): (r: CompanyPick)
    ensures name.None? || Trim(name.value) == "" ==> r == CompanyPick(cs, None)
    ensures name.Some? && Trim(name.value) != "" && FindCompany(cs, CompanyKey(name.value)).Some? ==>
      r == CompanyPick(cs, Some(FindCompany(cs, CompanyKey(name.value)).value.id))
    ensures name.Some? && Trim(name.value) != "" && FindCompany(cs, CompanyKey(name.value)).None? ==>
      r == CompanyPick(cs + [Company(|cs| + 1, Trim(name.value))], Some(|cs| + 1))
  {
    if name.None? then CompanyPick(cs, None)
    else
      var trimmed := Trim(name.value);
      if trimmed == "" then CompanyPick(cs, None)
      else match FindCompany(cs, Lower(trimmed))
        case Some(c) => CompanyPick(cs, Some(c.id))
        case None => CompanyPick(cs + [Company(|cs| + 1, trimmed)], Some(|cs| + 1))
  }

  /** A second call with a name that differs only in case or surrounding
      space returns the same id and adds no row. */
  lemma GetOrCreateCompanyIdempotent(cs: seq<Company>, n1: string, n2: string)
    requires CompanyKey(n1) == CompanyKey(n2)
    ensures var p1 := GetOrCreateCompany(cs, Some(n1));
            GetOrCreateCompany(p1.companies, Some(n2)) == p1
  {
    var key := CompanyKey(n1);
    var p1 := GetOrCreateCompany(cs, Some(n1));
    assert |key| == |Trim(n1)| && |CompanyKey(n2)| == |Trim(n2)|;
    if Trim(n1) == "" {
      assert p1 == CompanyPick(cs, None);
      assert Trim(n2) == "";
    } else if FindCompany(cs, key).Some? {
      assert p1 == CompanyPick(cs, Some(FindCompany(cs, key).value.id));
      assert Trim(n2) != "";
    } else {
      var c := Company(|cs| + 1, Trim(n1));
      assert p1 == CompanyPick(cs + [c], Some(|cs| + 1));
      FindCompanyAppend(cs, c, key);
      assert FindCompany(cs + [c], key) == Some(c);
      assert Trim(n2) != "";
    }
  }

  /** The companies table only ever grows by the one inserted row. */
  lemma GetOrCreateCompanyKeepsNumbered(cs: seq<Company>, name: Option<string>)
    requires Numbered(cs, CompanyIdOf)
    ensures var p := GetOrCreateCompany(cs, name);
            Numbered(p.companies, CompanyIdOf) && |cs| <= |p.companies| <= |cs| + 1 && p.companies[..|cs|] == cs
  {
  }

  // ---------------------------------------------------------------------
  // Registration

  /** A user row with this email exists (`SELECT 1 FROM users WHERE email = ?`). */
  predicate EmailTaken(s: Store, email: string) {
    exists i :: 0 <= i < |s.users| && s.users[i].email == email
  }

  function StudentProfileOf(f: StudentForm): StudentProfile {
    var cgpa := JoiCgpa(f.cgpa);
    StudentProfile(f.name, OrNull(f.phone), f.graduationYear, OrNull(f.major),
                   CgpaOrNull(if cgpa.Some? then cgpa.value else None),
                   Some(OrEmpty(f.bio)), Some(OrEmpty(f.githubUrl)), Some(OrEmpty(f.linkedinUrl)),
                   Some(OrEmpty(f.portfolioUrl)),
                   f.skills, f.certifications, f.projects)
  }

  function AlumniProfileOf(f: AlumniForm, companyId: Option<int>): AlumniProfile {
    AlumniProfile(f.name, OrNull(f.phone), companyId, OrNull(f.position), f.graduationYear,
                  Some(OrEmpty(f.bio)), Some(OrEmpty(f.linkedinUrl)), Some(OrEmpty(f.githubUrl)),
                  f.experience, f.education, f.certifications, f.skills)
  }

  /** `registerStudent`. A bad form is 400 before any read, a taken email is
      400, and a profile row already keyed by the new id makes the insert
      fail, rolling the transaction back (500). Otherwise one verified
      student and its profile are written and the new id is returned. */
  function RegisterStudent(s: Store, f: StudentForm, hash: string): (r: Step<int>)
    ensures r.reply.Fail? ==> r.store == s
    ensures !StudentFormValid(f) ==> r.reply == Fail(HTTP_BAD_REQUEST, VALIDATION_FAILED)
    ensures StudentFormValid(f) && EmailTaken(s, f.email) ==> r.reply == Fail(HTTP_BAD_REQUEST, EMAIL_EXISTS)
    ensures r.reply.Ok? <==> StudentFormValid(f) && !EmailTaken(s, f.email) && |s.users| + 1 !in s.studentProfiles
    ensures r.reply.Ok? ==>
      var id := |s.users| + 1;
      && r.reply == Ok(HTTP_CREATED, id)
      && r.store.(users := s.users, studentProfiles := s.studentProfiles, clock := s.clock) == s
      && r.store.users == s.users + [User(id, f.email, hash, Student, true, s.clock)]
      && r.store.clock == s.clock + 1
      && r.store.studentProfiles.Keys == s.studentProfiles.Keys + {id}
      && r.store.studentProfiles[id] == StudentProfileOf(f)
      && (forall k :: k in s.studentProfiles ==> r.store.studentProfiles[k] == s.studentProfiles[k])
  {
    if !StudentFormValid(f) then Step(s, Fail(HTTP_BAD_REQUEST, VALIDATION_FAILED))
    else if EmailTaken(s, f.email) then Step(s, Fail(HTTP_BAD_REQUEST, EMAIL_EXISTS))
    else
      var id := |s.users| + 1;
      if id in s.studentProfiles then Step(s, Fail(HTTP_SERVER_ERROR, REGISTRATION_FAILED))
      else
        var u := User(id, f.email, hash, Student, true, s.clock);
        Step(s.(users := s.users + [u],
                studentProfiles := s.studentProfiles[id := StudentProfileOf(f)],
                clock := s.clock + 1),
             Ok(HTTP_CREATED, id))
  }

  /** `registerAlumni`: the same gates, then an unverified alumnus, the
      company resolved by `getOrCreateCompany` inside the transaction, and
      the profile. A failing profile insert rolls back the company too. */
  function RegisterAlumni(s: Store, f: AlumniForm, hash: string): (r: Step<int>)
    ensures r.reply.Fail? ==> r.store == s
    ensures !AlumniFormValid(f) ==> r.reply == Fail(HTTP_BAD_REQUEST, VALIDATION_FAILED)
    ensures AlumniFormValid(f) && EmailTaken(s, f.email) ==> r.reply == Fail(HTTP_BAD_REQUEST, EMAIL_EXISTS)
    ensures r.reply.Ok? <==> AlumniFormValid(f) && !EmailTaken(s, f.email) && |s.users| + 1 !in s.alumniProfiles
    ensures r.reply.Ok? ==>
      var id := |s.users| + 1;
      var pick := GetOrCreateCompany(s.companies, f.companyName);
      && r.reply == Ok(HTTP_CREATED, id)
      && r.store.(users := s.users, companies := s.companies, alumniProfiles := s.alumniProfiles, clock := s.clock) == s
      && r.store.users == s.users + [User(id, f.email, hash, Alumni, false, s.clock)]
      && r.store.clock == s.clock + 1
      && r.store.companies == pick.companies
      && r.store.alumniProfiles.Keys == s.alumniProfiles.Keys + {id}
      && r.store.alumniProfiles[id] == AlumniProfileOf(f, pick.id)
      && (forall k :: k in s.alumniProfiles ==> r.store.alumniProfiles[k] == s.alumniProfiles[k])
  {
    if !AlumniFormValid(f) then Step(s, Fail(HTTP_BAD_REQUEST, VALIDATION_FAILED))
    else if EmailTaken(s, f.email) then Step(s, Fail(HTTP_BAD_REQUEST, EMAIL_EXISTS))
    else
      var id := |s.users| + 1;
      if id in s.alumniProfiles then Step(s, Fail(HTTP_SERVER_ERROR, REGISTRATION_FAILED))
      else
        var u := User(id, f.email, hash, Alumni, false, s.clock);
        var pick := GetOrCreateCompany(s.companies, f.companyName);
        Step(s.(users := s.users + [u],
                companies := pick.companies,
                alumniProfiles := s.alumniProfiles[id := AlumniProfileOf(f, pick.id)],
                clock := s.clock + 1),
             Ok(HTTP_CREATED, id))
  }

  /** The columns a student registration writes. The nullable text and
      number columns hold NULL exactly for a falsy field, and otherwise the
      field itself, so they never hold "" or 0; the CGPA is the converted
      one. The free-text columns are never NULL: a falsy field becomes "". */
  lemma RegisteredStudentColumns(s: Store, f: StudentForm, hash: string)
    requires RegisterStudent(s, f, hash).reply.Ok?
    ensures var p := RegisterStudent(s, f, hash).store.studentProfiles[|s.users| + 1];
            && p.name == f.name && p.graduationYear == f.graduationYear
            && p.phone != Some("") && p.major != Some("") && p.cgpa != Some(0.0)
            && (p.phone.None? <==> FalsyText(f.phone)) && (p.phone.Some? ==> p.phone == f.phone)
            && (p.major.None? <==> FalsyText(f.major)) && (p.major.Some? ==> p.major == f.major)
            && (p.cgpa.Some? ==> SentNumber(f.cgpa).Some? && 0.0 < p.cgpa.value <= 10.0
                                 && -0.005 < p.cgpa.value - SentNumber(f.cgpa).value <= 0.005)
            && (SentNumber(f.cgpa).Some? && RoundToCents(SentNumber(f.cgpa).value) != 0.0 ==>
                  p.cgpa == Some(RoundToCents(SentNumber(f.cgpa).value)))
            && (FalsyText(f.bio) <==> p.bio == Some("")) && (!FalsyText(f.bio) ==> p.bio == f.bio)
            && (FalsyText(f.githubUrl) <==> p.githubUrl == Some("")) && (!FalsyText(f.githubUrl) ==> p.githubUrl == f.githubUrl)
            && (FalsyText(f.linkedinUrl) <==> p.linkedinUrl == Some(""))
            && (!FalsyText(f.linkedinUrl) ==> p.linkedinUrl == f.linkedinUrl)
            && (FalsyText(f.portfolioUrl) <==> p.portfolioUrl == Some(""))
            && (!FalsyText(f.portfolioUrl) ==> p.portfolioUrl == f.portfolioUrl)
            && p.skills == f.skills && NoEmptyItems(p.skills)
            && p.certifications == f.certifications && NoEmptyItems(p.certifications)
            && p.projects == f.projects && NoEmptyItems(p.projects)
  {
  }

  /** Whatever the outcome, an email can be registered at most once. */
  lemma RegisterTwiceRejected(s: Store, f: StudentForm, g: AlumniForm, h1: string, h2: string)
    requires RegisterStudent(s, f, h1).reply.Ok? && g.email == f.email
    ensures var s1 := RegisterStudent(s, f, h1).store;
            && RegisterStudent(s1, f, h2) == Step(s1, Fail(HTTP_BAD_REQUEST, EMAIL_EXISTS))
            && (AlumniFormValid(g) ==> RegisterAlumni(s1, g, h2) == Step(s1, Fail(HTTP_BAD_REQUEST, EMAIL_EXISTS)))
  {
    var s1 := RegisterStudent(s, f, h1).store;
    assert s1.users[|s.users|].email == f.email;
  }

  lemma RegisterStudentKeepsValid(s: Store, f: StudentForm, hash: string)
    requires Valid(s)
    ensures Valid(RegisterStudent(s, f, hash).store)
  {
    var r := RegisterStudent(s, f, hash);
    if r.reply.Ok? {
      var u := User(|s.users| + 1, f.email, hash, Student, true, s.clock);
      assert r.store.users == s.users + [u];
      NumberedAppend(s.users, UserIdOf, u);
      StampedAppend(s.users, UserTime, s.clock, u);
      StampedTick(s.messages, MessageTime, s.clock);
      StampedTick(s.opportunities, OpportunityTime, s.clock);
      StampedTick(s.applications, ApplicationTime, s.clock);
    }
  }

  lemma RegisterAlumniKeepsValid(s: Store, f: AlumniForm, hash: string)
    requires Valid(s)
    ensures Valid(RegisterAlumni(s, f, hash).store)
  {
    var r := RegisterAlumni(s, f, hash);
    if r.reply.Ok? {
      var u := User(|s.users| + 1, f.email, hash, Alumni, false, s.clock);
      assert r.store.users == s.users + [u];
      NumberedAppend(s.users, UserIdOf, u);
      StampedAppend(s.users, UserTime, s.clock, u);
      StampedTick(s.messages, MessageTime, s.clock);
      StampedTick(s.opportunities, OpportunityTime, s.clock);
      StampedTick(s.applications, ApplicationTime, s.clock);
      GetOrCreateCompanyKeepsNumbered(s.companies, f.companyName);
    }
  }

  // ---------------------------------------------------------------------
  // Login

  /** What a successful login returns: the token's payload and the email. */
  datatype Session = Session(token: Caller, email: string)

  /** `signToken`'s payload `{user_id, role, verified}`. */
  function TokenOf(u: User): (c: Caller)
    ensures c.userId == u.id && c.role == u.role && c.verified == u.verified
  {
    Caller(u.id, u.role, u.verified)
  }

  function FindByEmail(s: Store, email: string): (r: Option<User>)
    ensures r.Some? ==> r.value in s.users && r.value.email == email
    ensures r.None? <==> !EmailTaken(s, email)
  {
    Find(s.users, (u: User) => u.email == email)
  }

  /** `login`. `passwordMatches(password, hash)` stands for bcrypt's compare.
      Only an unverified alumnus is refused after the password check. */
  function Login(s: Store, email: Option<string>, password: Option<string>,
                 passwordMatches: (string, string) -> bool): (r: Reply<Session>)
    ensures email.None? || email.value == "" || password.None? || password.value == "" ==>
      r == Fail(HTTP_BAD_REQUEST, CREDENTIALS_REQUIRED)
    ensures email.Some? && email.value != "" && password.Some? && password.value != "" && !EmailTaken(s, email.value) ==>
      r == Fail(HTTP_BAD_REQUEST, INVALID_CREDENTIALS)
    ensures email.Some? && email.value != "" && password.Some? && password.value != "" && FindByEmail(s, email.value).Some?
            && !passwordMatches(password.value, FindByEmail(s, email.value).value.passwordHash) ==>
      r == Fail(HTTP_BAD_REQUEST, INVALID_CREDENTIALS)
    ensures r.Ok? ==>
      && r.code == HTTP_OK && email.Some? && password.Some?
      && (exists i :: 0 <= i < |s.users| && s.users[i].email == email.value && r.value.token == TokenOf(s.users[i])
            && passwordMatches(password.value, s.users[i].passwordHash))
      && r.value.email == email.value
      && (r.value.token.role == Alumni ==> r.value.token.verified)
    ensures r.Fail? && r.code == HTTP_FORBIDDEN ==>
      r.error == NOT_VERIFIED && email.Some? && FindByEmail(s, email.value).Some?
      && FindByEmail(s, email.value).value.role == Alumni && !FindByEmail(s, email.value).value.verified
  {
    if email.None? || email.value == "" || password.None? || password.value == "" then
      Fail(HTTP_BAD_REQUEST, CREDENTIALS_REQUIRED)
    else match FindByEmail(s, email.value)
      case None => Fail(HTTP_BAD_REQUEST, INVALID_CREDENTIALS)
      case Some(u) =>
        if !passwordMatches(password.value, u.passwordHash) then Fail(HTTP_BAD_REQUEST, INVALID_CREDENTIALS)
        else if u.role == Alumni && !u.verified then Fail(HTTP_FORBIDDEN, NOT_VERIFIED)
        else Ok(HTTP_OK, Session(TokenOf(u), u.email))
  }

  /** With correct credentials the verification gate is the only refusal,
      and it applies to alumni alone: students and admins are never blocked. */
  lemma LoginGate(s: Store, email: string, password: string, passwordMatches: (string, string) -> bool)
    requires email != "" && password != "" && FindByEmail(s, email).Some?
    requires passwordMatches(password, FindByEmail(s, email).value.passwordHash)
    ensures var u := FindByEmail(s, email).value;
            var r := Login(s, Some(email), Some(password), passwordMatches);
            && (r.Ok? <==> u.role != Alumni || u.verified)
            && (r.Ok? ==> r.value.token == TokenOf(u))
            && (r.Fail? ==> r == Fail(HTTP_FORBIDDEN, NOT_VERIFIED))
  {
  }

  /** In a store with unique emails, the user found by email is the only one. */
  lemma FindByEmailUnique(s: Store, i: int)
    requires EmailsUnique(s.users) && 0 <= i < |s.users|
    ensures FindByEmail(s, s.users[i].email) == Some(s.users[i])
  {
    var r := FindByEmail(s, s.users[i].email);
    var j :| 0 <= j < |s.users| && s.users[j] == r.value;
    assert j == i;
  }

  /** A user whose email no other user has is the one found by it. */
  lemma FindOnlyMatch(s: Store, e: string, n: int)
    requires 0 <= n < |s.users| && s.users[n].email == e
    requires forall i :: 0 <= i < |s.users| && i != n ==> s.users[i].email != e
    ensures FindByEmail(s, e) == Some(s.users[n])
  {
    var r := FindByEmail(s, e);
    var j :| 0 <= j < |s.users| && s.users[j] == r.value;
    assert j == n;
  }

  /** After a registration, the new row is the only one with its email. */
  lemma AppendedEmailOnlyMatch(s: Store, s1: Store, u: User)
    requires !EmailTaken(s, u.email) && s1.users == s.users + [u]
    ensures forall i :: 0 <= i < |s1.users| && i != |s.users| ==> s1.users[i].email != u.email
  {
    forall i | 0 <= i < |s1.users| && i != |s.users| ensures s1.users[i].email != u.email {
      assert s1.users[i] == s.users[i];
    }
  }

  /** A newly registered student can log in straight away. */
  lemma RegisteredStudentCanLogIn(s: Store, f: StudentForm, hash: string, passwordMatches: (string, string) -> bool)
    requires RegisterStudent(s, f, hash).reply.Ok? && passwordMatches(f.password, hash)
    ensures var s1 := RegisterStudent(s, f, hash).store;
            var r := Login(s1, Some(f.email), Some(f.password), passwordMatches);
            r.Ok? && r.value.token == Caller(|s.users| + 1, Student, true)
  {
    var s1 := RegisterStudent(s, f, hash).store;
    var u := s1.users[|s.users|];
    AppendedEmailOnlyMatch(s, s1, u);
    FindOnlyMatch(s1, f.email, |s.users|);
  }

  /** A newly registered alumnus is refused with 403 until an admin
      verifies the account, and admitted afterwards. */
  lemma RegisteredAlumnusWaitsForVerification(s: Store, f: AlumniForm, hash: string,
                                             passwordMatches: (string, string) -> bool, mail: bool)
    requires RegisterAlumni(s, f, hash).reply.Ok? && passwordMatches(f.password, hash)
    ensures var s1 := RegisterAlumni(s, f, hash).store;
            var id := |s.users| + 1;
            var s2 := Admin.VerifyUser(s1, id, mail).store;
            && Login(s1, Some(f.email), Some(f.password), passwordMatches) == Fail(HTTP_FORBIDDEN, NOT_VERIFIED)
            && Login(s2, Some(f.email), Some(f.password), passwordMatches).Ok?
            && Login(s2, Some(f.email), Some(f.password), passwordMatches).value.token == Caller(id, Alumni, true)
  {
    var s1 := RegisterAlumni(s, f, hash).store;
    var n := |s.users|;
    var u := User(n + 1, f.email, hash, Alumni, false, s.clock);
    assert s1.users == s.users + [u];
    assert f.email != "" && f.password != "" by {
      assert CommonBounds(f.email, f.password, f.name, f.graduationYear);
    }
    AppendedEmailOnlyMatch(s, s1, u);
    FindOnlyMatch(s1, f.email, n);
    LoginGate(s1, f.email, f.password, passwordMatches);
    VerifiedAlumnusFound(s1, f.email, n, mail);
    var s2 := Admin.VerifyUser(s1, n + 1, mail).store;
    LoginGate(s2, f.email, f.password, passwordMatches);
  }

  /** Verifying the only alumnus with an email makes the login by that
      email find the verified row. */
  lemma VerifiedAlumnusFound(s1: Store, e: string, n: int, mail: bool)
    requires 0 <= n < |s1.users| && s1.users[n].email == e
    requires s1.users[n].id == n + 1 && s1.users[n].role == Alumni
    requires forall i :: 0 <= i < |s1.users| && i != n ==> s1.users[i].email != e
    ensures var s2 := Admin.VerifyUser(s1, n + 1, mail).store;
            FindByEmail(s2, e) == Some(s1.users[n].(verified := true))
  {
    assert Admin.IsAlumnus(s1, n + 1) by { assert s1.users[n].id == n + 1 && s1.users[n].role == Alumni; }
    var s2 := Admin.VerifyUser(s1, n + 1, mail).store;
    assert s2.users[n] == s1.users[n].(verified := true);
    forall i | 0 <= i < |s2.users| && i != n ensures s2.users[i].email != e {
      assert s2.users[i].email == s1.users[i].email;
    }
    FindOnlyMatch(s2, e, n);
  }
}

=== FILE: base.dfy ===
/**
 Shared vocabulary of the model: optional values, handler replies with HTTP
 status codes, and the small sequence toolkit (filter, search, reversal,
 ordering) the handlers use to express SQL `WHERE` and `ORDER BY` clauses
 over in-memory tables.
 */
module Base {

  /** A value that may be absent (SQL NULL, a JavaScript `undefined`). */
  datatype Option<+T> = None | Some(value: T)

  /** What a handler sends back: a success status with a payload, or an error
      status with the message the handler puts in its JSON body. */
  datatype Reply<+T> = Ok(code: int, value: T) | Fail(code: int, error: string)

  const HTTP_OK: int := 200
  const HTTP_CREATED: int := 201
  const HTTP_BAD_REQUEST: int := 400
  const HTTP_UNAUTHORIZED: int := 401
  const HTTP_FORBIDDEN: int := 403
  const HTTP_NOT_FOUND: int := 404
  const HTTP_SERVER_ERROR: int := 500

  function Min(a: int, b: int): int {
    if a <= b then a else b
  }

  /** The elements of `s` satisfying `p`, in their original order. */
  function Filter<T(!new)>(s: seq<T>, p: T -> bool): (r: seq<T>)
    ensures |r| <= |s|
    ensures forall x :: x in r <==> x in s && p(x)
    ensures forall i :: 0 <= i < |r| ==> p(r[i])
  {
    if |s| == 0 then []
    else if p(s[0]) then [s[0]] + Filter(s[1..], p)
    else Filter(s[1..], p)
  }

  /** `r` can be obtained from `s` by deleting elements (greedy matching
      decides this exactly). */
  predicate Subsequence<T(==)>(r: seq<T>, s: seq<T>)
    decreases |s|
  {
    if |r| == 0 then true
    else if |s| == 0 then false
    else if r[0] == s[0] then Subsequence(r[1..], s[1..])
    else Subsequence(r, s[1..])
  }

  /** A subsequence of the tail of `s` is a subsequence of `s`. */
  lemma {:induction false} SubsequenceOfTail<T>(r: seq<T>, s: seq<T>)
    requires |s| > 0 && Subsequence(r, s[1..])
    ensures Subsequence(r, s)
    decreases |s|, 0
  {
    if |r| > 0 && r[0] == s[0] {
      SubsequenceDropHead(r, s[1..]);
    }
  }

  /** Dropping the first element of a subsequence keeps it a subsequence. */
  lemma {:induction false} SubsequenceDropHead<T>(r: seq<T>, t: seq<T>)
    requires |r| > 0 && Subsequence(r, t)
    ensures Subsequence(r[1..], t)
    decreases |t|, 1
  {
    if r[0] == t[0] {
      if |r| > 1 {
        SubsequenceOfTail(r[1..], t);
      }
    } else {
      SubsequenceDropHead(r, t[1..]);
      SubsequenceOfTail(r[1..], t);
    }
  }

  lemma {:induction false} FilterIsSubsequence<T(!new)>(s: seq<T>, p: T -> bool)
    ensures Subsequence(Filter(s, p), s)
    decreases |s|
  {
    if |s| > 0 {
      FilterIsSubsequence(s[1..], p);
      if !p(s[0]) {
        SubsequenceOfTail(Filter(s[1..], p), s);
      }
    }
  }

  /** Filtering distributes over concatenation: appending a row to a table
      appends at most that row to every query over it. */
  lemma {:induction false} FilterAppend<T(!new)>(a: seq<T>, b: seq<T>, p: T -> bool)
    ensures Filter(a + b, p) == Filter(a, p) + Filter(b, p)
    decreases |a|
  {
    if |a| > 0 {
      assert (a + b)[1..] == a[1..] + b;
      FilterAppend(a[1..], b, p);
    } else {
      assert a + b == b;
    }
  }

  lemma {:induction false} FilterKeepsAll<T(!new)>(s: seq<T>, p: T -> bool)
    requires forall i :: 0 <= i < |s| ==> p(s[i])
    ensures Filter(s, p) == s
    decreases |s|
  {
    if |s| > 0 {
      FilterKeepsAll(s[1..], p);
    }
  }

  /** Two predicates that agree on every element select the same elements. */
  lemma {:induction false} FilterCongruent<T(!new)>(s: seq<T>, p: T -> bool, q: T -> bool)
    requires forall i :: 0 <= i < |s| ==> p(s[i]) == q(s[i])
    ensures Filter(s, p) == Filter(s, q)
    decreases |s|
  {
    if |s| > 0 {
      FilterCongruent(s[1..], p, q);
    }
  }

  /** The first element of `s` satisfying `p`, if any (SQL `LIMIT 1`). */
  function Find<T>(s: seq<T>, p: T -> bool): (r: Option<T>)
    ensures r.Some? ==> r.value in s && p(r.value)
    ensures r.None? <==> forall i :: 0 <= i < |s| ==> !p(s[i])
  {
    if |s| == 0 then None
    else if p(s[0]) then Some(s[0])
    else Find(s[1..], p)
  }

  /** `s` backwards. */
  function Reverse<T(!new)>(s: seq<T>): (r: seq<T>)
    ensures |r| == |s|
    ensures forall i :: 0 <= i < |s| ==> r[i] == s[|s| - 1 - i]
    ensures forall x :: x in r <==> x in s
  {
    if |s| == 0 then [] else Reverse(s[1..]) + [s[0]]
  }

  /** Strictly ascending by `key` (ORDER BY key ASC, no two rows tied). */
  predicate IncreasingBy<T>(s: seq<T>, key: T -> int) {
    forall i, j :: 0 <= i < j < |s| ==> key(s[i]) < key(s[j])
  }

  /** Strictly descending by `key` (ORDER BY key DESC). */
  predicate DecreasingBy<T>(s: seq<T>, key: T -> int) {
    forall i, j :: 0 <= i < j < |s| ==> key(s[i]) > key(s[j])
  }

  lemma {:induction false} FilterKeepsIncreasing<T(!new)>(s: seq<T>, p: T -> bool, key: T -> int)
    requires IncreasingBy(s, key)
    ensures IncreasingBy(Filter(s, p), key)
    decreases |s|
  {
    if |s| > 0 {
      assert IncreasingBy(s[1..], key);
      FilterKeepsIncreasing(s[1..], p, key);
      if p(s[0]) {
        var r := Filter(s, p);
        forall i, j | 0 <= i < j < |r|
          ensures key(r[i]) < key(r[j])
        {
          if i == 0 {
            assert r[j] in s[1..];
          }
        }
      }
    }
  }

  lemma ReverseOfIncreasing<T(!new)>(s: seq<T>, key: T -> int)
    requires IncreasingBy(s, key)
    ensures DecreasingBy(Reverse(s), key)
  {
    var r := Reverse(s);
    forall i, j | 0 <= i < j < |r|
      ensures key(r[i]) > key(r[j])
    {
      assert r[i] == s[|s| - 1 - i] && r[j] == s[|s| - 1 - j];
    }
  }

  /** Selecting rows and listing them newest first keeps the DESC order. */
  lemma NewestFirst<T(!new)>(s: seq<T>, p: T -> bool, key: T -> int)
    requires IncreasingBy(s, key)
    ensures DecreasingBy(Reverse(Filter(s, p)), key)
  {
    FilterKeepsIncreasing(s, p, key);
    ReverseOfIncreasing(Filter(s, p), key);
  }

  lemma PrefixKeepsDecreasing<T(!new)>(s: seq<T>, n: nat, key: T -> int)
    requires DecreasingBy(s, key) && n <= |s|
    ensures DecreasingBy(s[..n], key)
  {
  }
}

=== FILE: connections.dfy ===
/**
 Peer connections (backend/src/controllers/connection.controller.js): a
 request inserts a pending row for the unordered pair, the other side (or
 either participant) answers it once, and the accepted rows are what the
 messaging gate looks for.
 */
module Connections {
  import opened Base
  import opened Db

  /** The `to_user_id` of a request body as JavaScript sees it: absent (or
      another falsy non-number such as `null` or `""`), a value `isNaN`
      rejects, a number, or a truthy non-number that `Number()` coerces to
      `n` (a numeric string such as `"0"`, or `true`). */
  datatype JsId = Missing | NotANumber | Number(n: int) | Coerced(n: int)

  const INVALID_USER_ID: string := "Invalid user ID"
  const REQUEST_EXISTS: string := "Connection request already exists"
  const CONNECTION_NOT_FOUND: string := "Connection not found"
  const ALREADY_RESPONDED: string := "Already responded"
  const NOT_AUTHORIZED: string := "Not authorized"

  /** The pair stored for two users: low id first. */
  function NormalizePair(a: int, b: int): (p: (int, int))
    ensures p.0 <= p.1
    ensures (p.0 == a && p.1 == b) || (p.0 == b && p.1 == a)
  {
    if a <= b then (a, b) else (b, a)
  }

  lemma NormalizePairSymmetric(a: int, b: int)
    ensures NormalizePair(a, b) == NormalizePair(b, a)
  {
  }

  /** Two requests land on the same stored pair exactly when they name the
      same two users, in either order. */
  lemma NormalizePairSamePair(a: int, b: int, c: int, d: int)
    ensures NormalizePair(a, b) == NormalizePair(c, d) <==> ((a == c && b == d) || (a == d && b == c))
  {
  }

  /** The guard `!to_user_id || isNaN(to_user_id)` fails, so the id is used. */
  predicate IsUserId(to: JsId) {
    to.Coerced? || (to.Number? && to.n != 0)
  }

  /** `+to_user_id` for an id that passed the guard. */
  function TargetOf(to: JsId): int
    requires to.Number? || to.Coerced?
  {
    to.n
  }

  /** Some row already holds the pair `p`, whatever its status. */
  predicate PairTaken(cs: seq<Connection>, p: (int, int)) {
    exists i :: 0 <= i < |cs| && cs[i].userA == p.0 && cs[i].userB == p.1
  }

  /** `sendRequest`: validate the target, then insert the normalised pending
      row; the pair's unique key turns a repeat into a 400. Self-requests are
      not refused. */
  function SendRequest(s: Store, caller: Caller, to: JsId): (r: Step<int>)
    ensures r.reply.Ok? <==> IsUserId(to) && !PairTaken(s.connections, NormalizePair(caller.userId, TargetOf(to)))
    ensures !IsUserId(to) ==> r == Step(s, Fail(HTTP_BAD_REQUEST, INVALID_USER_ID))
    ensures r.reply.Fail? ==> r.store == s && r.reply.code == HTTP_BAD_REQUEST
    ensures r.reply.Ok? ==>
      && r.reply.code == HTTP_CREATED
      && r.reply.value == |s.connections| + 1
      && r.store.(connections := s.connections) == s
      && |r.store.connections| == |s.connections| + 1
      && r.store.connections[..|s.connections|] == s.connections
      && var row := r.store.connections[|s.connections|];
         && row.id == r.reply.value
         && row.userA <= row.userB
         && ((row.userA == caller.userId && row.userB == TargetOf(to)) || (row.userA == TargetOf(to) && row.userB == caller.userId))
         && row.status == Pending
         && row.requestedBy == caller.userId
  {
    if !IsUserId(to) then Step(s, Fail(HTTP_BAD_REQUEST, INVALID_USER_ID))
    else
      var (low, high) := NormalizePair(caller.userId, TargetOf(to));
      if PairTaken(s.connections, (low, high)) then Step(s, Fail(HTTP_BAD_REQUEST, REQUEST_EXISTS))
      else
        var id := |s.connections| + 1;
        var row := Connection(id, low, high, Pending, caller.userId);
        assert (s.connections + [row])[..|s.connections|] == s.connections;
        Step(s.(connections := s.connections + [row]), Ok(HTTP_CREATED, id))
  }

  /** Once a request between two users went through, any further request
      between them, from either side, is a duplicate and writes nothing. */
  lemma DuplicateRequestRejected(s: Store, c1: Caller, to1: JsId, c2: Caller, to2: JsId)
    requires SendRequest(s, c1, to1).reply.Ok?
    requires IsUserId(to2)
    requires (c2.userId == c1.userId && TargetOf(to2) == TargetOf(to1))
          || (c2.userId == TargetOf(to1) && TargetOf(to2) == c1.userId)
    ensures var s1 := SendRequest(s, c1, to1).store;
            SendRequest(s1, c2, to2) == Step(s1, Fail(HTTP_BAD_REQUEST, REQUEST_EXISTS))
  {
    var s1 := SendRequest(s, c1, to1).store;
    var p := NormalizePair(c1.userId, TargetOf(to1));
    NormalizePairSamePair(c1.userId, TargetOf(to1), c2.userId, TargetOf(to2));
    assert s1.connections[|s.connections|].userA == p.0;
    assert PairTaken(s1.connections, NormalizePair(c2.userId, TargetOf(to2)));
  }

  /** The first row whose id is `id`; a missing id matches nothing. */
  function FindConnection(cs: seq<Connection>, id: Option<int>): (r: Option<Connection>)
    ensures r.Some? ==> id.Some? && r.value in cs && r.value.id == id.value
    ensures r.None? <==> id.None? || forall i :: 0 <= i < |cs| ==> cs[i].id != id.value
  {
    if id.None? then None else Find(cs, (c: Connection) => c.id == id.value)
  }

  /** `UPDATE connections SET status = st WHERE connection_id = id`. */
  function SetStatus(cs: seq<Connection>, id: int, st: ConnStatus): (r: seq<Connection>)
    ensures |r| == |cs|
    ensures forall i :: 0 <= i < |cs| ==> r[i] == (if cs[i].id == id then cs[i].(status := st) else cs[i])
  {
    seq(|cs|, i requires 0 <= i < |cs| => if cs[i].id == id then cs[i].(status := st) else cs[i])
  }

  /** The status an answer sets: only the exact action `"accept"` accepts. */
  function Decision(action: string): ConnStatus {
    if action == "accept" then Accepted else Rejected
  }

  predicate Involves(c: Connection, u: int) {
    c.userA == u || c.userB == u
  }

  /** `respondRequest`: 404 for an unknown id, then 400 for a row already
      answered (before the participant check), then 403 for a non-participant;
      otherwise the row's status becomes the decision. */
  function RespondRequest(s: Store, caller: Caller, id: Option<int>, action: string): (r: Step<ConnStatus>)
    ensures r.reply.Fail? ==> r.store == s
    ensures r.reply == Fail(HTTP_NOT_FOUND, CONNECTION_NOT_FOUND) <==> FindConnection(s.connections, id).None?
    ensures FindConnection(s.connections, id).Some? && FindConnection(s.connections, id).value.status != Pending ==>
              r.reply == Fail(HTTP_BAD_REQUEST, ALREADY_RESPONDED)
    ensures FindConnection(s.connections, id).Some? && FindConnection(s.connections, id).value.status == Pending
            && !Involves(FindConnection(s.connections, id).value, caller.userId) ==>
              r == Step(s, Fail(HTTP_FORBIDDEN, NOT_AUTHORIZED))
    ensures r.reply.Ok? <==>
              && FindConnection(s.connections, id).Some?
              && FindConnection(s.connections, id).value.status == Pending
              && Involves(FindConnection(s.connections, id).value, caller.userId)
    ensures r.reply.Ok? ==>
              && r.reply.code == HTTP_OK
              && r.reply.value != Pending
              && r.store.(connections := s.connections) == s
              && |r.store.connections| == |s.connections|
              && forall i :: 0 <= i < |s.connections| ==>
                   r.store.connections[i] ==
                     (if s.connections[i].id == id.value then s.connections[i].(status := r.reply.value) else s.connections[i])
  {
    match FindConnection(s.connections, id)
    case None => Step(s, Fail(HTTP_NOT_FOUND, CONNECTION_NOT_FOUND))
    case Some(c) =>
      if c.status != Pending then Step(s, Fail(HTTP_BAD_REQUEST, ALREADY_RESPONDED))
      else if !Involves(c, caller.userId) then Step(s, Fail(HTTP_FORBIDDEN, NOT_AUTHORIZED))
      else
        var st := Decision(action);
        Step(s.(connections := SetStatus(s.connections, id.value, st)), Ok(HTTP_OK, st))
  }

  /** Any action other than the exact string `"accept"` rejects. */
  lemma RespondDecision(s: Store, caller: Caller, id: Option<int>, action: string)
    requires RespondRequest(s, caller, id, action).reply.Ok?
    ensures RespondRequest(s, caller, id, action).reply.value == Accepted <==> action == "accept"
    ensures RespondRequest(s, caller, id, action).reply.value == Rejected <==> action != "accept"
  {
  }

  /** Accepted and rejected are terminal: answering the same request again,
      by anyone and with any action, is refused and writes nothing. */
  lemma RespondIsFinal(s: Store, c1: Caller, id: Option<int>, a1: string, c2: Caller, a2: string)
    requires RespondRequest(s, c1, id, a1).reply.Ok?
    ensures var s1 := RespondRequest(s, c1, id, a1).store;
            RespondRequest(s1, c2, id, a2) == Step(s1, Fail(HTTP_BAD_REQUEST, ALREADY_RESPONDED))
  {
    var r := RespondRequest(s, c1, id, a1);
    var s1 := r.store;
    var f := FindConnection(s1.connections, id);
    assert f.Some? by {
      var c := FindConnection(s.connections, id).value;
      var i :| 0 <= i < |s.connections| && s.connections[i] == c;
      assert s1.connections[i].id == id.value;
    }
    var j :| 0 <= j < |s1.connections| && s1.connections[j] == f.value;
    assert s1.connections[j].status == r.reply.value;
  }

  /** The only status change either handler makes is out of pending. */
  lemma StatusLeavesOnlyPending(s: Store, caller: Caller, id: Option<int>, action: string, to: JsId)
    requires Numbered(s.connections, ConnectionIdOf)
    ensures var s1 := RespondRequest(s, caller, id, action).store;
            |s1.connections| == |s.connections| &&
            forall i :: 0 <= i < |s.connections| && s1.connections[i].status != s.connections[i].status ==>
              s.connections[i].status == Pending && s1.connections[i].status != Pending
    ensures var s2 := SendRequest(s, caller, to).store;
            |s2.connections| >= |s.connections| &&
            forall i :: 0 <= i < |s.connections| ==> s2.connections[i] == s.connections[i]
  {
    var r := RespondRequest(s, caller, id, action);
    if r.reply.Ok? {
      var c := FindConnection(s.connections, id).value;
      forall i | 0 <= i < |s.connections| && r.store.connections[i].status != s.connections[i].status
        ensures s.connections[i].status == Pending
      {
        var j :| 0 <= j < |s.connections| && s.connections[j] == c;
        assert ConnectionIdOf(s.connections[i]) == i + 1;
        assert ConnectionIdOf(s.connections[j]) == j + 1;
      }
    }
  }

  /** The user on the other side of `c` from `me` (`IF(user_a = me, user_b, user_a)`). */
  function Other(c: Connection, me: int): int {
    if c.userA == me then c.userB else c.userA
  }

  /** One row of `getConnections`: the connection and the peer's user row. */
  datatype Peer = Peer(connectionId: int, status: ConnStatus, userId: int, email: string, role: Role)

  /** An accepted row holding `me` whose peer has a user row. */
  predicate IsPeerConnection(s: Store, c: Connection, me: int) {
    c.status == Accepted && Involves(c, me) && FindUser(s, Other(c, me)).Some?
  }

  function PeerOf(s: Store, c: Connection, me: int): Peer
    requires FindUser(s, Other(c, me)).Some?
  {
    var u := FindUser(s, Other(c, me)).value;
    Peer(c.id, c.status, u.id, u.email, u.role)
  }

  /** `getConnections`: for each accepted row holding the caller, the other
      participant, in table order. */
  function GetConnections(s: Store, caller: Caller): (r: Reply<seq<Peer>>)
    ensures r.Ok? && r.code == HTTP_OK
    ensures forall k :: 0 <= k < |r.value| ==>
              exists c :: c in s.connections && IsPeerConnection(s, c, caller.userId)
                && r.value[k] == PeerOf(s, c, caller.userId)
    ensures forall c :: c in s.connections && IsPeerConnection(s, c, caller.userId) ==>
              PeerOf(s, c, caller.userId) in r.value
    ensures forall k :: 0 <= k < |r.value| ==> r.value[k].status == Accepted
  {
    var me := caller.userId;
    var hits := Filter(s.connections, (c: Connection) => IsPeerConnection(s, c, me));
    var peers := seq(|hits|, i requires 0 <= i < |hits| => PeerOf(s, hits[i], me));
    assert forall c :: c in hits ==> PeerOf(s, c, me) in peers by {
      forall c | c in hits ensures PeerOf(s, c, me) in peers {
        var i :| 0 <= i < |hits| && hits[i] == c;
        assert peers[i] == PeerOf(s, c, me);
      }
    }
    Ok(HTTP_OK, peers)
  }
  /** Accepting a request puts each participant among the other's
      connections, when both have user rows. */
  lemma AcceptListsBothPeers(s: Store, responder: Caller, id: Option<int>, a: Caller, b: Caller)
    requires RespondRequest(s, responder, id, "accept").reply.Ok?
    requires a.userId == FindConnection(s.connections, id).value.userA
    requires b.userId == FindConnection(s.connections, id).value.userB
    requires FindUser(s, a.userId).Some? && FindUser(s, b.userId).Some?
    ensures var s1 := RespondRequest(s, responder, id, "accept").store;
            var c := FindConnection(s.connections, id).value.(status := Accepted);
            && PeerOf(s1, c, a.userId) in GetConnections(s1, a).value
            && PeerOf(s1, c, a.userId).userId == b.userId
            && PeerOf(s1, c, b.userId) in GetConnections(s1, b).value
            && PeerOf(s1, c, b.userId).userId == a.userId
  {
    var s1 := RespondRequest(s, responder, id, "accept").store;
    var c0 := FindConnection(s.connections, id).value;
    var i :| 0 <= i < |s.connections| && s.connections[i] == c0;
    assert s1.connections[i] == c0.(status := Accepted);
    assert s1.users == s.users;
  }

  /** Two canonical rows holding `me` with the same peer are rows for the
      same pair. */
  lemma SamePeerSamePair(x: Connection, y: Connection, me: int)
    requires x.userA <= x.userB && y.userA <= y.userB
    requires Involves(x, me) && Involves(y, me)
    ensures Other(x, me) == Other(y, me) ==> x.userA == y.userA && x.userB == y.userB
  {
  }

  /** Under the unique pair key, the row at `i` is the only row for its pair. */
  lemma OnlyRowOfPair(cs: seq<Connection>, i: nat, j: nat)
    requires PairsCanonical(cs) && i < |cs| && j < |cs|
    ensures cs[j].userA == cs[i].userA && cs[j].userB == cs[i].userB ==> j == i
  {
    if j < i {
      assert (cs[j].userA, cs[j].userB) != (cs[i].userA, cs[i].userB);
    } else if i < j {
      assert (cs[i].userA, cs[i].userB) != (cs[j].userA, cs[j].userB);
    }
  }

  /** After a rejection neither participant shows the other among its
      connections: the unique pair key leaves no other row for the pair. */
  lemma RejectListsNeitherPeer(s: Store, responder: Caller, id: Option<int>, action: string, a: Caller)
    requires PairsCanonical(s.connections)
    requires action != "accept"
    requires RespondRequest(s, responder, id, action).reply.Ok?
    requires Involves(FindConnection(s.connections, id).value, a.userId)
    ensures var s1 := RespondRequest(s, responder, id, action).store;
            var other := Other(FindConnection(s.connections, id).value, a.userId);
            forall k :: 0 <= k < |GetConnections(s1, a).value| ==> GetConnections(s1, a).value[k].userId != other
  {
    var s1 := RespondRequest(s, responder, id, action).store;
    var c := FindConnection(s.connections, id).value;
    var i :| 0 <= i < |s.connections| && s.connections[i] == c;
    var v := GetConnections(s1, a).value;
    forall k | 0 <= k < |v| ensures v[k].userId != Other(c, a.userId) {
      var c' :| c' in s1.connections && IsPeerConnection(s1, c', a.userId) && v[k] == PeerOf(s1, c', a.userId);
      var j :| 0 <= j < |s1.connections| && s1.connections[j] == c';
      var x := s.connections[j];
      assert s1.connections[j] == (if x.id == id.value then x.(status := Rejected) else x);
      SamePeerSamePair(x, c, a.userId);
      OnlyRowOfPair(s.connections, i, j);
    }
  }


  /** One row of `getPendingRequests`: the request and its sender's email. */
  datatype Incoming = Incoming(connectionId: int, requestedBy: int, email: string)

  /** A pending row holding `me` that somebody else sent, whose sender has a
      user row. */
  predicate IsIncoming(s: Store, c: Connection, me: int) {
    c.status == Pending && Involves(c, me) && c.requestedBy != me && FindUser(s, c.requestedBy).Some?
  }

  function IncomingOf(s: Store, c: Connection): Incoming
    requires FindUser(s, c.requestedBy).Some?
  {
    Incoming(c.id, c.requestedBy, FindUser(s, c.requestedBy).value.email)
  }

  /** `getPendingRequests`: the requests waiting for the caller's answer. */
  function GetPendingRequests(s: Store, caller: Caller): (r: Reply<seq<Incoming>>)
    ensures r.Ok? && r.code == HTTP_OK
    ensures forall k :: 0 <= k < |r.value| ==>
              exists c :: c in s.connections && IsIncoming(s, c, caller.userId) && r.value[k] == IncomingOf(s, c)
    ensures forall c :: c in s.connections && IsIncoming(s, c, caller.userId) ==> IncomingOf(s, c) in r.value
    ensures forall k :: 0 <= k < |r.value| ==> r.value[k].requestedBy != caller.userId
  {
    var me := caller.userId;
    var hits := Filter(s.connections, (c: Connection) => IsIncoming(s, c, me));
    var rows := seq(|hits|, i requires 0 <= i < |hits| => IncomingOf(s, hits[i]));
    assert forall c :: c in hits ==> IncomingOf(s, c) in rows by {
      forall c | c in hits ensures IncomingOf(s, c) in rows {
        var i :| 0 <= i < |hits| && hits[i] == c;
        assert rows[i] == IncomingOf(s, c);
      }
    }
    Ok(HTTP_OK, rows)
  }

  /** A request the caller sent never shows up among the caller's own
      pending requests, while the addressee sees it. */
  lemma SentRequestIsIncomingForPeer(s: Store, caller: Caller, to: JsId)
    requires SendRequest(s, caller, to).reply.Ok?
    requires TargetOf(to) != caller.userId
    requires FindUser(s, caller.userId).Some?
    ensures var s1 := SendRequest(s, caller, to).store;
            var row := s1.connections[|s.connections|];
            && IncomingOf(s1, row) in GetPendingRequests(s1, Caller(TargetOf(to), Student, true)).value
            && IncomingOf(s1, row) !in GetPendingRequests(s1, caller).value
  {
    var s1 := SendRequest(s, caller, to).store;
    var row := s1.connections[|s.connections|];
    assert row in s1.connections;
    assert FindUser(s1, caller.userId) == FindUser(s, caller.userId);
  }

  /** Both handlers keep the store invariant. */
  lemma SendRequestKeepsValid(s: Store, caller: Caller, to: JsId)
    requires Valid(s)
    ensures Valid(SendRequest(s, caller, to).store)
  {
    var r := SendRequest(s, caller, to);
    if r.reply.Ok? {
      var row := r.store.connections[|s.connections|];
      assert r.store.connections == s.connections + [row];
      NumberedAppend(s.connections, ConnectionIdOf, row);
      assert !PairTaken(s.connections, (row.userA, row.userB));
    }
  }

  lemma RespondRequestKeepsValid(s: Store, caller: Caller, id: Option<int>, action: string)
    requires Valid(s)
    ensures Valid(RespondRequest(s, caller, id, action).store)
  {
    var r := RespondRequest(s, caller, id, action);
    if r.reply.Ok? {
      assert Numbered(r.store.connections, ConnectionIdOf) by {
        forall i | 0 <= i < |r.store.connections|
          ensures ConnectionIdOf(r.store.connections[i]) == i + 1
        {
          assert ConnectionIdOf(s.connections[i]) == i + 1;
        }
      }
    }
  }
}

=== FILE: directory.dfy ===
/**
 The user directory (backend/src/controllers/user.controller.js): search by
 name or email, and browse the newest users. `LIKE '%term%'` is read as a
 plain substring test; its collation and wildcard characters are not
 modelled.
 */
module Directory {
  import opened Base
  import opened Strings
  import opened Db
  import Auth

  const QUERY_TOO_SHORT: string := "Search query must be at least 2 characters"
  const MIN_QUERY: nat := 2
  const SEARCH_LIMIT: nat := 20
  const BROWSE_LIMIT: nat := 50

  /** One result row: the user joined with whichever profile it has. */
  datatype UserRow = UserRow(
    userId: int,
    email: string,
    role: Role,
    name: Option<string>,
    position: Option<string>,
    major: Option<string>,
    companyName: Option<string>)

  /** The row of `u` in both queries. `COALESCE(s.name, a.name)` prefers
      the student profile's name; position and company come from the alumni
      profile and major from the student profile, each NULL without that
      profile, and the company also NULL when no company row has its id. */
  function RowOf(s: Store, u: User): (row: UserRow)
    ensures row.userId == u.id && row.email == u.email && row.role == u.role
    ensures u.id in s.studentProfiles ==> row.name == Some(s.studentProfiles[u.id].name)
    ensures u.id !in s.studentProfiles && u.id in s.alumniProfiles ==> row.name == Some(s.alumniProfiles[u.id].name)
    ensures row.name.None? <==> u.id !in s.studentProfiles && u.id !in s.alumniProfiles
    ensures row.position == (if u.id in s.alumniProfiles then s.alumniProfiles[u.id].position else None)
    ensures row.major == (if u.id in s.studentProfiles then s.studentProfiles[u.id].major else None)
    ensures row.companyName.Some? ==>
      && u.id in s.alumniProfiles && s.alumniProfiles[u.id].companyId.Some?
      && exists i :: 0 <= i < |s.companies| && s.companies[i].id == s.alumniProfiles[u.id].companyId.value
                     && s.companies[i].name == row.companyName.value
    ensures u.id in s.alumniProfiles && s.alumniProfiles[u.id].companyId.Some?
            && (exists i :: 0 <= i < |s.companies| && s.companies[i].id == s.alumniProfiles[u.id].companyId.value) ==>
      row.companyName.Some?
  {
    var sp := if u.id in s.studentProfiles then Some(s.studentProfiles[u.id]) else None;
    var ap := if u.id in s.alumniProfiles then Some(s.alumniProfiles[u.id]) else None;
    UserRow(
      u.id, u.email, u.role,
      if sp.Some? then Some(sp.value.name) else if ap.Some? then Some(ap.value.name) else None,
      if ap.Some? then ap.value.position else None,
      if sp.Some? then sp.value.major else None,
      if ap.Some? && ap.value.companyId.Some? then CompanyName(s, ap.value.companyId.value) else None)
  }

  /** The directory row of a newly registered alumnus (with no stray student
      profile under its id) shows the registered name and position, no
      major, and a company whose name matches the one typed up to case and
      surrounding white space, or none when no name was typed. */
  lemma RegisteredAlumnusRow(s: Store, f: Auth.AlumniForm, hash: string)
    requires Valid(s) && Auth.RegisterAlumni(s, f, hash).reply.Ok?
    requires |s.users| + 1 !in s.studentProfiles
    ensures var s1 := Auth.RegisterAlumni(s, f, hash).store;
            var row := RowOf(s1, s1.users[|s.users|]);
            && row.name == Some(f.name) && row.role == Alumni && row.email == f.email
            && row.position == Auth.OrNull(f.position) && row.major == None
            && (row.companyName.None? <==> f.companyName.None? || IsBlank(f.companyName.value))
            && (row.companyName.Some? ==> Lower(row.companyName.value) == Auth.CompanyKey(f.companyName.value))
  {
    var s1 := Auth.RegisterAlumni(s, f, hash).store;
    var id := |s.users| + 1;
    var pick := Auth.GetOrCreateCompany(s.companies, f.companyName);
    Auth.GetOrCreateCompanyKeepsNumbered(s.companies, f.companyName);
    assert s1.alumniProfiles[id] == Auth.AlumniProfileOf(f, pick.id);
    if pick.id.Some? {
      var k := pick.id.value;
      var key := Auth.CompanyKey(f.companyName.value);
      var c: Company;
      if Auth.FindCompany(s.companies, key).Some? {
        c := Auth.FindCompany(s.companies, key).value;
        var j :| 0 <= j < |s.companies| && s.companies[j] == c;
        assert CompanyIdOf(s.companies[j]) == j + 1;
      } else {
        c := Company(|s.companies| + 1, Trim(f.companyName.value));
        assert pick.companies == s.companies + [c];
      }
      CompanyAtItsId(s1, c);
    }
  }

  /** With positional ids, a company row is the one `CompanyName` finds by
      its id. */
  lemma CompanyAtItsId(s: Store, c: Company)
    requires Numbered(s.companies, CompanyIdOf) && c in s.companies
    ensures CompanyName(s, c.id) == Some(c.name)
  {
    var i :| 0 <= i < |s.companies| && s.companies[i] == c;
    assert CompanyIdOf(s.companies[i]) == i + 1;
    var r := Find(s.companies, (d: Company) => d.id == c.id);
    var j :| 0 <= j < |s.companies| && s.companies[j] == r.value;
    assert CompanyIdOf(s.companies[j]) == j + 1;
  }

  /** The student name or the alumni name contains the term. */
  predicate NameHit(s: Store, term: string, u: User) {
    || (u.id in s.studentProfiles && Contains(s.studentProfiles[u.id].name, term))
    || (u.id in s.alumniProfiles && Contains(s.alumniProfiles[u.id].name, term))
  }

  predicate EmailHit(term: string, u: User) {
    Contains(u.email, term)
  }

  /** The `WHERE` clause: verified, and a name or the email matches. */
  predicate Matches(s: Store, term: string, u: User) {
    u.verified && (NameHit(s, term, u) || EmailHit(term, u))
  }

  /** Every match, ranked by the `CASE`: name matches first, then
      email-only matches; table order within a rank. */
  function Ranked(s: Store, term: string): (r: seq<User>)
    ensures forall u :: u in r <==> u in s.users && Matches(s, term, u)
  {
    Filter(s.users, (u: User) => u.verified && NameHit(s, term, u))
    + Filter(s.users, (u: User) => u.verified && !NameHit(s, term, u) && EmailHit(term, u))
  }

  /** A name match is never ranked after an email-only match. */
  lemma RankedNamesFirst(s: Store, term: string, i: int, j: int)
    requires 0 <= i < j < |Ranked(s, term)| && NameHit(s, term, Ranked(s, term)[j])
    ensures NameHit(s, term, Ranked(s, term)[i])
  {
    var byName := Filter(s.users, (u: User) => u.verified && NameHit(s, term, u));
    var byEmail := Filter(s.users, (u: User) => u.verified && !NameHit(s, term, u) && EmailHit(term, u));
    var r := Ranked(s, term);
    assert r == byName + byEmail;
    assert r[i] == byName[i];
  }

  /** `searchUsers`. A missing query or one shorter than two characters
      after trimming is 400; otherwise the first twenty ranked matches for
      the trimmed query. */
  function Search(s: Store, q: Option<string>): (r: Reply<seq<UserRow>>)
    ensures r.Fail? <==> q.None? || |Trim(q.value)| < MIN_QUERY
    ensures r.Fail? ==> r == Fail(HTTP_BAD_REQUEST, QUERY_TOO_SHORT)
    ensures r.Ok? ==>
      var hits := Ranked(s, Trim(q.value));
      && r.code == HTTP_OK
      && |r.value| == Min(SEARCH_LIMIT, |hits|)
      && forall k :: 0 <= k < |r.value| ==> r.value[k] == RowOf(s, hits[k])
  {
    if q.None? || |Trim(q.value)| < MIN_QUERY then Fail(HTTP_BAD_REQUEST, QUERY_TOO_SHORT)
    else
      var hits := Ranked(s, Trim(q.value));
      var n := Min(SEARCH_LIMIT, |hits|);
      Ok(HTTP_OK, seq(n, k requires 0 <= k < n => RowOf(s, hits[k])))
  }

  /** `row` is the row of some verified user matching `term`. */
  ghost predicate RowOfMatch(s: Store, term: string, row: UserRow) {
    exists u :: u in s.users && Matches(s, term, u) && row == RowOf(s, u)
  }

  /** Every result is the row of a verified user matching the trimmed
      query, and there are at most twenty. */
  lemma SearchSound(s: Store, q: string)
    requires |Trim(q)| >= MIN_QUERY
    ensures Search(s, Some(q)).Ok? && |Search(s, Some(q)).value| <= SEARCH_LIMIT
    ensures forall k :: 0 <= k < |Search(s, Some(q)).value| ==> RowOfMatch(s, Trim(q), Search(s, Some(q)).value[k])
  {
    var r := Search(s, Some(q));
    var hits := Ranked(s, Trim(q));
    forall k | 0 <= k < |r.value| ensures RowOfMatch(s, Trim(q), r.value[k]) {
      assert hits[k] in hits;
    }
  }

  /** With at most twenty matches, every match is returned. */
  lemma SearchComplete(s: Store, q: string, u: User)
    requires |Trim(q)| >= MIN_QUERY && |Ranked(s, Trim(q))| <= SEARCH_LIMIT
    requires u in s.users && Matches(s, Trim(q), u)
    ensures RowOf(s, u) in Search(s, Some(q)).value
  {
    var r := Search(s, Some(q));
    var hits := Ranked(s, Trim(q));
    var k :| 0 <= k < |hits| && hits[k] == u;
    assert r.value[k] == RowOf(s, u);
  }

  /** Surrounding white space in the query makes no difference. */
  lemma SearchTrimsQuery(s: Store, q: string)
    ensures Search(s, Some(q)) == Search(s, Some(Trim(q)))
  {
    TrimIdempotent(q);
  }

  /** An unverified user is never found, whatever the query. */
  lemma SearchSkipsUnverified(s: Store, q: string, u: User)
    requires u in s.users && !u.verified
    ensures u !in Ranked(s, Trim(q))
  {
  }

  /** `row` is the row of some verified user. */
  ghost predicate RowOfVerified(s: Store, row: UserRow) {
    exists u :: u in s.users && u.verified && row == RowOf(s, u)
  }

  /** `getAllUsers`: up to fifty verified users, newest first (the order is
      `GetAllUsersNewestFirst`). */
  function GetAllUsers(s: Store): (r: Reply<seq<UserRow>>)
    ensures r.Ok? && r.code == HTTP_OK
    ensures |r.value| == Min(BROWSE_LIMIT, |Filter(s.users, (u: User) => u.verified)|)
    ensures forall k :: 0 <= k < |r.value| ==> RowOfVerified(s, r.value[k])
    ensures |Filter(s.users, (u: User) => u.verified)| <= BROWSE_LIMIT ==>
              forall u :: u in s.users && u.verified ==> RowOf(s, u) in r.value
  {
    var newest := Reverse(Filter(s.users, (u: User) => u.verified));
    var n := Min(BROWSE_LIMIT, |newest|);
    var rows := seq(n, k requires 0 <= k < n => RowOf(s, newest[k]));
    assert forall k :: 0 <= k < n ==> newest[k] in newest;
    assert n == |newest| ==> forall u :: u in newest ==> RowOf(s, u) in rows by {
      if n == |newest| {
        forall u | u in newest ensures RowOf(s, u) in rows {
          var k :| 0 <= k < |newest| && newest[k] == u;
          assert rows[k] == RowOf(s, u);
        }
      }
    }
    Ok(HTTP_OK, rows)
  }

  /** The browse list holds only verified users, at most fifty, in strictly
      descending `created_at`; with fifty or fewer verified users it holds
      all of them. */
  lemma GetAllUsersNewestFirst(s: Store)
    requires Valid(s)
    ensures var verified := Filter(s.users, (u: User) => u.verified);
            var shown := Reverse(verified)[..Min(BROWSE_LIMIT, |verified|)];
            && |GetAllUsers(s).value| <= BROWSE_LIMIT
            && (forall k :: 0 <= k < |shown| ==> shown[k].verified && GetAllUsers(s).value[k] == RowOf(s, shown[k]))
            && DecreasingBy(shown, UserTime)
            && (|verified| <= BROWSE_LIMIT ==> forall u :: u in s.users && u.verified ==> u in shown)
  {
    var p := (u: User) => u.verified;
    var verified := Filter(s.users, p);
    NewestFirst(s.users, p, UserTime);
    PrefixKeepsDecreasing(Reverse(verified), Min(BROWSE_LIMIT, |verified|), UserTime);
    var shown := Reverse(verified)[..Min(BROWSE_LIMIT, |verified|)];
    assert forall k :: 0 <= k < |shown| ==> shown[k] in verified;
  }
}

=== FILE: messages.dfy ===
/**
 Direct messages (backend/src/controllers/message.controller.js): sending is
 gated on an accepted connection, reading a conversation is not, read
 receipts only ever go from unread to read, and the unread badge is a count
 per sender.
 */
module Messages {
  import opened Base
  import opened Db
  import Connections

  const NOT_CONNECTED: string := "Not connected"
  const INVALID_MESSAGE_IDS: string := "Invalid message IDs"

  /** `c` is an accepted row joining `a` and `b`, in either column order. */
  predicate Links(c: Connection, a: int, b: int) {
    c.status == Accepted && ((c.userA == a && c.userB == b) || (c.userA == b && c.userB == a))
  }

  /** The gate `sendMessage` checks before writing. */
  predicate Connected(cs: seq<Connection>, a: int, b: int) {
    exists i :: 0 <= i < |cs| && Links(cs[i], a, b)
  }

  /** The 201 body of `sendMessage`. */
  datatype Sent = Sent(messageId: int, readStatus: bool)

  /** `sendMessage`: 403 unless the two users are connected; otherwise an
      unread message from the caller is appended. The text is not checked. A
      missing `to_user_id` binds SQL NULL and so matches no connection. */
  function SendMessage(s: Store, caller: Caller, to: Option<int>, text: string): (r: Step<Sent>)
    ensures r.reply.Ok? <==> to.Some? && Connected(s.connections, caller.userId, to.value)
    ensures r.reply.Fail? ==> r == Step(s, Fail(HTTP_FORBIDDEN, NOT_CONNECTED))
    ensures r.reply.Ok? ==>
      && r.reply.code == HTTP_CREATED
      && r.reply.value == Sent(|s.messages| + 1, false)
      && r.store.(messages := s.messages, clock := s.clock) == s
      && r.store.clock == s.clock + 1
      && |r.store.messages| == |s.messages| + 1
      && r.store.messages[..|s.messages|] == s.messages
      && var m := r.store.messages[|s.messages|];
         && m.id == r.reply.value.messageId
         && m.sender == caller.userId && m.receiver == to.value && m.text == text
         && !m.read && m.readAt.None? && m.createdAt == s.clock
  {
    if to.None? || !Connected(s.connections, caller.userId, to.value) then
      Step(s, Fail(HTTP_FORBIDDEN, NOT_CONNECTED))
    else
      var m := Message(|s.messages| + 1, caller.userId, to.value, text, false, None, s.clock);
      assert (s.messages + [m])[..|s.messages|] == s.messages;
      Step(s.(messages := s.messages + [m], clock := s.clock + 1), Ok(HTTP_CREATED, Sent(m.id, false)))
  }

  /** The gate is symmetric: if one side may write, so may the other. */
  lemma ConnectedSymmetric(cs: seq<Connection>, a: int, b: int)
    ensures Connected(cs, a, b) <==> Connected(cs, b, a)
  {
    if Connected(cs, a, b) {
      var i :| 0 <= i < |cs| && Links(cs[i], a, b);
      assert Links(cs[i], b, a);
    }
    if Connected(cs, b, a) {
      var i :| 0 <= i < |cs| && Links(cs[i], b, a);
      assert Links(cs[i], a, b);
    }
  }

  /** With canonical pairs, the gate looks for the one normalised row. */
  lemma ConnectedIsNormalizedRow(cs: seq<Connection>, a: int, b: int)
    requires PairsCanonical(cs)
    ensures Connected(cs, a, b) <==>
      exists i :: 0 <= i < |cs| && cs[i].status == Accepted
        && (cs[i].userA, cs[i].userB) == Connections.NormalizePair(a, b)
  {
    var p := Connections.NormalizePair(a, b);
    if Connected(cs, a, b) {
      var i :| 0 <= i < |cs| && Links(cs[i], a, b);
      assert (cs[i].userA, cs[i].userB) == p;
    }
    if exists i :: 0 <= i < |cs| && cs[i].status == Accepted && (cs[i].userA, cs[i].userB) == p {
      var i :| 0 <= i < |cs| && cs[i].status == Accepted && (cs[i].userA, cs[i].userB) == p;
      assert Links(cs[i], a, b);
    }
  }

  /** Accepting a request opens messaging both ways between its two users. */
  lemma AcceptOpensMessaging(s: Store, responder: Caller, id: Option<int>, sender: Caller, text: string)
    requires Connections.RespondRequest(s, responder, id, "accept").reply.Ok?
    requires Connections.Involves(Connections.FindConnection(s.connections, id).value, sender.userId)
    ensures var s1 := Connections.RespondRequest(s, responder, id, "accept").store;
            var c := Connections.FindConnection(s.connections, id).value;
            SendMessage(s1, sender, Some(Connections.Other(c, sender.userId)), text).reply.Ok?
  {
    var s1 := Connections.RespondRequest(s, responder, id, "accept").store;
    var c := Connections.FindConnection(s.connections, id).value;
    var i :| 0 <= i < |s.connections| && s.connections[i] == c;
    assert Links(s1.connections[i], sender.userId, Connections.Other(c, sender.userId));
  }

  /** Rejecting a request leaves its two users unable to message each other:
      the unique pair key means there is no other row that could open the gate. */
  lemma RejectKeepsGateClosed(s: Store, responder: Caller, id: Option<int>, action: string)
    requires Valid(s)
    requires action != "accept"
    requires Connections.RespondRequest(s, responder, id, action).reply.Ok?
    ensures var s1 := Connections.RespondRequest(s, responder, id, action).store;
            var c := Connections.FindConnection(s.connections, id).value;
            !Connected(s1.connections, c.userA, c.userB)
  {
    var c := Connections.FindConnection(s.connections, id).value;
    var j :| 0 <= j < |s.connections| && s.connections[j] == c;
  }

  /** `m` is part of the conversation between `me` and `peer`. */
  predicate Between(m: Message, me: int, peer: int) {
    (m.sender == me && m.receiver == peer) || (m.sender == peer && m.receiver == me)
  }

  /** `getMessages`: the conversation with `peer`, oldest first. */
  function GetMessages(s: Store, caller: Caller, peer: int): (r: Reply<seq<Message>>)
    ensures r.Ok? && r.code == HTTP_OK
    ensures forall m :: m in r.value <==> m in s.messages && Between(m, caller.userId, peer)
    ensures Subsequence(r.value, s.messages)
  {
    var me := caller.userId;
    FilterIsSubsequence(s.messages, (m: Message) => Between(m, me, peer));
    Ok(HTTP_OK, Filter(s.messages, (m: Message) => Between(m, me, peer)))
  }

  /** The conversation comes back in `created_at` order. */
  lemma GetMessagesChronological(s: Store, caller: Caller, peer: int)
    requires Valid(s)
    ensures IncreasingBy(GetMessages(s, caller, peer).value, MessageTime)
  {
    FilterKeepsIncreasing(s.messages, (m: Message) => Between(m, caller.userId, peer), MessageTime);
  }

  /** Reading a conversation does not depend on the connections table at all:
      former or never-connected peers still see their history. */
  lemma GetMessagesIgnoresConnections(s: Store, caller: Caller, peer: int, cs: seq<Connection>)
    ensures GetMessages(s.(connections := cs), caller, peer) == GetMessages(s, caller, peer)
  {
  }

  /** The `message_ids` of a mark-as-read body. */
  datatype IdList = Missing | NotAnArray | Ids(ids: seq<int>)

  /** The success bodies of `markAsRead`. */
  datatype MarkResult = NothingToMark | Marked(updatedCount: nat)

  /** The `WHERE` of the mark-as-read update. */
  predicate Marks(m: Message, ids: seq<int>, me: int) {
    m.id in ids && m.receiver == me && !m.read
  }

  /** `UPDATE messages SET read_status = TRUE, read_at = t WHERE ...`. */
  function MarkRows(ms: seq<Message>, ids: seq<int>, me: int, t: int): (r: seq<Message>)
    ensures |r| == |ms|
    ensures forall i :: 0 <= i < |ms| ==>
      r[i] == (if Marks(ms[i], ids, me) then ms[i].(read := true, readAt := Some(t)) else ms[i])
  {
    seq(|ms|, i requires 0 <= i < |ms| =>
      if Marks(ms[i], ids, me) then ms[i].(read := true, readAt := Some(t)) else ms[i])
  }

  /** The number of rows the update matches (`affectedRows`). */
  function MarkCount(ms: seq<Message>, ids: seq<int>, me: int): nat {
    if |ms| == 0 then 0
    else (if Marks(ms[0], ids, me) then 1 else 0) + MarkCount(ms[1..], ids, me)
  }

  /** How many rows went from unread to read between `before` and `after`. */
  function NewlyRead(before: seq<Message>, after: seq<Message>): nat
    requires |before| == |after|
  {
    if |before| == 0 then 0
    else (if !before[0].read && after[0].read then 1 else 0) + NewlyRead(before[1..], after[1..])
  }

  /** `markAsRead`: 400 without an id array, a no-op for an empty one, and
      otherwise the caller's listed unread messages become read. */
  function MarkAsRead(s: Store, caller: Caller, list: IdList): (r: Step<MarkResult>)
    ensures r.reply.Fail? <==> !list.Ids?
    ensures r.reply.Fail? ==> r.reply == Fail(HTTP_BAD_REQUEST, INVALID_MESSAGE_IDS)
    ensures r.reply.Ok? ==> r.reply.code == HTTP_OK
    ensures list == Ids([]) ==> r == Step(s, Ok(HTTP_OK, NothingToMark))
    ensures r.store.(messages := s.messages) == s
    ensures |r.store.messages| == |s.messages|
    ensures forall i :: 0 <= i < |s.messages| ==>
      && (s.messages[i].read ==> r.store.messages[i] == s.messages[i])
      && (r.store.messages[i] != s.messages[i] ==>
            && list.Ids? && s.messages[i].id in list.ids
            && s.messages[i].receiver == caller.userId
            && r.store.messages[i] == s.messages[i].(read := true, readAt := Some(s.clock)))
      && (list.Ids? && Marks(s.messages[i], list.ids, caller.userId) ==> r.store.messages[i].read)
  {
    match list
    case Missing => Step(s, Fail(HTTP_BAD_REQUEST, INVALID_MESSAGE_IDS))
    case NotAnArray => Step(s, Fail(HTTP_BAD_REQUEST, INVALID_MESSAGE_IDS))
    case Ids(ids) =>
      if |ids| == 0 then Step(s, Ok(HTTP_OK, NothingToMark))
      else
        var me := caller.userId;
        Step(s.(messages := MarkRows(s.messages, ids, me, s.clock)),
             Ok(HTTP_OK, Marked(MarkCount(s.messages, ids, me))))
  }

  lemma {:induction false} MarkCountIsNewlyRead(ms: seq<Message>, ids: seq<int>, me: int, t: int)
    ensures NewlyRead(ms, MarkRows(ms, ids, me, t)) == MarkCount(ms, ids, me)
    decreases |ms|
  {
    if |ms| > 0 {
      MarkCountIsNewlyRead(ms[1..], ids, me, t);
      assert MarkRows(ms, ids, me, t)[1..] == MarkRows(ms[1..], ids, me, t);
    }
  }

  /** `updated_count` is exactly the number of messages the call flipped
      from unread to read. */
  lemma UpdatedCountIsFlips(s: Store, caller: Caller, ids: seq<int>)
    requires |ids| > 0
    ensures var r := MarkAsRead(s, caller, Ids(ids));
            r.reply == Ok(HTTP_OK, Marked(NewlyRead(s.messages, r.store.messages)))
  {
    MarkCountIsNewlyRead(s.messages, ids, caller.userId, s.clock);
  }

  lemma {:induction false} MarkCountZero(ms: seq<Message>, ids: seq<int>, me: int)
    requires forall i :: 0 <= i < |ms| ==> !Marks(ms[i], ids, me)
    ensures MarkCount(ms, ids, me) == 0
    decreases |ms|
  {
    if |ms| > 0 {
      MarkCountZero(ms[1..], ids, me);
    }
  }

  /** Marking is idempotent: repeating the same call reports zero updates
      and leaves the store as the first call left it. */
  lemma MarkAsReadTwice(s: Store, caller: Caller, ids: seq<int>)
    requires |ids| > 0
    ensures var s1 := MarkAsRead(s, caller, Ids(ids)).store;
            MarkAsRead(s1, caller, Ids(ids)) == Step(s1, Ok(HTTP_OK, Marked(0)))
  {
    var s1 := MarkAsRead(s, caller, Ids(ids)).store;
    assert forall i :: 0 <= i < |s1.messages| ==> !Marks(s1.messages[i], ids, caller.userId);
    MarkCountZero(s1.messages, ids, caller.userId);
    assert MarkRows(s1.messages, ids, caller.userId, s1.clock) == s1.messages;
  }

  lemma MarkAsReadKeepsValid(s: Store, caller: Caller, list: IdList)
    requires Valid(s)
    ensures Valid(MarkAsRead(s, caller, list).store)
  {
    var s1 := MarkAsRead(s, caller, list).store;
    assert forall i :: 0 <= i < |s.messages| ==>
      s1.messages[i].id == s.messages[i].id && s1.messages[i].createdAt == s.messages[i].createdAt;
    assert Numbered(s1.messages, MessageIdOf) by {
      forall i | 0 <= i < |s1.messages| ensures MessageIdOf(s1.messages[i]) == i + 1 {
        assert MessageIdOf(s.messages[i]) == i + 1;
      }
    }
    assert Stamped(s1.messages, MessageTime, s1.clock) by {
      forall i, j | 0 <= i < j < |s1.messages| ensures MessageTime(s1.messages[i]) < MessageTime(s1.messages[j]) {
        assert MessageTime(s.messages[i]) < MessageTime(s.messages[j]);
      }
      forall i | 0 <= i < |s1.messages| ensures MessageTime(s1.messages[i]) < s1.clock {
        assert MessageTime(s.messages[i]) < s.clock;
      }
    }
  }

  lemma SendMessageKeepsValid(s: Store, caller: Caller, to: Option<int>, text: string)
    requires Valid(s)
    ensures Valid(SendMessage(s, caller, to, text).store)
  {
    var r := SendMessage(s, caller, to, text);
    if r.reply.Ok? {
      var m := r.store.messages[|s.messages|];
      assert r.store.messages == s.messages + [m];
      NumberedAppend(s.messages, MessageIdOf, m);
      StampedAppend(s.messages, MessageTime, s.clock, m);
      StampedTick(s.users, UserTime, s.clock);
      StampedTick(s.opportunities, OpportunityTime, s.clock);
      StampedTick(s.applications, ApplicationTime, s.clock);
    }
  }

  /** An unread message addressed to `me`. */
  predicate UnreadFor(m: Message, me: int) {
    m.receiver == me && !m.read
  }

  /** Reference count: unread messages from `sender` to `me`. */
  function UnreadFrom(ms: seq<Message>, me: int, sender: int): nat {
    if |ms| == 0 then 0
    else (if UnreadFor(ms[0], me) && ms[0].sender == sender then 1 else 0) + UnreadFrom(ms[1..], me, sender)
  }

  /** Reference count: all unread messages addressed to `me`. */
  function UnreadTotal(ms: seq<Message>, me: int): nat {
    if |ms| == 0 then 0
    else (if UnreadFor(ms[0], me) then 1 else 0) + UnreadTotal(ms[1..], me)
  }

  /** One row of `SELECT sender_id, COUNT(*) ... GROUP BY sender_id`. */
  datatype SenderCount = SenderCount(sender: int, count: nat)

  function Senders(rows: seq<SenderCount>): set<int> {
    if |rows| == 0 then {} else {rows[0].sender} + Senders(rows[1..])
  }

  /** No sender has two groups. */
  predicate Distinct(rows: seq<SenderCount>) {
    |rows| == 0 || (rows[0].sender !in Senders(rows[1..]) && Distinct(rows[1..]))
  }

  predicate NonEmptyGroups(rows: seq<SenderCount>) {
    forall i :: 0 <= i < |rows| ==> rows[i].count >= 1
  }

  /** The count of `sender`'s group, 0 when it has none. */
  function Lookup(rows: seq<SenderCount>, sender: int): nat {
    if |rows| == 0 then 0
    else if rows[0].sender == sender then rows[0].count
    else Lookup(rows[1..], sender)
  }

  function Total(rows: seq<SenderCount>): nat {
    if |rows| == 0 then 0 else rows[0].count + Total(rows[1..])
  }

  /** Count one more message from `sender`: increment its group or open one. */
  function Bump(rows: seq<SenderCount>, sender: int): (r: seq<SenderCount>)
    ensures forall k :: Lookup(r, k) == Lookup(rows, k) + (if k == sender then 1 else 0)
    ensures Total(r) == Total(rows) + 1
    ensures Senders(r) == Senders(rows) + {sender}
    ensures Distinct(rows) ==> Distinct(r)
    ensures NonEmptyGroups(rows) ==> NonEmptyGroups(r)
  {
    if |rows| == 0 then [SenderCount(sender, 1)]
    else if rows[0].sender == sender then [rows[0].(count := rows[0].count + 1)] + rows[1..]
    else
      var r := [rows[0]] + Bump(rows[1..], sender);
      assert r[1..] == Bump(rows[1..], sender);
      r
  }

  /** The grouped unread counts of the messages addressed to `me`. */
  function Group(ms: seq<Message>, me: int): (rows: seq<SenderCount>)
    ensures Distinct(rows) && NonEmptyGroups(rows)
    ensures forall k :: Lookup(rows, k) == UnreadFrom(ms, me, k)
    ensures Total(rows) == UnreadTotal(ms, me)
  {
    if |ms| == 0 then []
    else if UnreadFor(ms[0], me) then Bump(Group(ms[1..], me), ms[0].sender)
    else Group(ms[1..], me)
  }

  /** Building the JavaScript object with `forEach`: later rows overwrite. */
  function ToMap(rows: seq<SenderCount>): (m: map<int, nat>)
    ensures m.Keys == Senders(rows)
  {
    if |rows| == 0 then map[] else map[rows[0].sender := rows[0].count] + ToMap(rows[1..])
  }

  lemma {:induction false} ToMapAgreesWithLookup(rows: seq<SenderCount>, k: int)
    requires Distinct(rows) && NonEmptyGroups(rows)
    ensures k in ToMap(rows) <==> Lookup(rows, k) > 0
    ensures k in ToMap(rows) ==> ToMap(rows)[k] == Lookup(rows, k)
    decreases |rows|
  {
    if |rows| > 0 {
      assert NonEmptyGroups(rows[1..]) by {
        forall i | 0 <= i < |rows[1..]| ensures rows[1..][i].count >= 1 {
          assert rows[1..][i] == rows[i + 1];
        }
      }
      ToMapAgreesWithLookup(rows[1..], k);
      assert rows[0].count >= 1;
    }
  }

  /** `getUnreadCount`: each sender with unread messages for the caller,
      mapped to how many; senders with none are absent. */
  function GetUnreadCount(s: Store, caller: Caller): (r: Reply<map<int, nat>>)
    ensures r.Ok? && r.code == HTTP_OK
    ensures forall k :: k in r.value <==> UnreadFrom(s.messages, caller.userId, k) > 0
    ensures forall k :: k in r.value ==> r.value[k] == UnreadFrom(s.messages, caller.userId, k)
  {
    var rows := Group(s.messages, caller.userId);
    forall k ensures k in ToMap(rows) <==> UnreadFrom(s.messages, caller.userId, k) > 0
      ensures k in ToMap(rows) ==> ToMap(rows)[k] == UnreadFrom(s.messages, caller.userId, k)
    {
      ToMapAgreesWithLookup(rows, k);
    }
    Ok(HTTP_OK, ToMap(rows))
  }

  /** The per-sender groups behind the badge add up to the caller's total
      unread count. */
  lemma UnreadGroupsAddUp(s: Store, caller: Caller)
    ensures Total(Group(s.messages, caller.userId)) == UnreadTotal(s.messages, caller.userId)
    ensures Senders(Group(s.messages, caller.userId)) == GetUnreadCount(s, caller).value.Keys
  {
  }

  lemma {:induction false} UnreadFromAfterMark(ms: seq<Message>, ids: seq<int>, me: int, t: int, sender: int)
    requires forall i :: 0 <= i < |ms| && UnreadFor(ms[i], me) && ms[i].sender == sender ==> ms[i].id in ids
    ensures UnreadFrom(MarkRows(ms, ids, me, t), me, sender) == 0
    decreases |ms|
  {
    if |ms| > 0 {
      assert MarkRows(ms, ids, me, t)[1..] == MarkRows(ms[1..], ids, me, t);
      UnreadFromAfterMark(ms[1..], ids, me, t, sender);
    }
  }

  /** Marking every unread message of a conversation read clears that
      sender from the caller's unread counts. */
  lemma MarkingClearsSender(s: Store, caller: Caller, ids: seq<int>, sender: int)
    requires |ids| > 0
    requires forall i :: (0 <= i < |s.messages| && UnreadFor(s.messages[i], caller.userId)
                          && s.messages[i].sender == sender) ==> s.messages[i].id in ids
    ensures var s1 := MarkAsRead(s, caller, Ids(ids)).store;
            sender !in GetUnreadCount(s1, caller).value
  {
    UnreadFromAfterMark(s.messages, ids, caller.userId, s.clock, sender);
  }
}

=== FILE: middleware.dfy ===
/**
 The request gate (backend/src/middleware/auth.middleware.js): `authenticate`
 reads an `Authorization: Bearer <token>` header in the shape of section 2.1
 of RFC 6750, but splits it on a single space and compares `Bearer`
 case-sensitively; `requireRole` then checks the decoded payload's role.

 Token verification is foreign (jsonwebtoken) and is a parameter: it maps a
 token to the payload it carries, or to `None` when the signature or expiry
 check fails.
 */
module Middleware {
  import opened Base
  import opened Strings
  import opened Db
  import Admin

  const MISSING_HEADER: string := "Missing Authorization header"
  const MALFORMED_HEADER: string := "Malformed Authorization header"
  const TOKEN_MISSING: string := "Token missing"
  const INVALID_TOKEN: string := "Invalid or expired token"
  const MISSING_AUTH: string := "Missing auth"
  const FORBIDDEN: string := "Forbidden"

  const SCHEME: string := "Bearer"

  /** A middleware either hands the request on with its caller or answers it. */
  datatype Outcome = Next(caller: Caller) | Halt(code: int, error: string)

  /** The reference reading of an acceptable header: exactly `Bearer`, one
      space, and a token with no space in it. */
  predicate BearerShaped(h: string) {
    |h| > |SCHEME| && h[..|SCHEME|] == SCHEME && h[|SCHEME|] == ' ' && ' ' !in h[|SCHEME| + 1..]
  }

  function TokenPart(h: string): string
    requires BearerShaped(h)
  {
    h[|SCHEME| + 1..]
  }

  /** `split(' ')` yields exactly `[Bearer, t]` precisely for the headers of
      that reference shape, and then `t` is the token part. */
  lemma {:induction false} SplitBearer(h: string)
    ensures var parts := Split(h, ' ');
            (|parts| == 2 && parts[0] == SCHEME) <==> BearerShaped(h)
    ensures BearerShaped(h) ==> Split(h, ' ')[1] == TokenPart(h)
  {
    var parts := Split(h, ' ');
    if BearerShaped(h) {
      var t := h[|SCHEME| + 1..];
      assert h == SCHEME + [' '] + t;
      SplitAtFirst(SCHEME, ' ', t);
    }
    if |parts| == 2 && parts[0] == SCHEME {
      assert ' ' in h;
      var k := IndexOf(h, ' ');
      assert parts == [h[..k]] + Split(h[k + 1..], ' ');
      assert |h[..k]| == 6;
      assert Split(h[k + 1..], ' ') == [parts[1]];
    }
  }

  /** `authenticate`. A missing or empty header, a header that does not
      split into `Bearer` and one more piece, an empty token and a token
      that fails verification are each answered with 401; otherwise the
      decoded payload becomes the caller. */
  function Authenticate(header: Option<string>, verify: string -> Option<Caller>): (r: Outcome)
    ensures r.Halt? ==> r.code == HTTP_UNAUTHORIZED
    ensures header.None? || header.value == "" ==> r == Halt(HTTP_UNAUTHORIZED, MISSING_HEADER)
    ensures r.Next? <==>
      header.Some? && BearerShaped(header.value) && TokenPart(header.value) != ""
      && verify(TokenPart(header.value)).Some?
    ensures r.Next? ==> r.caller == verify(TokenPart(header.value)).value
  {
    if header.None? || header.value == "" then Halt(HTTP_UNAUTHORIZED, MISSING_HEADER)
    else
      var parts := Split(header.value, ' ');
      SplitBearer(header.value);
      if |parts| != 2 || parts[0] != SCHEME then Halt(HTTP_UNAUTHORIZED, MALFORMED_HEADER)
      else
        var token := parts[1];
        if token == "" then Halt(HTTP_UNAUTHORIZED, TOKEN_MISSING)
        else match verify(token)
          case None => Halt(HTTP_UNAUTHORIZED, INVALID_TOKEN)
          case Some(c) => Next(c)
  }

  /** The scheme name is compared case-sensitively, unlike RFC 6750's
      case-insensitive auth-scheme. */
  lemma LowerCaseSchemeRefused(verify: string -> Option<Caller>)
    ensures Authenticate(Some("bearer abc"), verify) == Halt(HTTP_UNAUTHORIZED, MALFORMED_HEADER)
  {
    var h := "bearer abc";
    assert h[..|SCHEME|][0] != SCHEME[0];
    SplitBearer(h);
  }

  /** Two spaces after the scheme make three pieces, so the header is refused. */
  lemma DoubleSpaceRefused(verify: string -> Option<Caller>)
    ensures Authenticate(Some("Bearer  abc"), verify) == Halt(HTTP_UNAUTHORIZED, MALFORMED_HEADER)
  {
    var h := "Bearer  abc";
    assert h[|SCHEME| + 1..][0] == ' ';
    SplitBearer(h);
  }

  /** `Bearer ` with nothing after it reaches the empty-token check. */
  lemma EmptyTokenRefused(verify: string -> Option<Caller>)
    ensures Authenticate(Some("Bearer "), verify) == Halt(HTTP_UNAUTHORIZED, TOKEN_MISSING)
  {
    var h := "Bearer ";
    assert h[..|SCHEME|] == SCHEME && h[|SCHEME|] == ' ' && h[|SCHEME| + 1..] == "";
    SplitBearer(h);
  }

  /** `requireRole(role)`: 401 without a caller, 403 for another role. */
  function RequireRole(user: Option<Caller>, role: Role): (r: Outcome)
    ensures user.None? <==> r == Halt(HTTP_UNAUTHORIZED, MISSING_AUTH)
    ensures r.Next? <==> user.Some? && user.value.role == role
    ensures r.Next? ==> r.caller == user.value
    ensures user.Some? && user.value.role != role ==> r == Halt(HTTP_FORBIDDEN, FORBIDDEN)
  {
    if user.None? then Halt(HTTP_UNAUTHORIZED, MISSING_AUTH)
    else if user.value.role != role then Halt(HTTP_FORBIDDEN, FORBIDDEN)
    else Next(user.value)
  }

  /** `authenticate` followed by `requireRole(role)`, as the admin routes
      mount them. */
  function Guard(header: Option<string>, verify: string -> Option<Caller>, role: Role): (r: Outcome)
    ensures r.Next? <==> Authenticate(header, verify).Next? && Authenticate(header, verify).caller.role == role
    ensures r.Next? ==> r.caller.role == role
  {
    match Authenticate(header, verify)
    case Halt(code, error) => Halt(code, error)
    case Next(c) => RequireRole(Some(c), role)
  }

  /** `POST /verify/:userId`: the admin gate, then `verifyUser`. */
  function VerifyRoute(s: Store, header: Option<string>, verify: string -> Option<Caller>, id: int, mail: bool): (r: Step<string>)
    ensures Guard(header, verify, Role.Admin).Halt? ==> r.store == s && r.reply.Fail?
    ensures Guard(header, verify, Role.Admin).Next? ==> r == Admin.VerifyUser(s, id, mail)
  {
    match Guard(header, verify, Role.Admin)
    case Halt(code, error) => Step(s, Fail(code, error))
    case Next(_) => Admin.VerifyUser(s, id, mail)
  }

  /** A well-formed, valid token whose payload is not an admin's is
      answered 403 and the users table is not touched. */
  lemma NonAdminCannotVerify(s: Store, token: string, verify: string -> Option<Caller>, id: int, mail: bool)
    requires token != "" && ' ' !in token && verify(token).Some? && verify(token).value.role != Role.Admin
    ensures VerifyRoute(s, Some(SCHEME + " " + token), verify, id, mail) == Step(s, Fail(HTTP_FORBIDDEN, FORBIDDEN))
  {
    var h := SCHEME + " " + token;
    assert BearerShaped(h) && TokenPart(h) == token by {
      assert h[..|SCHEME|] == SCHEME;
      assert h[|SCHEME| + 1..] == token;
    }
  }
}

=== FILE: numerals.dfy ===
/**
 The strings Joi's `number()` converts under its default `convert` option:
 a decimal numeral with an optional sign, fraction and exponent, possibly
 surrounded by white space (the pattern
 `^\s*[+-]?(\d+(\.\d*)?|\.\d+)(e[+-]?\d+)?\s*$`, case-insensitive). Any
 other string, the empty one included, is left unconverted and then fails
 the `number.base` rule.
 */
module Numerals {
  import opened Base
  import opened Strings

  predicate AllDigits(s: string) {
    forall i :: 0 <= i < |s| ==> IsDigit(s[i])
  }

  function DigitValue(c: char): (d: nat)
    requires IsDigit(c)
    ensures d < 10
  {
    c as int - '0' as int
  }

  /** The value of a run of decimal digits; no digits is 0. */
  function DigitsValue(s: string): nat
    requires AllDigits(s)
  {
    if s == [] then 0 else DigitsValue(s[..|s| - 1]) * 10 + DigitValue(s[|s| - 1])
  }

  function Pow10(n: nat): (r: nat)
    ensures r >= 1
  {
    if n == 0 then 1 else 10 * Pow10(n - 1)
  }

  /** The position of the first character satisfying `p`, or `|s|`. */
  function FirstAt(s: string, p: char -> bool): (k: nat)
    ensures k <= |s|
    ensures forall i :: 0 <= i < k ==> !p(s[i])
    ensures k < |s| ==> p(s[k])
  {
    if s == [] then 0 else if p(s[0]) then 0 else 1 + FirstAt(s[1..], p)
  }

  predicate IsPoint(c: char) { c == '.' }

  predicate IsExponentMark(c: char) { c == 'e' || c == 'E' }

  /** `[+-]?`: whether the text is negated, and what follows the sign. */
  function SplitSign(s: string): (r: (bool, string))
    ensures |r.1| <= |s|
  {
    if |s| > 0 && (s[0] == '+' || s[0] == '-') then (s[0] == '-', s[1..]) else (false, s)
  }

  /** The value of `whole.frac`. */
  function DecimalValue(whole: string, frac: string): (r: real)
    requires AllDigits(whole) && AllDigits(frac)
    ensures r >= 0.0
  {
    DigitsValue(whole) as real + DigitsValue(frac) as real / Pow10(|frac|) as real
  }

  /** `\d+(\.\d*)?|\.\d+`: digits, a point and more digits, at least one
      digit in all. */
  function Mantissa(s: string): (r: Option<real>)
    ensures r.Some? ==> s != "" && r.value >= 0.0
  {
    var k := FirstAt(s, IsPoint);
    var whole := s[..k];
    var frac := if k < |s| then s[k + 1..] else "";
    if AllDigits(whole) && AllDigits(frac) && |whole| + |frac| > 0 then Some(DecimalValue(whole, frac))
    else None
  }

  /** `[+-]?\d+` after the exponent mark. */
  function Exponent(s: string): Option<int> {
    var (neg, digits) := SplitSign(s);
    if digits != "" && AllDigits(digits) then
      Some(if neg then -(DigitsValue(digits) as int) else DigitsValue(digits))
    else None
  }

  /** `m` times ten to the power `e`. */
  function Scale(m: real, e: int): real {
    if e >= 0 then m * Pow10(e) as real else m / Pow10(-e) as real
  }

  /** The value of a trimmed numeral: sign, mantissa and exponent. */
  function SignedValue(u: string): (r: Option<real>)
    ensures u == "" ==> r.None?
  {
    var (neg, body) := SplitSign(u);
    var k := FirstAt(body, IsExponentMark);
    var m := Mantissa(body[..k]);
    var e := if k < |body| then Exponent(body[k + 1..]) else Some(0);
    if m.Some? && e.Some? then Some(if neg then -Scale(m.value, e.value) else Scale(m.value, e.value))
    else None
  }

  /** The number Joi converts `t` to, or `None` when `t` is no numeral. */
  function NumeralValue(t: string): (r: Option<real>)
    ensures IsBlank(t) ==> r.None?
  {
    BlankIffTrimsEmpty(t);
    SignedValue(Trim(t))
  }

  lemma DigitCharValue(d: nat)
    requires d < 10
    ensures IsDigit(DigitChar(d)) && DigitValue(DigitChar(d)) == d
  {
  }

  /** Reading back a rendered number gives the number. */
  lemma {:induction false} DigitsOfNat(n: nat)
    ensures AllDigits(NatToString(n)) && DigitsValue(NatToString(n)) == n
  {
    var s := NatToString(n);
    if n < 10 {
      DigitCharValue(n);
    } else {
      DigitsOfNat(n / 10);
      DigitCharValue(n % 10);
      assert s[..|s| - 1] == NatToString(n / 10);
    }
  }

  /** Digits, a point and digits read as their value. */
  lemma MantissaOfParts(w: string, f: string)
    requires AllDigits(w) && AllDigits(f) && |w| + |f| > 0
    ensures Mantissa(w + "." + f) == Some(DecimalValue(w, f))
  {
    var s := w + "." + f;
    assert FirstAt(s, IsPoint) == |w| by {
      assert IsPoint(s[|w|]);
      assert forall i :: 0 <= i < |w| ==> s[i] == w[i];
    }
    assert s[..|w|] == w && s[|w| + 1..] == f;
  }

  lemma MantissaOfDigits(w: string)
    requires AllDigits(w) && w != ""
    ensures Mantissa(w) == Some(DigitsValue(w) as real)
  {
    assert FirstAt(w, IsPoint) == |w| by {
      assert forall i :: 0 <= i < |w| ==> !IsPoint(w[i]);
    }
    assert w[..|w|] == w;
    assert DecimalValue(w, "") == DigitsValue(w) as real;
  }

  /** Unsigned text without an exponent is read as a mantissa alone. */
  lemma UnsignedValue(s: string)
    requires s != "" && IsDigit(s[0])
    requires forall i :: 0 <= i < |s| ==> !IsExponentMark(s[i])
    ensures SignedValue(s) == Mantissa(s)
  {
    assert SplitSign(s) == (false, s);
    assert FirstAt(s, IsExponentMark) == |s|;
    assert s[..|s|] == s;
  }

  lemma TrimmedNumeral(s: string)
    requires Trim(s) == s
    ensures NumeralValue(s) == SignedValue(s)
  {
  }

  /** A whole number as a template literal renders it converts back to
      that number. */
  lemma NatNumeral(n: nat)
    ensures NumeralValue(NatToString(n)) == Some(n as real)
  {
    var s := NatToString(n);
    DigitsOfNat(n);
    TrimOfTrimmed(s);
    assert forall i :: 0 <= i < |s| ==> !IsExponentMark(s[i]);
    UnsignedValue(s);
    MantissaOfDigits(s);
  }

  /** Two digit characters read back as the number they render. */
  lemma TwoDigits(b: nat)
    requires b < 100
    ensures var f := [DigitChar(b / 10), DigitChar(b % 10)];
            AllDigits(f) && DigitsValue(f) == b
  {
    var f := [DigitChar(b / 10), DigitChar(b % 10)];
    DigitCharValue(b / 10);
    DigitCharValue(b % 10);
    assert f[..1] == [DigitChar(b / 10)];
    assert [DigitChar(b / 10)][..0] == [];
    assert DigitsValue(f[..1]) == b / 10;
    assert DigitsValue(f) == (b / 10) * 10 + b % 10;
  }

  lemma NoExponentInCents(w: string, f: string)
    requires AllDigits(w) && AllDigits(f)
    ensures forall i :: 0 <= i < |w + "." + f| ==> !IsExponentMark((w + "." + f)[i])
  {
    var s := w + "." + f;
    forall i | 0 <= i < |s| ensures !IsExponentMark(s[i]) {
      if i < |w| { assert s[i] == w[i]; } else if i > |w| { assert s[i] == f[i - |w| - 1]; }
    }
  }

  lemma CentsMantissa(a: nat, b: nat)
    requires b < 100
    ensures Mantissa(NatToString(a) + "." + [DigitChar(b / 10), DigitChar(b % 10)])
            == Some(a as real + b as real / 100.0)
  {
    var w := NatToString(a);
    var f := [DigitChar(b / 10), DigitChar(b % 10)];
    DigitsOfNat(a);
    TwoDigits(b);
    MantissaOfParts(w, f);
    Hundredths(w, f);
  }

  lemma Hundredths(w: string, f: string)
    requires AllDigits(w) && AllDigits(f) && |f| == 2
    ensures DecimalValue(w, f) == DigitsValue(w) as real + DigitsValue(f) as real / 100.0
  {
    assert Pow10(|f|) == 100 by {
      assert Pow10(1) == 10;
    }
  }

  /** A number with two decimals, as a number input with step 0.01 gives
      it (`"8.50"`), converts to its value. */
  lemma CentsNumeral(a: nat, b: nat)
    requires b < 100
    ensures NumeralValue(NatToString(a) + "." + [DigitChar(b / 10), DigitChar(b % 10)])
            == Some(a as real + b as real / 100.0)
  {
    var w := NatToString(a);
    var f := [DigitChar(b / 10), DigitChar(b % 10)];
    var s := w + "." + f;
    assert Trim(s) == s by {
      DigitsOfNat(a);
      TwoDigits(b);
      assert s[0] == w[0] && s[|s| - 1] == f[1];
      TrimOfTrimmed(s);
    }
    assert SignedValue(s) == Mantissa(s) by {
      DigitsOfNat(a);
      TwoDigits(b);
      NoExponentInCents(w, f);
      UnsignedValue(s);
    }
    CentsMantissa(a, b);
    TrimmedNumeral(s);
  }
}

=== FILE: opportunities.dfy ===
/**
 Postings (backend/src/controllers/opportunity.controller.js): an alumnus
 creates an opportunity for an existing company, lists their own postings
 with an application count, and edits them.
 */
module Opportunities {
  import opened Base
  import opened Db

  const COMPANY_NOT_FOUND: string := "Company not found"
  const SERVER_ERROR: string := "Server error"
  const ONLY_ALUMNI_VIEW: string := "Only alumni can view postings"
  const ONLY_ALUMNI_UPDATE: string := "Only alumni can update postings"
  const OPPORTUNITY_NOT_FOUND: string := "Opportunity not found"
  const NOT_AUTHORIZED: string := "Not authorized"

  /** `SELECT company_id FROM companies WHERE name = ?`, compared exactly; a
      missing name binds NULL and matches nothing. */
  function CompanyByName(s: Store, name: Option<string>): (r: Option<Company>)
    ensures r.Some? ==> name.Some? && r.value in s.companies && r.value.name == name.value
    ensures r.None? <==> name.None? || forall i :: 0 <= i < |s.companies| ==> s.companies[i].name != name.value
  {
    if name.None? then None else Find(s.companies, (c: Company) => c.name == name.value)
  }

  /** The fields a new posting takes from the request body. */
  datatype Draft = Draft(title: string, description: string, kind: string, companyName: Option<string>)

  /** `createOpportunity`: 400 for an unknown company, otherwise the posting
      is inserted. The handler makes no role check. Reading the poster's
      alumni profile and the awaited e-mails come after the insert, so a
      poster without an alumni profile, or an undelivered e-mail
      (`mailDelivered` false), turns the reply into a 500 while the posting
      stays. */
  function CreateOpportunity(s: Store, caller: Caller, d: Draft, mailDelivered: bool): (r: Step<()>)
    ensures CompanyByName(s, d.companyName).None? <==> r == Step(s, Fail(HTTP_BAD_REQUEST, COMPANY_NOT_FOUND))
    ensures CompanyByName(s, d.companyName).Some? ==>
      && r.store.(opportunities := s.opportunities, clock := s.clock) == s
      && r.store.clock == s.clock + 1
      && |r.store.opportunities| == |s.opportunities| + 1
      && r.store.opportunities[..|s.opportunities|] == s.opportunities
      && var o := r.store.opportunities[|s.opportunities|];
         && o.id == |s.opportunities| + 1
         && o.alumniId == caller.userId
         && o.companyId == CompanyByName(s, d.companyName).value.id
         && o.title == d.title && o.description == d.description && o.kind == d.kind
         && o.status == DEFAULT_OPPORTUNITY_STATUS
         && o.createdAt == s.clock
    ensures r.reply.Ok? <==>
      CompanyByName(s, d.companyName).Some? && FindUser(s, caller.userId).Some?
      && caller.userId in s.alumniProfiles && mailDelivered
    ensures r.reply.Ok? ==> r.reply.code == HTTP_CREATED
    ensures r.reply.Fail? && r.store != s ==> r.reply == Fail(HTTP_SERVER_ERROR, SERVER_ERROR)
  {
    match CompanyByName(s, d.companyName)
    case None => Step(s, Fail(HTTP_BAD_REQUEST, COMPANY_NOT_FOUND))
    case Some(c) =>
      var o := Opportunity(|s.opportunities| + 1, caller.userId, c.id, d.title, d.description, d.kind,
                           DEFAULT_OPPORTUNITY_STATUS, s.clock);
      var s1 := s.(opportunities := s.opportunities + [o], clock := s.clock + 1);
      assert s1.opportunities[..|s.opportunities|] == s.opportunities;
      if FindUser(s, caller.userId).None? || caller.userId !in s.alumniProfiles then
        Step(s1, Fail(HTTP_SERVER_ERROR, SERVER_ERROR))
      else if !mailDelivered then Step(s1, Fail(HTTP_SERVER_ERROR, SERVER_ERROR))
      else Step(s1, Ok(HTTP_CREATED, ()))
  }

  /** The handler's only gate is the company: a student caller posts too. */
  lemma CreateHasNoRoleCheck(s: Store, caller: Caller, d: Draft, mailDelivered: bool)
    requires caller.role == Student
    requires CompanyByName(s, d.companyName).Some?
    ensures |CreateOpportunity(s, caller, d, mailDelivered).store.opportunities| == |s.opportunities| + 1
  {
  }

  lemma CreateOpportunityKeepsValid(s: Store, caller: Caller, d: Draft, mailDelivered: bool)
    requires Valid(s)
    ensures Valid(CreateOpportunity(s, caller, d, mailDelivered).store)
  {
    var r := CreateOpportunity(s, caller, d, mailDelivered);
    if r.store != s {
      var o := r.store.opportunities[|s.opportunities|];
      assert r.store.opportunities == s.opportunities + [o];
      NumberedAppend(s.opportunities, OpportunityIdOf, o);
      StampedAppend(s.opportunities, OpportunityTime, s.clock, o);
      StampedTick(s.users, UserTime, s.clock);
      StampedTick(s.messages, MessageTime, s.clock);
      StampedTick(s.applications, ApplicationTime, s.clock);
    }
  }

  /** Reference count: applications referencing opportunity `oid`. */
  function ApplicationCount(apps: seq<Application>, oid: int): nat {
    if |apps| == 0 then 0
    else (if apps[0].opportunityId == oid then 1 else 0) + ApplicationCount(apps[1..], oid)
  }

  lemma {:induction false} ApplicationCountAppend(apps: seq<Application>, a: Application, oid: int)
    ensures ApplicationCount(apps + [a], oid) == ApplicationCount(apps, oid) + (if a.opportunityId == oid then 1 else 0)
    decreases |apps|
  {
    if |apps| > 0 {
      assert (apps + [a])[1..] == apps[1..] + [a];
      ApplicationCountAppend(apps[1..], a, oid);
    }
  }

  /** One row of `getMyPostings`. */
  datatype Posting = Posting(opportunity: Opportunity, companyName: Option<string>, applicationCount: nat)

  function PostingOf(s: Store, o: Opportunity): Posting {
    Posting(o, CompanyName(s, o.companyId), ApplicationCount(s.applications, o.id))
  }

  function PostingTime(p: Posting): int { p.opportunity.createdAt }

  /** `getMyPostings`: 403 for non-alumni; otherwise the caller's postings,
      newest first, each with its company name and number of applications. */
  function GetMyPostings(s: Store, caller: Caller): (r: Reply<seq<Posting>>)
    ensures caller.role != Alumni <==> r == Fail(HTTP_FORBIDDEN, ONLY_ALUMNI_VIEW)
    ensures r.Ok? ==> r.code == HTTP_OK
    ensures r.Ok? ==> forall k :: 0 <= k < |r.value| ==>
      && r.value[k].opportunity in s.opportunities
      && r.value[k].opportunity.alumniId == caller.userId
      && r.value[k] == PostingOf(s, r.value[k].opportunity)
    ensures r.Ok? ==> forall o :: o in s.opportunities && o.alumniId == caller.userId ==> PostingOf(s, o) in r.value
  {
    if caller.role != Alumni then Fail(HTTP_FORBIDDEN, ONLY_ALUMNI_VIEW)
    else
      var mine := Reverse(Filter(s.opportunities, (o: Opportunity) => o.alumniId == caller.userId));
      var rows := seq(|mine|, i requires 0 <= i < |mine| => PostingOf(s, mine[i]));
      assert forall o :: o in mine ==> PostingOf(s, o) in rows by {
        forall o | o in mine ensures PostingOf(s, o) in rows {
          var i :| 0 <= i < |mine| && mine[i] == o;
          assert rows[i] == PostingOf(s, o);
        }
      }
      Ok(HTTP_OK, rows)
  }

  /** Postings come back newest first. */
  lemma GetMyPostingsNewestFirst(s: Store, caller: Caller)
    requires Valid(s) && caller.role == Alumni
    ensures DecreasingBy(GetMyPostings(s, caller).value, PostingTime)
  {
    var mine := Reverse(Filter(s.opportunities, (o: Opportunity) => o.alumniId == caller.userId));
    var rows := GetMyPostings(s, caller).value;
    NewestFirst(s.opportunities, (o: Opportunity) => o.alumniId == caller.userId, OpportunityTime);
    forall i, j | 0 <= i < j < |rows| ensures PostingTime(rows[i]) > PostingTime(rows[j]) {
      assert OpportunityTime(mine[i]) > OpportunityTime(mine[j]);
    }
  }

  /** The new field values of `updateOpportunity`. */
  datatype Edit = Edit(title: string, description: string, kind: string, status: string)

  /** `UPDATE opportunities SET title, description, type, status WHERE opportunity_id = id`. */
  function ApplyEdit(os: seq<Opportunity>, id: int, e: Edit): (r: seq<Opportunity>)
    ensures |r| == |os|
    ensures forall i :: 0 <= i < |os| ==>
      r[i] == (if os[i].id == id then os[i].(title := e.title, description := e.description, kind := e.kind, status := e.status) else os[i])
  {
    seq(|os|, i requires 0 <= i < |os| =>
      if os[i].id == id then os[i].(title := e.title, description := e.description, kind := e.kind, status := e.status) else os[i])
  }

  /** `updateOpportunity`: 403 for non-alumni, 404 for an unknown id, 403 for
      somebody else's posting; otherwise the four editable fields are
      overwritten. The new status is not checked against any list. */
  function UpdateOpportunity(s: Store, caller: Caller, id: int, e: Edit): (r: Step<()>)
    ensures r.reply.Fail? ==> r.store == s
    ensures caller.role != Alumni ==> r.reply == Fail(HTTP_FORBIDDEN, ONLY_ALUMNI_UPDATE)
    ensures caller.role == Alumni && FindOpportunity(s, id).None? ==> r.reply == Fail(HTTP_NOT_FOUND, OPPORTUNITY_NOT_FOUND)
    ensures caller.role == Alumni && FindOpportunity(s, id).Some? && FindOpportunity(s, id).value.alumniId != caller.userId ==>
              r.reply == Fail(HTTP_FORBIDDEN, NOT_AUTHORIZED)
    ensures r.reply.Ok? <==>
      caller.role == Alumni && FindOpportunity(s, id).Some? && FindOpportunity(s, id).value.alumniId == caller.userId
    ensures r.reply.Ok? ==>
      && r.reply.code == HTTP_OK
      && r.store.(opportunities := s.opportunities) == s
      && |r.store.opportunities| == |s.opportunities|
      && forall i :: 0 <= i < |s.opportunities| ==>
           var before, after := s.opportunities[i], r.store.opportunities[i];
           && after.id == before.id && after.alumniId == before.alumniId
           && after.companyId == before.companyId && after.createdAt == before.createdAt
           && (before.id == id ==> after.title == e.title && after.description == e.description
                                   && after.kind == e.kind && after.status == e.status)
           && (before.id != id ==> after == before)
  {
    if caller.role != Alumni then Step(s, Fail(HTTP_FORBIDDEN, ONLY_ALUMNI_UPDATE))
    else match FindOpportunity(s, id)
      case None => Step(s, Fail(HTTP_NOT_FOUND, OPPORTUNITY_NOT_FOUND))
      case Some(o) =>
        if o.alumniId != caller.userId then Step(s, Fail(HTTP_FORBIDDEN, NOT_AUTHORIZED))
        else Step(s.(opportunities := ApplyEdit(s.opportunities, id, e)), Ok(HTTP_OK, ()))
  }

  lemma UpdateOpportunityKeepsValid(s: Store, caller: Caller, id: int, e: Edit)
    requires Valid(s)
    ensures Valid(UpdateOpportunity(s, caller, id, e).store)
  {
    var s1 := UpdateOpportunity(s, caller, id, e).store;
    assert Numbered(s1.opportunities, OpportunityIdOf) by {
      forall i | 0 <= i < |s1.opportunities| ensures OpportunityIdOf(s1.opportunities[i]) == i + 1 {
        assert OpportunityIdOf(s.opportunities[i]) == i + 1;
      }
    }
    assert Stamped(s1.opportunities, OpportunityTime, s1.clock) by {
      forall i, j | 0 <= i < j < |s1.opportunities|
        ensures OpportunityTime(s1.opportunities[i]) < OpportunityTime(s1.opportunities[j])
      {
        assert OpportunityTime(s.opportunities[i]) < OpportunityTime(s.opportunities[j]);
      }
      forall i | 0 <= i < |s1.opportunities| ensures OpportunityTime(s1.opportunities[i]) < s1.clock {
        assert OpportunityTime(s.opportunities[i]) < s.clock;
      }
    }
  }
}

=== FILE: profiles.dfy ===
/**
 Profile reading and editing (backend/src/controllers/profile.controller.js).

 The store keeps the JSON list columns already decoded; `SafeJsonParse` is
 modelled on its own over a cell as the MySQL driver hands it over, with
 `JSON.parse` a parameter.
 */
module Profiles {
  import opened Base
  import opened Strings
  import opened Db
  import Auth

  const USER_NOT_FOUND: string := "User not found"
  const ALUMNI_NOT_VERIFIED: string := "Alumni profile not verified"
  const STUDENT_PROFILE_NOT_FOUND: string := "Student profile not found"
  const ALUMNI_PROFILE_NOT_FOUND: string := "Alumni profile not found"
  const ADMIN_NAME: string := "Administrator"
  const STUDENT_UPDATED: string := "Student profile updated successfully"
  const ALUMNI_UPDATED: string := "Alumni profile updated successfully"
  const UPDATE_FAILED: string := "Failed to update profile"

  // ---------------------------------------------------------------------
  // safeJsonParse

  datatype Json =
    | JNull
    | JBool(b: bool)
    | JNumber(n: real)
    | JString(s: string)
    | JArray(items: seq<Json>)
    | JObject(fields: seq<(string, Json)>)

  /** JavaScript truthiness of a decoded value. */
  predicate Truthy(v: Json) {
    !(v.JNull? || v == JBool(false) || v == JNumber(0.0) || v == JString(""))
  }

  /** A column value as the driver returns it: NULL, text, or a value it
      already decoded. */
  datatype Cell = SqlNull | Text(text: string) | Decoded(value: Json)

  /** `safeJsonParse(cell, fallback)`. Falsy input gives the fallback; an
      already-decoded array or object is returned as it is; text is parsed
      and kept only if it is an array. A decoded string is text; a decoded
      true or non-zero number parses to itself, which is not an array. */
  function SafeJsonParse(cell: Cell, parse: string -> Option<Json>, fallback: Json): (r: Json)
    ensures cell.SqlNull? || cell == Text("") ==> r == fallback
    ensures cell.Decoded? && (cell.value.JArray? || cell.value.JObject?) ==> r == cell.value
    ensures cell.Text? && cell.text != "" ==>
      r == (if parse(cell.text).Some? && parse(cell.text).value.JArray? then parse(cell.text).value else fallback)
    ensures r == fallback || r.JArray? || (cell.Decoded? && r == cell.value && r.JObject?)
  {
    match cell
    case SqlNull => fallback
    case Text(t) => ParseText(t, parse, fallback)
    case Decoded(v) =>
      if !Truthy(v) then fallback
      else if v.JArray? || v.JObject? then v
      else if v.JString? then ParseText(v.s, parse, fallback)
      else fallback
  }

  /** The text branch: `JSON.parse`, keeping only an array. */
  function ParseText(t: string, parse: string -> Option<Json>, fallback: Json): Json {
    if t == "" then fallback
    else if parse(t).Some? && parse(t).value.JArray? then parse(t).value
    else fallback
  }

  /** A list written with `JSON.stringify` reads back as the same list,
      given that parsing inverts stringifying. */
  lemma StoredListReadsBack(xs: seq<Json>, stringify: Json -> string, parse: string -> Option<Json>, fallback: Json)
    requires parse(stringify(JArray(xs))) == Some(JArray(xs)) && stringify(JArray(xs)) != ""
    ensures SafeJsonParse(Text(stringify(JArray(xs))), parse, fallback) == JArray(xs)
  {
  }

  /** Text that does not parse, or parses to something other than an array,
      gives the fallback. */
  lemma NonArrayTextFallsBack(t: string, parse: string -> Option<Json>, fallback: Json)
    requires parse(t).None? || !parse(t).value.JArray?
    ensures SafeJsonParse(Text(t), parse, fallback) == fallback
  {
  }

  // ---------------------------------------------------------------------
  // getUserProfile

  datatype ProfileView =
    | StudentView(user: User, student: StudentProfile)
    | AlumniView(user: User, alumni: AlumniProfile, companyName: Option<string>)
    | AdminView(user: User, name: string, role: Role)

  /** `getUserProfile`: 404 for an unknown user, 403 for an unverified
      alumnus, 404 for a student or alumnus without a profile row; an admin
      is shown as `Administrator`. */
  function GetUserProfile(s: Store, id: int): (r: Reply<ProfileView>)
    ensures FindUser(s, id).None? ==> r == Fail(HTTP_NOT_FOUND, USER_NOT_FOUND)
    ensures r.Ok? <==>
      && FindUser(s, id).Some?
      && var u := FindUser(s, id).value;
      && !(u.role == Alumni && !u.verified)
      && (u.role == Student ==> id in s.studentProfiles)
      && (u.role == Alumni ==> id in s.alumniProfiles)
    ensures r.Fail? && r.code == HTTP_FORBIDDEN <==>
      FindUser(s, id).Some? && FindUser(s, id).value.role == Alumni && !FindUser(s, id).value.verified
    ensures r.Ok? ==>
      && r.code == HTTP_OK && r.value.user == FindUser(s, id).value
      && (r.value.StudentView? <==> r.value.user.role == Student)
      && (r.value.AlumniView? <==> r.value.user.role == Alumni)
      && (r.value.StudentView? ==> r.value.student == s.studentProfiles[id])
      && (r.value.AlumniView? ==> r.value.alumni == s.alumniProfiles[id])
      && (r.value.AdminView? ==> r.value.name == ADMIN_NAME && r.value.role == Role.Admin)
    ensures FindUser(s, id).Some? && FindUser(s, id).value.role == Student && id !in s.studentProfiles ==>
      r == Fail(HTTP_NOT_FOUND, STUDENT_PROFILE_NOT_FOUND)
    ensures FindUser(s, id).Some? && FindUser(s, id).value.role == Alumni && FindUser(s, id).value.verified
            && id !in s.alumniProfiles ==>
      r == Fail(HTTP_NOT_FOUND, ALUMNI_PROFILE_NOT_FOUND)
    // the LEFT JOIN: the name of the company row the profile points at,
    // NULL when it points nowhere or at no row
    ensures r.Ok? && r.value.AlumniView? ==>
      && var p := s.alumniProfiles[id];
      && r.value.companyName == (if p.companyId.Some? then CompanyName(s, p.companyId.value) else None)
      && (r.value.companyName.Some? <==>
            p.companyId.Some? && exists i :: 0 <= i < |s.companies| && s.companies[i].id == p.companyId.value)
  {
    match FindUser(s, id)
    case None => Fail(HTTP_NOT_FOUND, USER_NOT_FOUND)
    case Some(u) =>
      if u.role == Alumni && !u.verified then Fail(HTTP_FORBIDDEN, ALUMNI_NOT_VERIFIED)
      else match u.role
        case Student =>
          if id in s.studentProfiles then Ok(HTTP_OK, StudentView(u, s.studentProfiles[id]))
          else Fail(HTTP_NOT_FOUND, STUDENT_PROFILE_NOT_FOUND)
        case Alumni =>
          if id in s.alumniProfiles then
            var p := s.alumniProfiles[id];
            Ok(HTTP_OK, AlumniView(u, p, if p.companyId.Some? then CompanyName(s, p.companyId.value) else None))
          else Fail(HTTP_NOT_FOUND, ALUMNI_PROFILE_NOT_FOUND)
        case Admin => Ok(HTTP_OK, AdminView(u, ADMIN_NAME, Role.Admin))
  }

  /** An alumnus's profile becomes visible exactly when verified (given the
      profile row), and disappears again when revoked. */
  lemma AlumniProfileVisibility(s: Store, i: int)
    requires Valid(s) && 0 <= i < |s.users| && s.users[i].role == Alumni && s.users[i].id in s.alumniProfiles
    ensures GetUserProfile(s, s.users[i].id).Ok? <==> s.users[i].verified
  {
    assert UserIdOf(s.users[i]) == i + 1;
    var u := FindUser(s, i + 1).value;
    var j :| 0 <= j < |s.users| && s.users[j] == u;
    assert UserIdOf(s.users[j]) == j + 1;
  }

  // ---------------------------------------------------------------------
  // updateStudentProfile

  /** The request body of a student profile update; `None` is a field the
      body leaves out or sends as null. Fields are written as given, so an
      omitted one becomes NULL; only the three lists default to `[]`. */
  datatype StudentEdit = StudentEdit(
    name: Option<string>,
    phone: Option<string>,
    graduationYear: Option<int>,
    major: Option<string>,
    cgpa: Option<real>,
    bio: Option<string>,
    githubUrl: Option<string>,
    linkedinUrl: Option<string>,
    portfolioUrl: Option<string>,
    skills: Option<seq<string>>,
    certifications: Option<seq<string>>,
    projects: Option<seq<string>>)

  /** `list || []`. */
  function OrNone(xs: Option<seq<string>>): (r: seq<string>)
    ensures xs.Some? ==> r == xs.value
    ensures xs.None? ==> r == []
  {
    if xs.Some? then xs.value else []
  }

  /** The NOT NULL columns `name` and `graduation_year` are both given. */
  predicate RequiredGiven(name: Option<string>, graduationYear: Option<int>) {
    name.Some? && graduationYear.Some?
  }

  function EditedStudent(e: StudentEdit): StudentProfile
    requires RequiredGiven(e.name, e.graduationYear)
  {
    StudentProfile(e.name.value, e.phone, e.graduationYear.value, e.major, e.cgpa, e.bio,
                   e.githubUrl, e.linkedinUrl, e.portfolioUrl,
                   OrNone(e.skills), OrNone(e.certifications), OrNone(e.projects))
  }

  /** `updateStudentProfile`: 404 and no write without a profile row for the
      caller; a NULL for a NOT NULL column makes the `UPDATE` fail (500, no
      write); otherwise only the caller's row is replaced. */
  function UpdateStudentProfile(s: Store, caller: Caller, e: StudentEdit): (r: Step<string>)
    ensures caller.userId !in s.studentProfiles <==> r == Step(s, Fail(HTTP_NOT_FOUND, STUDENT_PROFILE_NOT_FOUND))
    ensures caller.userId in s.studentProfiles && !RequiredGiven(e.name, e.graduationYear) ==>
      r == Step(s, Fail(HTTP_SERVER_ERROR, UPDATE_FAILED))
    ensures r.reply.Ok? <==> caller.userId in s.studentProfiles && RequiredGiven(e.name, e.graduationYear)
    ensures r.reply.Ok? ==>
      && r.reply == Ok(HTTP_OK, STUDENT_UPDATED)
      && r.store.(studentProfiles := s.studentProfiles) == s
      && r.store.studentProfiles.Keys == s.studentProfiles.Keys
      && r.store.studentProfiles[caller.userId] == EditedStudent(e)
      && forall k :: k in s.studentProfiles && k != caller.userId ==> r.store.studentProfiles[k] == s.studentProfiles[k]
  {
    if caller.userId !in s.studentProfiles then Step(s, Fail(HTTP_NOT_FOUND, STUDENT_PROFILE_NOT_FOUND))
    else if !RequiredGiven(e.name, e.graduationYear) then Step(s, Fail(HTTP_SERVER_ERROR, UPDATE_FAILED))
    else Step(s.(studentProfiles := s.studentProfiles[caller.userId := EditedStudent(e)]), Ok(HTTP_OK, STUDENT_UPDATED))
  }

  // ---------------------------------------------------------------------
  // updateAlumniProfile

  /** The request body of an alumni profile update, read like
      `StudentEdit`. */
  datatype AlumniEdit = AlumniEdit(
    name: Option<string>,
    phone: Option<string>,
    companyName: Option<string>,
    position: Option<string>,
    graduationYear: Option<int>,
    bio: Option<string>,
    linkedinUrl: Option<string>,
    githubUrl: Option<string>,
    experience: Option<seq<Experience>>,
    education: Option<seq<Education>>,
    certifications: Option<seq<string>>,
    skills: Option<seq<string>>)

  /** The company step of `updateAlumniProfile`: without a (non-empty) name
      the company is cleared; otherwise the name, untrimmed, is matched
      case-insensitively or inserted as given. */
  function ResolveCompany(cs: seq<Company>, name: Option<string>): (r: Auth.CompanyPick)
    ensures name.None? || name.value == "" ==> r == Auth.CompanyPick(cs, None)
    ensures name.Some? && name.value != "" && Auth.FindCompany(cs, Lower(name.value)).Some? ==>
      r == Auth.CompanyPick(cs, Some(Auth.FindCompany(cs, Lower(name.value)).value.id))
    ensures name.Some? && name.value != "" && Auth.FindCompany(cs, Lower(name.value)).None? ==>
      r == Auth.CompanyPick(cs + [Company(|cs| + 1, name.value)], Some(|cs| + 1))
  {
    if name.None? || name.value == "" then Auth.CompanyPick(cs, None)
    else match Auth.FindCompany(cs, Lower(name.value))
      case Some(c) => Auth.CompanyPick(cs, Some(c.id))
      case None => Auth.CompanyPick(cs + [Company(|cs| + 1, name.value)], Some(|cs| + 1))
  }

  function EditedAlumni(e: AlumniEdit, companyId: Option<int>): AlumniProfile
    requires RequiredGiven(e.name, e.graduationYear)
  {
    AlumniProfile(e.name.value, e.phone, companyId, e.position, e.graduationYear.value, e.bio,
                  e.linkedinUrl, e.githubUrl,
                  if e.experience.Some? then e.experience.value else [],
                  if e.education.Some? then e.education.value else [],
                  OrNone(e.certifications), OrNone(e.skills))
  }

  /** `updateAlumniProfile`: 404 and no write without a profile row for the
      caller; otherwise the company is resolved and the row replaced, in one
      transaction, so a failing `UPDATE` (a NULL name or year) rolls back
      an inserted company too. */
  function UpdateAlumniProfile(s: Store, caller: Caller, e: AlumniEdit): (r: Step<string>)
    ensures caller.userId !in s.alumniProfiles <==> r == Step(s, Fail(HTTP_NOT_FOUND, ALUMNI_PROFILE_NOT_FOUND))
    ensures caller.userId in s.alumniProfiles && !RequiredGiven(e.name, e.graduationYear) ==>
      r == Step(s, Fail(HTTP_SERVER_ERROR, UPDATE_FAILED))
    ensures r.reply.Ok? <==> caller.userId in s.alumniProfiles && RequiredGiven(e.name, e.graduationYear)
    ensures r.reply.Ok? ==>
      var pick := ResolveCompany(s.companies, e.companyName);
      && r.reply == Ok(HTTP_OK, ALUMNI_UPDATED)
      && r.store.(companies := s.companies, alumniProfiles := s.alumniProfiles) == s
      && r.store.companies == pick.companies
      && r.store.alumniProfiles.Keys == s.alumniProfiles.Keys
      && r.store.alumniProfiles[caller.userId] == EditedAlumni(e, pick.id)
      && forall k :: k in s.alumniProfiles && k != caller.userId ==> r.store.alumniProfiles[k] == s.alumniProfiles[k]
  {
    if caller.userId !in s.alumniProfiles then Step(s, Fail(HTTP_NOT_FOUND, ALUMNI_PROFILE_NOT_FOUND))
    else if !RequiredGiven(e.name, e.graduationYear) then Step(s, Fail(HTTP_SERVER_ERROR, UPDATE_FAILED))
    else
      var pick := ResolveCompany(s.companies, e.companyName);
      Step(s.(companies := pick.companies,
              alumniProfiles := s.alumniProfiles[caller.userId := EditedAlumni(e, pick.id)]),
           Ok(HTTP_OK, ALUMNI_UPDATED))
  }

  /** Unlike registration, a profile edit does not trim the company name:
      with `n` on file, `" " + n` from an edit makes a second company,
      where registration would have reused the first. */
  lemma EditDoesNotTrimCompany(n: string)
    requires n != "" && !IsSpace(n[0]) && !IsSpace(n[|n| - 1])
    ensures var cs := [Company(1, n)];
            && Auth.GetOrCreateCompany(cs, Some(" " + n)) == Auth.CompanyPick(cs, Some(1))
            && ResolveCompany(cs, Some(" " + n)) == Auth.CompanyPick(cs + [Company(2, " " + n)], Some(2))
  {
    RegistrationTrimsCompany(n);
    EditKeepsSpacedCompany(n);
  }

  lemma RegistrationTrimsCompany(n: string)
    requires n != "" && !IsSpace(n[0]) && !IsSpace(n[|n| - 1])
    ensures Auth.GetOrCreateCompany([Company(1, n)], Some(" " + n)) == Auth.CompanyPick([Company(1, n)], Some(1))
  {
    var cs := [Company(1, n)];
    TrimAfterSpace(n);
    var key := Auth.CompanyKey(" " + n);
    assert key == Lower(n);
    assert Auth.FindCompany(cs, key) == Some(cs[0]);
  }

  lemma EditKeepsSpacedCompany(n: string)
    ensures var cs := [Company(1, n)];
            ResolveCompany(cs, Some(" " + n)) == Auth.CompanyPick(cs + [Company(2, " " + n)], Some(2))
  {
    var cs := [Company(1, n)];
    assert |Lower(" " + n)| != |Lower(cs[0].name)|;
    assert Auth.FindCompany(cs, Lower(" " + n)) == None;
  }

  /** Resolving the same name twice gives the same id and adds at most the
      first row. */
  lemma ResolveCompanyIdempotent(cs: seq<Company>, name: string)
    ensures var p := ResolveCompany(cs, Some(name));
            ResolveCompany(p.companies, Some(name)) == p
  {
    if name != "" && Auth.FindCompany(cs, Lower(name)).None? {
      Auth.FindCompanyAppend(cs, Company(|cs| + 1, name), Lower(name));
    }
  }

  /** Registration never leaves the bio NULL, but an edit that omits it
      writes NULL over it, where the other text columns keep what the edit
      sent. */
  lemma OmittedBioBecomesNull(s: Store, f: Auth.StudentForm, hash: string, e: StudentEdit)
    requires Auth.RegisterStudent(s, f, hash).reply.Ok?
    requires RequiredGiven(e.name, e.graduationYear) && e.bio.None?
    ensures var id := |s.users| + 1;
            var s1 := Auth.RegisterStudent(s, f, hash).store;
            var s2 := UpdateStudentProfile(s1, Caller(id, Student, true), e).store;
            && s1.studentProfiles[id].bio.Some?
            && s2.studentProfiles[id].bio.None?
            && s2.studentProfiles[id].githubUrl == e.githubUrl
            && s2.studentProfiles[id].name == e.name.value
  {
    Auth.RegisteredStudentColumns(s, f, hash);
  }

  lemma UpdateProfilesKeepValid(s: Store, caller: Caller, se: StudentEdit, ae: AlumniEdit)
    requires Valid(s)
    ensures Valid(UpdateStudentProfile(s, caller, se).store)
    ensures Valid(UpdateAlumniProfile(s, caller, ae).store)
  {
    Auth.GetOrCreateCompanyKeepsNumbered(s.companies, None);
    var pick := ResolveCompany(s.companies, ae.companyName);
    assert Numbered(pick.companies, CompanyIdOf);
  }
}

=== FILE: review.dfy ===
/**
 The alumni side of applications
 (backend/src/controllers/application.controller.js): a poster lists the
 applicants of a posting they own, moves an application between the three
 statuses, and lists the accepted students.
 */
module Review {
  import opened Base
  import opened Db

  const ONLY_ALUMNI_VIEW: string := "Only alumni can view applications"
  const ONLY_ALUMNI_UPDATE: string := "Only alumni can update applications"
  const ONLY_ALUMNI_ACCEPTED: string := "Only alumni can view accepted students"
  const OPPORTUNITY_NOT_FOUND: string := "Opportunity not found"
  const APPLICATION_NOT_FOUND: string := "Application not found"
  const NOT_AUTHORIZED: string := "Not authorized"
  const INVALID_STATUS: string := "Invalid status"
  const FAILED_TO_UPDATE: string := "Failed to update application"

  /** The stored spelling of a status. */
  function StatusName(t: AppStatus): string {
    match t
    case AppPending => "pending"
    case AppAccepted => "accepted"
    case AppRejected => "rejected"
  }

  /** `['pending', 'accepted', 'rejected'].includes(status)`, as a parse. */
  function ParseStatus(x: string): (r: Option<AppStatus>)
    ensures r.Some? ==> StatusName(r.value) == x
  {
    if x == "pending" then Some(AppPending)
    else if x == "accepted" then Some(AppAccepted)
    else if x == "rejected" then Some(AppRejected)
    else None
  }

  /** Every status spelling parses back to itself, so the accepted strings
      are exactly the three names. */
  lemma ParseStatusName(t: AppStatus)
    ensures ParseStatus(StatusName(t)) == Some(t)
  {
  }

  /** The shared gate: the caller must be an alumnus who owns posting `oid`. */
  function OwnedPosting(s: Store, caller: Caller, oid: int, roleError: string): (r: Reply<Opportunity>)
    ensures caller.role != Alumni ==> r == Fail(HTTP_FORBIDDEN, roleError)
    ensures caller.role == Alumni && FindOpportunity(s, oid).None? <==> r == Fail(HTTP_NOT_FOUND, OPPORTUNITY_NOT_FOUND)
    ensures caller.role == Alumni && FindOpportunity(s, oid).Some? && FindOpportunity(s, oid).value.alumniId != caller.userId ==>
              r == Fail(HTTP_FORBIDDEN, NOT_AUTHORIZED)
    ensures r.Ok? <==> caller.role == Alumni && FindOpportunity(s, oid).Some?
                       && FindOpportunity(s, oid).value.alumniId == caller.userId
    ensures r.Ok? ==> r.value == FindOpportunity(s, oid).value && r.value.id == oid
  {
    if caller.role != Alumni then Fail(HTTP_FORBIDDEN, roleError)
    else match FindOpportunity(s, oid)
      case None => Fail(HTTP_NOT_FOUND, OPPORTUNITY_NOT_FOUND)
      case Some(o) => if o.alumniId != caller.userId then Fail(HTTP_FORBIDDEN, NOT_AUTHORIZED) else Ok(HTTP_OK, o)
  }

  /** One applicant row: the application, the student's profile and email. */
  datatype Applicant = Applicant(application: Application, profile: StudentProfile, email: string)

  /** The student has a profile and a user row (the handlers' inner joins). */
  predicate HasStudentRows(s: Store, student: int) {
    student in s.studentProfiles && FindUser(s, student).Some?
  }

  function ApplicantOf(s: Store, a: Application): Applicant
    requires HasStudentRows(s, a.studentId)
  {
    Applicant(a, s.studentProfiles[a.studentId], FindUser(s, a.studentId).value.email)
  }

  function ApplicantTime(x: Applicant): int { x.application.appliedAt }

  /** The applications to posting `oid` shown to its owner; with
      `acceptedOnly`, those with status accepted. */
  predicate Shown(s: Store, a: Application, oid: int, acceptedOnly: bool) {
    a.opportunityId == oid && HasStudentRows(s, a.studentId) && (acceptedOnly ==> a.status == AppAccepted)
  }

  /** The applicant rows, newest application first. */
  function Applicants(s: Store, oid: int, acceptedOnly: bool): (r: seq<Applicant>)
    ensures forall k :: 0 <= k < |r| ==>
      r[k].application in s.applications && Shown(s, r[k].application, oid, acceptedOnly)
      && r[k] == ApplicantOf(s, r[k].application)
    ensures forall a :: a in s.applications && Shown(s, a, oid, acceptedOnly) ==> ApplicantOf(s, a) in r
  {
    var apps := Reverse(Filter(s.applications, (a: Application) => Shown(s, a, oid, acceptedOnly)));
    var rows := seq(|apps|, i requires 0 <= i < |apps| => ApplicantOf(s, apps[i]));
    assert forall a :: a in apps ==> ApplicantOf(s, a) in rows by {
      forall a | a in apps ensures ApplicantOf(s, a) in rows {
        var i :| 0 <= i < |apps| && apps[i] == a;
        assert rows[i] == ApplicantOf(s, a);
      }
    }
    rows
  }

  lemma ApplicantsNewestFirst(s: Store, oid: int, acceptedOnly: bool)
    requires Valid(s)
    ensures DecreasingBy(Applicants(s, oid, acceptedOnly), ApplicantTime)
  {
    var apps := Reverse(Filter(s.applications, (a: Application) => Shown(s, a, oid, acceptedOnly)));
    var rows := Applicants(s, oid, acceptedOnly);
    NewestFirst(s.applications, (a: Application) => Shown(s, a, oid, acceptedOnly), ApplicationTime);
    forall i, j | 0 <= i < j < |rows| ensures ApplicantTime(rows[i]) > ApplicantTime(rows[j]) {
      assert ApplicationTime(apps[i]) > ApplicationTime(apps[j]);
    }
  }

  /** `getApplicationsForOpportunity`: after the owner gate, every applicant
      to the posting. */
  function GetApplicationsForOpportunity(s: Store, caller: Caller, oid: int): (r: Reply<seq<Applicant>>)
    ensures r.Fail? <==> OwnedPosting(s, caller, oid, ONLY_ALUMNI_VIEW).Fail?
    ensures r.Fail? ==> (r.code == OwnedPosting(s, caller, oid, ONLY_ALUMNI_VIEW).code
                         && r.error == OwnedPosting(s, caller, oid, ONLY_ALUMNI_VIEW).error)
    ensures r.Ok? ==> r == Ok(HTTP_OK, Applicants(s, oid, false))
  {
    match OwnedPosting(s, caller, oid, ONLY_ALUMNI_VIEW)
    case Fail(code, e) => Fail(code, e)
    case Ok(_, _) => Ok(HTTP_OK, Applicants(s, oid, false))
  }

  /** The body of `getAcceptedStudents`. */
  datatype AcceptedList = AcceptedList(opportunityTitle: string, students: seq<Applicant>)

  /** `getAcceptedStudents`: after the owner gate, the posting's title and
      its accepted applicants. */
  function GetAcceptedStudents(s: Store, caller: Caller, oid: int): (r: Reply<AcceptedList>)
    ensures r.Fail? <==> OwnedPosting(s, caller, oid, ONLY_ALUMNI_ACCEPTED).Fail?
    ensures r.Fail? ==> (r.code == OwnedPosting(s, caller, oid, ONLY_ALUMNI_ACCEPTED).code
                         && r.error == OwnedPosting(s, caller, oid, ONLY_ALUMNI_ACCEPTED).error)
    ensures r.Ok? ==> r.code == HTTP_OK && r.value.opportunityTitle == FindOpportunity(s, oid).value.title
    ensures r.Ok? ==> forall k :: 0 <= k < |r.value.students| ==>
      r.value.students[k].application.status == AppAccepted
      && r.value.students[k].application.opportunityId == oid
  {
    match OwnedPosting(s, caller, oid, ONLY_ALUMNI_ACCEPTED)
    case Fail(code, e) => Fail(code, e)
    case Ok(_, o) => Ok(HTTP_OK, AcceptedList(o.title, Applicants(s, oid, true)))
  }

  /** An alumnus asking about somebody else's posting learns only that it is
      not theirs: both listings reply 403 "Not authorized". */
  lemma NonOwnerRefused(s: Store, caller: Caller, oid: int)
    requires caller.role == Alumni && FindOpportunity(s, oid).Some?
    requires FindOpportunity(s, oid).value.alumniId != caller.userId
    ensures GetApplicationsForOpportunity(s, caller, oid) == Fail(HTTP_FORBIDDEN, NOT_AUTHORIZED)
    ensures GetAcceptedStudents(s, caller, oid) == Fail(HTTP_FORBIDDEN, NOT_AUTHORIZED)
  {
  }

  /** The accepted list is exactly the accepted part of the applicant list. */
  lemma AcceptedAreAcceptedApplicants(s: Store, caller: Caller, oid: int)
    requires OwnedPosting(s, caller, oid, ONLY_ALUMNI_ACCEPTED).Ok?
    ensures forall x :: x in GetAcceptedStudents(s, caller, oid).value.students <==>
      x in GetApplicationsForOpportunity(s, caller, oid).value && x.application.status == AppAccepted
  {
    var acc := GetAcceptedStudents(s, caller, oid).value.students;
    var all := GetApplicationsForOpportunity(s, caller, oid).value;
    forall x ensures x in acc <==> x in all && x.application.status == AppAccepted {
      if x in acc {
        var k :| 0 <= k < |acc| && acc[k] == x;
        assert ApplicantOf(s, x.application) in all;
      }
      if x in all && x.application.status == AppAccepted {
        var k :| 0 <= k < |all| && all[k] == x;
        assert ApplicantOf(s, x.application) in acc;
      }
    }
  }

  /** The application `id` joined with its posting (`appCheck[0]`). */
  function FindReviewable(s: Store, id: int): (r: Option<Application>)
    ensures r.Some? ==> r.value in s.applications && r.value.id == id && FindOpportunity(s, r.value.opportunityId).Some?
    ensures r.None? <==> forall i :: 0 <= i < |s.applications| ==>
      s.applications[i].id != id || FindOpportunity(s, s.applications[i].opportunityId).None?
  {
    Find(s.applications, (a: Application) => a.id == id && FindOpportunity(s, a.opportunityId).Some?)
  }

  /** The poster of the application's posting. */
  function PosterOf(s: Store, a: Application): int
    requires FindOpportunity(s, a.opportunityId).Some?
  {
    FindOpportunity(s, a.opportunityId).value.alumniId
  }

  /** `UPDATE applications SET status = t WHERE application_id = id`. It has
      the shape of `Connections.SetStatus`, but the two tables hold different
      row and status types, and each update is kept beside the invariants
      proved about its own table. */
  function SetAppStatus(apps: seq<Application>, id: int, t: AppStatus): (r: seq<Application>)
    ensures |r| == |apps|
    ensures forall i :: 0 <= i < |apps| ==> r[i] == (if apps[i].id == id then apps[i].(status := t) else apps[i])
  {
    seq(|apps|, i requires 0 <= i < |apps| => if apps[i].id == id then apps[i].(status := t) else apps[i])
  }

  /** `updateApplicationStatus`: 403 for non-alumni and 400 for a status
      outside the three names, both before any read; then 404 and 403 from
      the ownership lookup; otherwise the status is written. The student is
      read after the write, so a student without a user row or profile gets
      a 500 with the new status kept. */
  function UpdateApplicationStatus(s: Store, caller: Caller, id: int, status: string): (r: Step<()>)
    ensures caller.role != Alumni ==> r == Step(s, Fail(HTTP_FORBIDDEN, ONLY_ALUMNI_UPDATE))
    ensures caller.role == Alumni && ParseStatus(status).None? ==> r == Step(s, Fail(HTTP_BAD_REQUEST, INVALID_STATUS))
    ensures caller.role == Alumni && ParseStatus(status).Some? && FindReviewable(s, id).None? ==>
              r == Step(s, Fail(HTTP_NOT_FOUND, APPLICATION_NOT_FOUND))
    ensures caller.role == Alumni && ParseStatus(status).Some? && FindReviewable(s, id).Some?
              && PosterOf(s, FindReviewable(s, id).value) != caller.userId ==>
              r == Step(s, Fail(HTTP_FORBIDDEN, NOT_AUTHORIZED))
    ensures r.store != s ==>
              caller.role == Alumni && ParseStatus(status).Some? && FindReviewable(s, id).Some?
              && PosterOf(s, FindReviewable(s, id).value) == caller.userId
    ensures caller.role == Alumni && ParseStatus(status).Some? && FindReviewable(s, id).Some?
              && PosterOf(s, FindReviewable(s, id).value) == caller.userId ==>
      && r.store.(applications := s.applications) == s
      && |r.store.applications| == |s.applications|
      && (forall i :: 0 <= i < |s.applications| && s.applications[i].id != id ==>
            r.store.applications[i] == s.applications[i])
      && (forall i :: 0 <= i < |s.applications| && s.applications[i].id == id ==>
            r.store.applications[i] == s.applications[i].(status := ParseStatus(status).value))
      && (r.reply.Ok? <==> HasStudentRows(s, FindReviewable(s, id).value.studentId))
    ensures r.reply.Ok? ==> r.reply.code == HTTP_OK
  {
    if caller.role != Alumni then Step(s, Fail(HTTP_FORBIDDEN, ONLY_ALUMNI_UPDATE))
    else match ParseStatus(status)
      case None => Step(s, Fail(HTTP_BAD_REQUEST, INVALID_STATUS))
      case Some(t) =>
        match FindReviewable(s, id)
        case None => Step(s, Fail(HTTP_NOT_FOUND, APPLICATION_NOT_FOUND))
        case Some(a) =>
          if PosterOf(s, a) != caller.userId then Step(s, Fail(HTTP_FORBIDDEN, NOT_AUTHORIZED))
          else
            var s1 := s.(applications := SetAppStatus(s.applications, id, t));
            if HasStudentRows(s, a.studentId) then Step(s1, Ok(HTTP_OK, ()))
            else Step(s1, Fail(HTTP_SERVER_ERROR, FAILED_TO_UPDATE))
  }

  /** A status update keeps ids, timestamps and the (posting, student)
      pairs, so it keeps the table's invariants. */
  lemma SetAppStatusKeepsInvariants(apps: seq<Application>, id: int, t: AppStatus, clock: int)
    requires Numbered(apps, ApplicationIdOf) && Stamped(apps, ApplicationTime, clock)
    requires OneApplicationPerStudent(apps)
    ensures var r := SetAppStatus(apps, id, t);
            Numbered(r, ApplicationIdOf) && Stamped(r, ApplicationTime, clock) && OneApplicationPerStudent(r)
  {
    var r := SetAppStatus(apps, id, t);
    assert forall i :: 0 <= i < |apps| ==>
      ApplicationIdOf(r[i]) == ApplicationIdOf(apps[i]) && ApplicationTime(r[i]) == ApplicationTime(apps[i])
      && r[i].opportunityId == apps[i].opportunityId && r[i].studentId == apps[i].studentId;
  }

  lemma UpdateApplicationStatusKeepsValid(s: Store, caller: Caller, id: int, status: string)
    requires Valid(s)
    ensures Valid(UpdateApplicationStatus(s, caller, id, status).store)
  {
    var s1 := UpdateApplicationStatus(s, caller, id, status).store;
    if s1 != s {
      var t := ParseStatus(status).value;
      SetAppStatusKeepsInvariants(s.applications, id, t, s.clock);
      assert s1.applications == SetAppStatus(s.applications, id, t);
    }
  }

  /** An owner's update lands on row `id` and leaves the application
      reviewable by the same owner. */
  lemma UpdateByOwner(s: Store, caller: Caller, id: int, t: AppStatus)
    requires Numbered(s.applications, ApplicationIdOf)
    requires caller.role == Alumni && FindReviewable(s, id).Some?
    requires PosterOf(s, FindReviewable(s, id).value) == caller.userId
    ensures var s1 := UpdateApplicationStatus(s, caller, id, StatusName(t)).store;
            && Numbered(s1.applications, ApplicationIdOf)
            && 1 <= id <= |s1.applications|
            && s1.applications[id - 1].status == t
            && FindReviewable(s1, id).Some?
            && PosterOf(s1, FindReviewable(s1, id).value) == caller.userId
  {
    var a := FindReviewable(s, id).value;
    ApplicationAtItsId(s.applications, a);
    ParseStatusName(t);
    var apps1 := SetAppStatus(s.applications, id, t);
    var s1 := s.(applications := apps1);
    assert UpdateApplicationStatus(s, caller, id, StatusName(t)).store == s1;
    SetAppStatusKeepsNumbered(s.applications, id, t);
    assert apps1[id - 1] == a.(status := t);
    assert FindOpportunity(s1, a.opportunityId) == FindOpportunity(s, a.opportunityId);
    assert FindReviewable(s1, id).Some?;
    var b := FindReviewable(s1, id).value;
    ApplicationAtItsId(apps1, b);
  }

  /** In a numbered table a row sits at its id minus one. */
  lemma ApplicationAtItsId(apps: seq<Application>, a: Application)
    requires Numbered(apps, ApplicationIdOf) && a in apps
    ensures 1 <= a.id <= |apps| && apps[a.id - 1] == a
  {
    var i :| 0 <= i < |apps| && apps[i] == a;
    assert ApplicationIdOf(apps[i]) == i + 1;
  }

  lemma SetAppStatusKeepsNumbered(apps: seq<Application>, id: int, t: AppStatus)
    requires Numbered(apps, ApplicationIdOf)
    ensures Numbered(SetAppStatus(apps, id, t), ApplicationIdOf)
  {
    var r := SetAppStatus(apps, id, t);
    forall k | 0 <= k < |r| ensures ApplicationIdOf(r[k]) == k + 1 {
      assert ApplicationIdOf(apps[k]) == k + 1;
    }
  }

  /** No status is terminal: once an owner could set one, the same owner can
      move the application on to any of the three. */
  lemma NoTerminalStatus(s: Store, caller: Caller, id: int, t1: AppStatus, t2: AppStatus)
    requires Numbered(s.applications, ApplicationIdOf)
    requires caller.role == Alumni && FindReviewable(s, id).Some?
    requires PosterOf(s, FindReviewable(s, id).value) == caller.userId
    ensures var s1 := UpdateApplicationStatus(s, caller, id, StatusName(t1)).store;
            var s2 := UpdateApplicationStatus(s1, caller, id, StatusName(t2)).store;
            && 1 <= id <= |s2.applications|
            && s1.applications[id - 1].status == t1
            && s2.applications[id - 1].status == t2
  {
    UpdateByOwner(s, caller, id, t1);
    var s1 := UpdateApplicationStatus(s, caller, id, StatusName(t1)).store;
    UpdateByOwner(s1, caller, id, t2);
  }
}

=== FILE: store.dfy ===
/**
 The relational store behind the handlers, as an immutable value: one
 sequence of rows per table in insertion order, the two profile tables keyed
 by user id, and a logical clock standing for `NOW()`.

 Auto-increment ids: no handler deletes rows, and the model takes every
 id the database hands out to end up on a row, so the row inserted into a
 table holding n rows gets id n + 1 and every id equals its position plus
 one. InnoDB also spends an id on an insert that fails or is rolled back;
 those gaps are not modelled. Timestamps: each insert that records `created_at` or `applied_at`
 stamps the row with the clock and advances it, so every table is strictly
 ascending in its timestamp and `ORDER BY created_at` is insertion order.
 */
module Db {
  import opened Base

  datatype Role = Student | Alumni | Admin

  /** The decoded token payload `{user_id, role, verified}`; every protected
      handler trusts it as the caller without re-reading the users table. */
  datatype Caller = Caller(userId: int, role: Role, verified: bool)

  datatype User = User(id: int, email: string, passwordHash: string, role: Role, verified: bool, createdAt: int)

  datatype Company = Company(id: int, name: string)

  datatype Experience = Experience(company: string, role: string, duration: string, description: string)

  datatype Education = Education(institution: string, degree: string, year: string, grade: string)

  /** A profile row. The text columns are nullable except `name`, and
      `graduation_year` is required too: registration never leaves either
      out, and an edit that omits one is refused by the database. */
  datatype StudentProfile = StudentProfile(
    name: string,
    phone: Option<string>,
    graduationYear: int,
    major: Option<string>,
    cgpa: Option<real>,
    bio: Option<string>,
    githubUrl: Option<string>,
    linkedinUrl: Option<string>,
    portfolioUrl: Option<string>,
    skills: seq<string>,
    certifications: seq<string>,
    projects: seq<string>)

  datatype AlumniProfile = AlumniProfile(
    name: string,
    phone: Option<string>,
    companyId: Option<int>,
    position: Option<string>,
    graduationYear: int,
    bio: Option<string>,
    linkedinUrl: Option<string>,
    githubUrl: Option<string>,
    experience: seq<Experience>,
    education: seq<Education>,
    certifications: seq<string>,
    skills: seq<string>)

  datatype ConnStatus = Pending | Accepted | Rejected

  /** A peer relationship, stored with `userA <= userB`; `requestedBy`
      remembers the direction the normalisation forgot. */
  datatype Connection = Connection(id: int, userA: int, userB: int, status: ConnStatus, requestedBy: int)

  datatype Message = Message(
    id: int,
    sender: int,
    receiver: int,
    text: string,
    read: bool,
    readAt: Option<int>,
    createdAt: int)

  datatype Opportunity = Opportunity(
    id: int,
    alumniId: int,
    companyId: int,
    title: string,
    description: string,
    kind: string,
    status: string,
    createdAt: int)

  datatype AppStatus = AppPending | AppAccepted | AppRejected

  datatype Application = Application(
    id: int,
    opportunityId: int,
    studentId: int,
    resumeUrl: Option<string>,
    status: AppStatus,
    appliedAt: int)

  datatype Store = Store(
    users: seq<User>,
    companies: seq<Company>,
    studentProfiles: map<int, StudentProfile>,
    alumniProfiles: map<int, AlumniProfile>,
    connections: seq<Connection>,
    messages: seq<Message>,
    opportunities: seq<Opportunity>,
    applications: seq<Application>,
    clock: int)

  /** The result of one handler call: the store afterwards and the reply. */
  datatype Step<+T> = Step(store: Store, reply: Reply<T>)

  /** The status the opportunities table gives a row inserted without one. */
  const DEFAULT_OPPORTUNITY_STATUS: string := "active"

  function UserTime(u: User): int { u.createdAt }
  function MessageTime(m: Message): int { m.createdAt }
  function OpportunityTime(o: Opportunity): int { o.createdAt }
  function ApplicationTime(a: Application): int { a.appliedAt }

  /** Every row of `t` carries its position plus one as id. */
  predicate Numbered<T>(t: seq<T>, id: T -> int) {
    forall i :: 0 <= i < |t| ==> id(t[i]) == i + 1
  }

  /** Every row of `t` was stamped before `clock`, in ascending order. */
  predicate Stamped<T>(t: seq<T>, time: T -> int, clock: int) {
    IncreasingBy(t, time) && forall i :: 0 <= i < |t| ==> time(t[i]) < clock
  }

  lemma NumberedAppend<T>(t: seq<T>, id: T -> int, row: T)
    requires Numbered(t, id) && id(row) == |t| + 1
    ensures Numbered(t + [row], id)
  {
  }

  /** Stamping a new row with the clock and advancing it keeps the order. */
  lemma StampedAppend<T>(t: seq<T>, time: T -> int, clock: int, row: T)
    requires Stamped(t, time, clock) && time(row) == clock
    ensures Stamped(t + [row], time, clock + 1)
  {
  }

  lemma StampedTick<T>(t: seq<T>, time: T -> int, clock: int)
    requires Stamped(t, time, clock)
    ensures Stamped(t, time, clock + 1)
  {
  }

  function UserIdOf(u: User): int { u.id }
  function CompanyIdOf(c: Company): int { c.id }
  function ConnectionIdOf(c: Connection): int { c.id }
  function MessageIdOf(m: Message): int { m.id }
  function OpportunityIdOf(o: Opportunity): int { o.id }
  function ApplicationIdOf(a: Application): int { a.id }

  /** The `users.email` uniqueness the registration handlers maintain. */
  predicate EmailsUnique(users: seq<User>) {
    forall i, j :: 0 <= i < j < |users| ==> users[i].email != users[j].email
  }

  /** The `(user_a, user_b)` unique key and the `user_a <= user_b` rule. */
  predicate PairsCanonical(cs: seq<Connection>) {
    && (forall i :: 0 <= i < |cs| ==> cs[i].userA <= cs[i].userB)
    && (forall i, j :: 0 <= i < j < |cs| ==> (cs[i].userA, cs[i].userB) != (cs[j].userA, cs[j].userB))
  }

  /** `read_at` is set exactly when `read_status` is. */
  predicate ReceiptsConsistent(ms: seq<Message>) {
    forall i :: 0 <= i < |ms| ==> (ms[i].read <==> ms[i].readAt.Some?)
  }

  /** At most one application per (opportunity, student). */
  predicate OneApplicationPerStudent(apps: seq<Application>) {
    forall i, j :: 0 <= i < j < |apps| ==>
      (apps[i].opportunityId, apps[i].studentId) != (apps[j].opportunityId, apps[j].studentId)
  }

  /** The invariant every reachable store satisfies. */
  predicate Valid(s: Store) {
    && Numbered(s.users, UserIdOf)
    && Numbered(s.companies, CompanyIdOf)
    && Numbered(s.connections, ConnectionIdOf)
    && Numbered(s.messages, MessageIdOf)
    && Numbered(s.opportunities, OpportunityIdOf)
    && Numbered(s.applications, ApplicationIdOf)
    && Stamped(s.users, UserTime, s.clock)
    && Stamped(s.messages, MessageTime, s.clock)
    && Stamped(s.opportunities, OpportunityTime, s.clock)
    && Stamped(s.applications, ApplicationTime, s.clock)
    && EmailsUnique(s.users)
    && PairsCanonical(s.connections)
    && ReceiptsConsistent(s.messages)
    && OneApplicationPerStudent(s.applications)
  }

  /** The store of a fresh installation. */
  function EmptyStore(): (s: Store)
    ensures Valid(s)
  {
    Store([], [], map[], map[], [], [], [], [], 0)
  }

  /** `SELECT ... FROM users WHERE user_id = ?`. */
  function FindUser(s: Store, id: int): (r: Option<User>)
    ensures r.Some? ==> r.value in s.users && r.value.id == id
    ensures r.None? ==> forall i :: 0 <= i < |s.users| ==> s.users[i].id != id
  {
    Find(s.users, (u: User) => u.id == id)
  }

  /** `SELECT ... FROM opportunities WHERE opportunity_id = ?`. */
  function FindOpportunity(s: Store, id: int): (r: Option<Opportunity>)
    ensures r.Some? ==> r.value in s.opportunities && r.value.id == id
    ensures r.None? ==> forall i :: 0 <= i < |s.opportunities| ==> s.opportunities[i].id != id
  {
    Find(s.opportunities, (o: Opportunity) => o.id == id)
  }

  /** `LEFT JOIN companies c ON o.company_id = c.company_id`: the company's
      name, or NULL when no company row matches. */
  function CompanyName(s: Store, companyId: int): (r: Option<string>)
    ensures r.Some? <==> exists i :: 0 <= i < |s.companies| && s.companies[i].id == companyId
  {
    match Find(s.companies, (c: Company) => c.id == companyId)
    case None => None
    case Some(c) => Some(c.name)
  }

  /** With positional ids, the row with id k is the k-th row. */
  lemma FindOpportunityByPosition(s: Store, k: int)
    requires Numbered(s.opportunities, OpportunityIdOf) && 1 <= k <= |s.opportunities|
    ensures FindOpportunity(s, k) == Some(s.opportunities[k - 1])
  {
    var r := FindOpportunity(s, k);
    assert OpportunityIdOf(s.opportunities[k - 1]) == k;
    var i :| 0 <= i < |s.opportunities| && s.opportunities[i] == r.value;
    assert OpportunityIdOf(s.opportunities[i]) == i + 1;
  }
}

=== FILE: strings.dfy ===
/**
 The JavaScript string operations the application relies on, restated over
 `seq<char>`: `trim`, ASCII case mapping, `includes`, `split` on one
 character, `join`, and decimal rendering of an id.
 */
module Strings {
  import opened Base

  /** ECMAScript WhiteSpace and LineTerminator code points: the characters
      `String.prototype.trim` removes. */
  predicate IsSpace(c: char) {
    || c == ' ' || c == '\t' || c == '\n' || c == '\r'
    || c == '\U{000B}' || c == '\U{000C}' || c == '\U{00A0}' || c == '\U{1680}'
    || ('\U{2000}' <= c <= '\U{200A}')
    || c == '\U{2028}' || c == '\U{2029}' || c == '\U{202F}' || c == '\U{205F}'
    || c == '\U{3000}' || c == '\U{FEFF}'
  }

  /** Blank in the JavaScript sense: `!s.trim()`. */
  predicate IsBlank(s: string) {
    forall i :: 0 <= i < |s| ==> IsSpace(s[i])
  }

  /** `s` with its leading white space removed. */
  function TrimStart(s: string): (r: string)
    ensures |r| <= |s| && r == s[|s| - |r|..]
    ensures forall i :: 0 <= i < |s| - |r| ==> IsSpace(s[i])
    ensures |r| > 0 ==> !IsSpace(r[0])
  {
    if |s| > 0 && IsSpace(s[0]) then TrimStart(s[1..]) else s
  }

  /** `s` with its trailing white space removed. */
  function TrimEnd(s: string): (r: string)
    ensures |r| <= |s| && r == s[..|r|]
    ensures forall i :: |r| <= i < |s| ==> IsSpace(s[i])
    ensures |r| > 0 ==> !IsSpace(r[|r| - 1])
  {
    if |s| > 0 && IsSpace(s[|s| - 1]) then TrimEnd(s[..|s| - 1]) else s
  }

  /** JavaScript `s.trim()`: the slice of `s` between its leading and
      trailing white space. */
  function Trim(s: string): (r: string)
    ensures |r| <= |s|
    ensures |r| > 0 ==> !IsSpace(r[0]) && !IsSpace(r[|r| - 1])
    ensures r == "" <==> IsBlank(s)
  {
    TrimEnd(TrimStart(s))
  }

  /** The trim is the slice of `s` left between a blank prefix and a blank
      suffix; with the first and last character of a non-empty trim not
      being white space, that slice is the widest one. */
  lemma TrimIsSlice(s: string) returns (a: nat)
    ensures a + |Trim(s)| <= |s|
    ensures Trim(s) == s[a..a + |Trim(s)|]
    ensures IsBlank(s[..a]) && IsBlank(s[a + |Trim(s)|..])
  {
    var t := TrimStart(s);
    a := |s| - |t|;
    var r := TrimEnd(t);
    assert Trim(s) == r;
    assert IsBlank(s[..a]) by {
      StrippedPrefixBlank(s);
    }
    assert r == s[a..a + |r|] && IsBlank(s[a + |r|..]) by {
      StrippedSuffixBlank(t);
      BlankBoundedSlice(s, t, r);
    }
  }

  /** Cutting a blank prefix and then a blank suffix leaves a slice between
      a blank prefix and a blank suffix of the original. */
  lemma BlankBoundedSlice(s: string, t: string, r: string)
    requires |t| <= |s| && t == s[|s| - |t|..] && IsBlank(s[..|s| - |t|])
    requires |r| <= |t| && r == t[..|r|] && IsBlank(t[|r|..])
    ensures var a := |s| - |t|;
            r == s[a..a + |r|] && IsBlank(s[a + |r|..])
  {
    var a := |s| - |t|;
    assert t[|r|..] == s[a + |r|..];
  }

  lemma StrippedPrefixBlank(s: string)
    ensures IsBlank(s[..|s| - |TrimStart(s)|])
  {
    var p := s[..|s| - |TrimStart(s)|];
    forall i | 0 <= i < |p| ensures IsSpace(p[i]) {
      assert p[i] == s[i];
    }
  }

  lemma StrippedSuffixBlank(t: string)
    ensures IsBlank(t[|TrimEnd(t)|..])
  {
    var q := t[|TrimEnd(t)|..];
    forall i | 0 <= i < |q| ensures IsSpace(q[i]) {
      assert q[i] == t[|TrimEnd(t)| + i];
    }
  }

  /** Blank text is exactly the text that trims to nothing. */
  lemma BlankIffTrimsEmpty(s: string)
    ensures IsBlank(s) <==> Trim(s) == ""
  {
  }

  /** A string that already starts and ends with a non-space is its own trim. */
  lemma TrimOfTrimmed(s: string)
    requires s == "" || (!IsSpace(s[0]) && !IsSpace(s[|s| - 1]))
    ensures Trim(s) == s
  {
    if s != "" {
      assert TrimStart(s) == s;
      assert TrimEnd(s) == s;
    }
  }

  lemma TrimIdempotent(s: string)
    ensures Trim(Trim(s)) == Trim(s)
  {
    var t := Trim(s);
    if t != "" {
      assert !IsSpace(t[0]) && !IsSpace(t[|t| - 1]);
    }
    TrimOfTrimmed(t);
  }

  /** A leading space never survives trimming. */
  lemma {:induction false} TrimDropsLeadingSpace(s: string)
    ensures Trim(" " + s) == Trim(s)
  {
    assert (" " + s)[1..] == s;
  }

  /** A space put before trimmed text is trimmed away again. */
  lemma TrimAfterSpace(s: string)
    requires s == "" || (!IsSpace(s[0]) && !IsSpace(s[|s| - 1]))
    ensures Trim(" " + s) == s
  {
    TrimOfTrimmed(s);
    TrimDropsLeadingSpace(s);
  }

  function LowerChar(c: char): char {
    if 'A' <= c <= 'Z' then (c as int + 32) as char else c
  }

  function UpperChar(c: char): char {
    if 'a' <= c <= 'z' then (c as int - 32) as char else c
  }

  /** `s.toLowerCase()` restricted to ASCII letters. */
  function Lower(s: string): (r: string)
    ensures |r| == |s|
    ensures forall i :: 0 <= i < |s| ==> r[i] == LowerChar(s[i])
  {
    seq(|s|, i requires 0 <= i < |s| => LowerChar(s[i]))
  }

  /** `s.toUpperCase()` restricted to ASCII letters. */
  function Upper(s: string): (r: string)
    ensures |r| == |s|
    ensures forall i :: 0 <= i < |s| ==> r[i] == UpperChar(s[i])
  {
    seq(|s|, i requires 0 <= i < |s| => UpperChar(s[i]))
  }

  lemma LowerOfEmpty()
    ensures Lower("") == ""
  {
  }

  /** JavaScript `hay.includes(needle)`, computed by scanning. */
  predicate Contains(hay: string, needle: string)
    decreases |hay|
  {
    needle <= hay || (|hay| > 0 && Contains(hay[1..], needle))
  }

  /** `needle` sits in `hay` at offset `k`. */
  ghost predicate OccursAt(needle: string, hay: string, k: int) {
    0 <= k && k + |needle| <= |hay| && hay[k..k + |needle|] == needle
  }

  /** The reference meaning of `includes`: the needle occurs at some offset. */
  ghost predicate OccursIn(needle: string, hay: string) {
    exists k :: OccursAt(needle, hay, k)
  }

  /** The scanning definition agrees with the reference one, both ways. */
  lemma {:induction false} ContainsMeansOccurs(hay: string, needle: string)
    ensures Contains(hay, needle) <==> OccursIn(needle, hay)
    decreases |hay|
  {
    if needle <= hay {
      assert OccursAt(needle, hay, 0);
    } else if |hay| > 0 {
      ContainsMeansOccurs(hay[1..], needle);
      if OccursIn(needle, hay) {
        var k :| OccursAt(needle, hay, k);
        OccursLater(needle, hay, k);
      }
      if OccursIn(needle, hay[1..]) {
        var k :| OccursAt(needle, hay[1..], k);
        OccursShifted(needle, hay, k);
      }
    }
  }

  /** An occurrence past the start of `hay` is one in its tail. */
  lemma OccursLater(needle: string, hay: string, k: int)
    requires OccursAt(needle, hay, k) && !(needle <= hay)
    ensures OccursAt(needle, hay[1..], k - 1)
  {
    assert k != 0 by { assert hay[..|needle|] == hay[0..|needle|]; }
    assert hay[1..][k - 1..k - 1 + |needle|] == hay[k..k + |needle|];
  }

  /** An occurrence in the tail of `hay` is one in `hay`, one place on. */
  lemma OccursShifted(needle: string, hay: string, k: int)
    requires |hay| > 0 && OccursAt(needle, hay[1..], k)
    ensures OccursAt(needle, hay, k + 1)
  {
    assert hay[1..][k..k + |needle|] == hay[k + 1..k + 1 + |needle|];
  }

  lemma ContainsEmpty(hay: string)
    ensures Contains(hay, "")
  {
  }

  /** Position of the first `c` in `s`. */
  function IndexOf(s: string, c: char): (k: nat)
    requires c in s
    ensures k < |s| && s[k] == c && c !in s[..k]
  {
    if s[0] == c then 0
    else
      assert c in s[1..];
      var k := 1 + IndexOf(s[1..], c);
      assert s[..k] == [s[0]] + s[1..][..k - 1];
      k
  }

  /** JavaScript `s.split(sep)` for a one-character separator: the pieces
      between separators, always at least one. */
  function Split(s: string, sep: char): (parts: seq<string>)
    ensures |parts| >= 1
    ensures forall i :: 0 <= i < |parts| ==> sep !in parts[i]
    decreases |s|
  {
    if sep !in s then [s]
    else
      var k := IndexOf(s, sep);
      [s[..k]] + Split(s[k + 1..], sep)
  }

  /** JavaScript `xs.join(sep)`. */
  function Join(xs: seq<string>, sep: string): string {
    if |xs| == 0 then ""
    else if |xs| == 1 then xs[0]
    else xs[0] + sep + Join(xs[1..], sep)
  }

  lemma JoinOne(x: string, sep: string)
    ensures Join([x], sep) == x
  {
  }

  lemma JoinTwo(x: string, y: string, sep: string)
    ensures Join([x, y], sep) == x + sep + y
  {
    assert [x, y][1..] == [y];
  }

  /** Joining the pieces of a split with the separator gives back the input. */
  lemma {:induction false} JoinSplit(s: string, sep: char)
    ensures Join(Split(s, sep), [sep]) == s
    decreases |s|
  {
    if sep in s {
      var k := IndexOf(s, sep);
      JoinSplit(s[k + 1..], sep);
      var rest := Split(s[k + 1..], sep);
      assert Split(s, sep)[1..] == rest;
      assert s == s[..k] + [sep] + s[k + 1..];
    }
  }

  /** The first separator of `x + [sep] + tail`, with `x` separator-free,
      is the one right after `x`. */
  lemma {:induction false} SplitAtFirst(x: string, sep: char, tail: string)
    requires sep !in x
    ensures Split(x + [sep] + tail, sep) == [x] + Split(tail, sep)
  {
    var s := x + [sep] + tail;
    assert s[|x|] == sep;
    assert s[..|x|] == x;
    var k := IndexOf(s, sep);
    assert k == |x|;
    assert s[k + 1..] == tail;
  }

  /** Splitting a join of separator-free pieces gives back the pieces. */
  lemma {:induction false} SplitJoin(xs: seq<string>, sep: char)
    requires |xs| >= 1
    requires forall i :: 0 <= i < |xs| ==> sep !in xs[i]
    ensures Split(Join(xs, [sep]), sep) == xs
    decreases |xs|
  {
    if |xs| > 1 {
      var tail := Join(xs[1..], [sep]);
      assert Join(xs, [sep]) == xs[0] + [sep] + tail;
      SplitAtFirst(xs[0], sep, tail);
      SplitJoin(xs[1..], sep);
      assert xs == [xs[0]] + xs[1..];
    }
  }

  function DigitChar(d: nat): char
    requires d < 10
  {
    "0123456789"[d]
  }

  predicate IsDigit(c: char) {
    '0' <= c <= '9'
  }

  /** Decimal rendering of a non-negative integer, as a template literal does. */
  function NatToString(n: nat): (r: string)
    ensures |r| >= 1
    ensures forall i :: 0 <= i < |r| ==> IsDigit(r[i])
  {
    if n < 10 then [DigitChar(n)] else NatToString(n / 10) + [DigitChar(n % 10)]
  }
}

=== FILE: ui_edit_profile.dfy ===
/**
 The profile edit forms (frontend/src/components/EditAlumniProfile.jsx and
 EditStudentProfile.jsx): lists pre-filled as comma-separated text and split
 again on submit, the alumni form's validation, and the submitted payloads.

 `JSON.parse` is a parameter, as in `Profiles`.
 */
module EditProfile {
  import opened Base
  import opened Strings
  import opened Lists
  import Profiles

  const NAME_REQUIRED: string := "Name is required"
  const COMPANY_REQUIRED: string := "Company name is required"
  const POSITION_REQUIRED: string := "Position is required"
  const YEAR_REQUIRED: string := "Graduation year is required"
  const BAD_EXPERIENCE: string := "Invalid experience JSON format"
  const BAD_EDUCATION: string := "Invalid education JSON format"
  const FIX_ERRORS: string := "Please fix the errors in the form"

  // ---------------------------------------------------------------------
  // Alumni form

  /** The alumni edit form, every field as text. */
  datatype AlumniText = AlumniText(
    name: string,
    phone: string,
    companyName: string,
    position: string,
    graduationYear: string,
    bio: string,
    linkedinUrl: string,
    githubUrl: string,
    experience: string,
    education: string,
    certifications: string,
    skills: string)

  /** The form's error messages; the empty string stands for no error. */
  datatype Errors = Errors(
    name: string,
    companyName: string,
    position: string,
    graduationYear: string,
    experience: string,
    education: string)

  const NO_ERRORS: Errors := Errors("", "", "", "", "", "")

  /** `Object.values(errors).every(error => !error)`. */
  predicate Clean(e: Errors) {
    e == NO_ERRORS
  }

  /** The result of `validateForm`: the verdict and the errors it stores. */
  datatype Validation = Validation(ok: bool, errors: Errors)

  /** A JSON text field is acceptable when blank or when it parses. */
  predicate JsonFieldOk(text: string, parse: string -> Option<Profiles.Json>) {
    IsBlank(text) || parse(text).Some?
  }

  /** The intended rule: name, company and position are not blank, the year
      is filled in, and both JSON fields are acceptable. */
  predicate FormAcceptable(f: AlumniText, parse: string -> Option<Profiles.Json>) {
    && !IsBlank(f.name) && !IsBlank(f.companyName) && !IsBlank(f.position) && f.graduationYear != ""
    && JsonFieldOk(f.experience, parse) && JsonFieldOk(f.education, parse)
  }

  /** `validateForm` as written: it starts from the errors it stored last
      time (`{ ...jsonErrors }`) and only ever sets messages, so an error for
      a field that has since been filled in is never cleared. */
  function ValidateAsWritten(f: AlumniText, stored: Errors, parse: string -> Option<Profiles.Json>): (r: Validation)
    ensures r.ok <==> Clean(r.errors)
    ensures stored.name != "" ==> r.errors.name != ""
  {
    var e := Errors(
      if IsBlank(f.name) then NAME_REQUIRED else stored.name,
      if IsBlank(f.companyName) then COMPANY_REQUIRED else stored.companyName,
      if IsBlank(f.position) then POSITION_REQUIRED else stored.position,
      if f.graduationYear == "" then YEAR_REQUIRED else stored.graduationYear,
      if !JsonFieldOk(f.experience, parse) then BAD_EXPERIENCE else stored.experience,
      if !JsonFieldOk(f.education, parse) then BAD_EDUCATION else stored.education);
    Validation(Clean(e), e)
  }

  /** A form that was once submitted with a blank name stays rejected after
      the name is filled in, however complete it now is. */
  lemma StaleErrorBlocksSubmit(earlier: AlumniText, f: AlumniText, parse: string -> Option<Profiles.Json>)
    requires earlier.name == "" && FormAcceptable(f, parse)
    ensures var first := ValidateAsWritten(earlier, NO_ERRORS, parse);
            && !first.ok
            && !ValidateAsWritten(f, first.errors, parse).ok
  {
    var first := ValidateAsWritten(earlier, NO_ERRORS, parse);
    BlankNameFlagged(earlier, NO_ERRORS, parse);
    assert |NAME_REQUIRED| > 0;
    NameErrorRefuses(earlier, NO_ERRORS, parse);
    StoredNameErrorSticks(f, first.errors, parse);
  }

  lemma BlankNameFlagged(f: AlumniText, stored: Errors, parse: string -> Option<Profiles.Json>)
    requires f.name == ""
    ensures ValidateAsWritten(f, stored, parse).errors.name == NAME_REQUIRED
  {
    assert IsBlank(f.name);
  }

  lemma NameErrorRefuses(f: AlumniText, stored: Errors, parse: string -> Option<Profiles.Json>)
    requires ValidateAsWritten(f, stored, parse).errors.name != ""
    ensures !ValidateAsWritten(f, stored, parse).ok
  {
  }

  lemma StoredNameErrorSticks(f: AlumniText, stored: Errors, parse: string -> Option<Profiles.Json>)
    requires stored.name != ""
    ensures !ValidateAsWritten(f, stored, parse).ok
  {
  }

  /** A complete form with no JSON: name, company, position and year only. */
  const FILLED_FORM: AlumniText := AlumniText("Ann", "", "Acme", "Engineer", "2020", "", "", "", "", "", "", "")

  /** The concrete case: submit `FILLED_FORM` with the name cleared, type the
      name back, submit again, and the form is still refused. */
  lemma StaleErrorExample(parse: string -> Option<Profiles.Json>)
    ensures var first := ValidateAsWritten(FILLED_FORM.(name := ""), NO_ERRORS, parse);
            !ValidateAsWritten(FILLED_FORM, first.errors, parse).ok
  {
    var f := FILLED_FORM;
    NotBlank(f.name);
    NotBlank(f.companyName);
    NotBlank(f.position);
    assert IsBlank(f.experience) && IsBlank(f.education) by {
      assert f.experience == "" && f.education == "";
    }
    StaleErrorBlocksSubmit(f.(name := ""), f, parse);
  }

  lemma NotBlank(s: string)
    requires |s| > 0 && !IsSpace(s[0])
    ensures !IsBlank(s)
  {
  }

  /** The corrected `validateForm`: every message is recomputed from the
      current form. */
  function Validate(f: AlumniText, parse: string -> Option<Profiles.Json>): (r: Validation)
    ensures r.ok <==> Clean(r.errors)
    ensures r.ok <==> FormAcceptable(f, parse)
    ensures r.errors.name != "" <==> IsBlank(f.name)
    ensures r.errors.experience != "" <==> !JsonFieldOk(f.experience, parse)
  {
    ValidateAsWritten(f, NO_ERRORS, parse)
  }

  /** The corrected check is what the as-written one computes on a first
      submit, and whatever was stored, the as-written check never accepts a
      form the corrected one refuses. */
  lemma ValidateAgreesOnFirstSubmit(f: AlumniText, stored: Errors, parse: string -> Option<Profiles.Json>)
    ensures ValidateAsWritten(f, NO_ERRORS, parse) == Validate(f, parse)
    ensures ValidateAsWritten(f, stored, parse).ok ==> Validate(f, parse).ok
  {
  }

  /** The alumni update body. */
  datatype AlumniPayload = AlumniPayload(
    name: string,
    phone: string,
    companyName: string,
    position: string,
    graduationYear: string,
    bio: string,
    linkedinUrl: string,
    githubUrl: string,
    experience: Profiles.Json,
    education: Profiles.Json,
    certifications: seq<string>,
    skills: seq<string>)

  /** A blank JSON field sends `[]`, otherwise its parse. */
  function JsonFieldValue(text: string, parse: string -> Option<Profiles.Json>): Profiles.Json
    requires JsonFieldOk(text, parse)
  {
    if IsBlank(text) then Profiles.JArray([]) else parse(text).value
  }

  /** What submit does: refuse with a message, or send a body. */
  datatype Submitted<P> = Refused(message: string) | Sent(payload: P)

  /** `handleSubmit` with the corrected validation: a refused form sends
      nothing; otherwise the text fields are trimmed, the JSON fields parsed
      (blank ones as `[]`) and the lists split on commas. */
  function SubmitAlumni(f: AlumniText, parse: string -> Option<Profiles.Json>): (r: Submitted<AlumniPayload>)
    ensures r.Refused? <==> !FormAcceptable(f, parse)
    ensures r.Refused? ==> r.message == FIX_ERRORS
    ensures r.Sent? ==>
      var p := r.payload;
      && p.name == Trim(f.name) && p.name != ""
      && p.companyName == Trim(f.companyName) && p.companyName != ""
      && p.position == Trim(f.position) && p.position != ""
      && p.phone == Trim(f.phone) && p.bio == Trim(f.bio)
      && p.linkedinUrl == Trim(f.linkedinUrl) && p.githubUrl == Trim(f.githubUrl)
      && p.graduationYear == f.graduationYear
      && (IsBlank(f.experience) ==> p.experience == Profiles.JArray([]))
      && (IsBlank(f.education) ==> p.education == Profiles.JArray([]))
      && (!IsBlank(f.experience) ==> parse(f.experience) == Some(p.experience))
      && (!IsBlank(f.education) ==> parse(f.education) == Some(p.education))
      && p.certifications == ParseList(f.certifications) && p.skills == ParseList(f.skills)
  {
    if !Validate(f, parse).ok then Refused(FIX_ERRORS)
    else Sent(AlumniPayload(
      Trim(f.name), Trim(f.phone), Trim(f.companyName), Trim(f.position), f.graduationYear,
      Trim(f.bio), Trim(f.linkedinUrl), Trim(f.githubUrl),
      JsonFieldValue(f.experience, parse), JsonFieldValue(f.education, parse),
      ParseList(f.certifications), ParseList(f.skills)))
  }

  /** The list part of the alumni pre-fill: an array is joined with `", "`,
      anything else shows as empty. */
  function AlumniListText(xs: Option<seq<string>>): string {
    if xs.Some? then ListText(xs.value) else ""
  }

  /** Opening the form and submitting it untouched sends the same skills and
      certifications back, for entries that are trimmed, non-empty and free
      of commas. */
  lemma AlumniListsSurviveEdit(f: AlumniText, skills: seq<string>, certs: seq<string>,
                               parse: string -> Option<Profiles.Json>)
    requires FormAcceptable(f, parse)
    requires AllTrimmed(skills) && forall i :: 0 <= i < |skills| ==> ',' !in skills[i]
    requires AllTrimmed(certs) && forall i :: 0 <= i < |certs| ==> ',' !in certs[i]
    ensures var g := f.(skills := AlumniListText(Some(skills)), certifications := AlumniListText(Some(certs)));
            SubmitAlumni(g, parse).Sent?
            && SubmitAlumni(g, parse).payload.skills == skills
            && SubmitAlumni(g, parse).payload.certifications == certs
  {
    ParseListText(skills);
    ParseListText(certs);
  }

  // ---------------------------------------------------------------------
  // Student form

  /** A list field of the profile the student form is opened with. */
  datatype ListValue = Items(items: seq<string>) | Plain(text: string) | Absent

  /** The student pre-fill of a list: an array is joined with `", "`, a
      string passes through, a missing value becomes empty text. */
  function StudentListText(v: ListValue): (r: string)
    ensures v.Items? ==> r == ListText(v.items)
    ensures v.Plain? ==> r == v.text
    ensures v.Absent? ==> r == ""
  {
    match v
    case Items(xs) => ListText(xs)
    case Plain(t) => t
    case Absent => ""
  }

  /** The student form's non-list fields, as text. */
  datatype StudentText = StudentText(
    name: string,
    phone: string,
    graduationYear: string,
    major: string,
    cgpa: string,
    bio: string,
    githubUrl: string,
    linkedinUrl: string,
    portfolioUrl: string)

  datatype StudentPayload = StudentPayload(
    fields: StudentText,
    skills: seq<string>,
    certifications: seq<string>,
    projects: seq<string>)

  /** `text ? text.split(',').map(trim).filter(Boolean) : []`. */
  function SubmittedList(text: string): (r: seq<string>)
    ensures r == ParseList(text)
  {
    ParseListOfEmpty();
    if text == "" then [] else ParseList(text)
  }

  /** `handleSubmit`: the other fields go out unchanged, the three lists
      split on commas. */
  function SubmitStudent(fields: StudentText, skills: string, certs: string, projects: string): (r: StudentPayload)
    ensures r.fields == fields
    ensures AllTrimmed(r.skills) && AllTrimmed(r.certifications) && AllTrimmed(r.projects)
    ensures r.skills == SubmittedList(skills) && r.certifications == SubmittedList(certs)
            && r.projects == SubmittedList(projects)
  {
    StudentPayload(fields, SubmittedList(skills), SubmittedList(certs), SubmittedList(projects))
  }

  /** Opening the form and submitting it untouched sends each list back as
      it was, for entries that are trimmed, non-empty and free of commas. */
  lemma StudentListSurvivesEdit(xs: seq<string>)
    requires AllTrimmed(xs) && forall i :: 0 <= i < |xs| ==> ',' !in xs[i]
    ensures SubmittedList(StudentListText(Items(xs))) == xs
  {
    ParseListText(xs);
  }

  /** Opening the student form and submitting it untouched sends the three
      lists back as they were, for entries that are trimmed, non-empty and
      free of commas. */
  lemma StudentListsSurviveSubmit(fields: StudentText, skills: seq<string>, certs: seq<string>,
                                  projects: seq<string>)
    requires AllTrimmed(skills) && forall i :: 0 <= i < |skills| ==> ',' !in skills[i]
    requires AllTrimmed(certs) && forall i :: 0 <= i < |certs| ==> ',' !in certs[i]
    requires AllTrimmed(projects) && forall i :: 0 <= i < |projects| ==> ',' !in projects[i]
    ensures var r := SubmitStudent(fields, StudentListText(Items(skills)), StudentListText(Items(certs)),
                                   StudentListText(Items(projects)));
            r == StudentPayload(fields, skills, certs, projects)
  {
    StudentListSurvivesEdit(skills);
    StudentListSurvivesEdit(certs);
    StudentListSurvivesEdit(projects);
  }

  /** An entry holding a comma comes back as two entries. */
  lemma CommaSplitsEntry(a: string, b: string)
    requires Trimmed(a) && Trimmed(b) && ',' !in a && ',' !in b
    ensures SubmittedList(StudentListText(Items([a + "," + b]))) == [a, b]
  {
    var text := a + "," + b;
    JoinOne(text, ", ");
    JoinTwo(a, b, [',']);
    SplitJoin([a, b], ',');
    TrimAllOfTrimmed([a, b]);
    ParseListOfPieces(text, [a, b]);
  }
}

=== FILE: ui_lists.dfy ===
/**
 The list editing the registration and profile forms share
 (frontend/src/components/AlumniRegister.jsx, StudentRegister.jsx,
 EditAlumniProfile.jsx, EditStudentProfile.jsx): tag fields filled with
 Enter, remove-by-index, and lists edited as comma-separated text.
 */
module Lists {
  import opened Base
  import opened Strings

  /** `xs.filter((_, k) => k !== i)`: the list without position `i`; an index
      outside the list removes nothing. */
  function RemoveAt<T>(xs: seq<T>, i: int): (r: seq<T>)
    ensures 0 <= i < |xs| ==> |r| == |xs| - 1 && r == xs[..i] + xs[i + 1..]
    ensures !(0 <= i < |xs|) ==> r == xs
    decreases |xs|
  {
    if xs == [] then []
    else
      var rest := RemoveAt(xs[1..], i - 1);
      if i == 0 then rest else [xs[0]] + rest
  }

  /** The position in `xs` that entry `a` of `RemoveAt(xs, i)` came from. */
  lemma RemoveAtSource<T>(xs: seq<T>, i: int, a: int) returns (b: int)
    requires 0 <= a < |RemoveAt(xs, i)|
    ensures 0 <= b < |xs| && RemoveAt(xs, i)[a] == xs[b]
  {
    if 0 <= i < |xs| {
      b := if a < i then a else a + 1;
    } else {
      b := a;
    }
  }

  /** The distinctness the skill fields keep. */
  predicate NoDuplicates(xs: seq<string>) {
    forall i, j :: 0 <= i < j < |xs| ==> xs[i] != xs[j]
  }

  /** A non-empty entry that is already its own trim. */
  predicate Trimmed(x: string) {
    x != "" && Trim(x) == x
  }

  /** Every entry is non-empty and already trimmed. */
  predicate AllTrimmed(xs: seq<string>) {
    forall i :: 0 <= i < |xs| ==> Trimmed(xs[i])
  }

  /** A tag list together with the text box that feeds it. */
  datatype TagField = TagField(items: seq<string>, input: string)

  /** Enter in a skills box: blank input is ignored; otherwise the trimmed
      text is appended unless already present, and the box is cleared
      either way. */
  function EnterUnique(f: TagField): (r: TagField)
    ensures IsBlank(f.input) ==> r == f
    ensures !IsBlank(f.input) ==> r.input == "" && Trim(f.input) in r.items
    ensures !IsBlank(f.input) && Trim(f.input) in f.items ==> r.items == f.items
    ensures !IsBlank(f.input) && Trim(f.input) !in f.items ==> r.items == f.items + [Trim(f.input)]
  {
    if IsBlank(f.input) then f
    else
      var t := Trim(f.input);
      TagField(if t in f.items then f.items else f.items + [t], "")
  }

  /** Enter in a certifications or projects box: the same, without the
      duplicate check. */
  function EnterAppend(f: TagField): (r: TagField)
    ensures IsBlank(f.input) ==> r == f
    ensures !IsBlank(f.input) ==> r == TagField(f.items + [Trim(f.input)], "")
  {
    if IsBlank(f.input) then f else TagField(f.items + [Trim(f.input)], "")
  }

  /** The skill list never gains a duplicate, nor a blank or untrimmed entry. */
  lemma EnterUniqueKeepsInvariant(f: TagField)
    requires NoDuplicates(f.items) && AllTrimmed(f.items)
    ensures NoDuplicates(EnterUnique(f).items) && AllTrimmed(EnterUnique(f).items)
  {
    if !IsBlank(f.input) && Trim(f.input) !in f.items {
      var t := Trim(f.input);
      AppendKeepsTrimmed(f.items, f.input);
      AppendKeepsDistinct(f.items, t);
      assert EnterUnique(f).items == f.items + [t];
    }
  }

  /** Appending an absent entry keeps a list free of duplicates. */
  lemma AppendKeepsDistinct(items: seq<string>, t: string)
    requires NoDuplicates(items) && t !in items
    ensures NoDuplicates(items + [t])
  {
    var all := items + [t];
    forall i, j | 0 <= i < j < |all| ensures all[i] != all[j] {
      assert all[i] == items[i];
      if j < |items| {
        assert all[j] == items[j];
      } else {
        assert all[j] == t;
      }
    }
  }

  /** Appending the trim of non-blank input keeps every entry trimmed. */
  lemma AppendKeepsTrimmed(items: seq<string>, input: string)
    requires AllTrimmed(items) && !IsBlank(input)
    ensures AllTrimmed(items + [Trim(input)])
  {
    var t := Trim(input);
    TrimIdempotent(input);
    var all := items + [t];
    forall i | 0 <= i < |all| ensures Trimmed(all[i]) {
      if i < |items| {
        assert all[i] == items[i];
      } else {
        assert all[i] == t;
      }
    }
  }

  lemma EnterAppendKeepsTrimmed(f: TagField)
    requires AllTrimmed(f.items)
    ensures AllTrimmed(EnterAppend(f).items)
  {
    if !IsBlank(f.input) {
      AppendKeepsTrimmed(f.items, f.input);
    }
  }

  /** Entering the same skill twice is the same as entering it once. */
  lemma EnterUniqueTwice(items: seq<string>, text: string)
    ensures var f1 := EnterUnique(TagField(items, text));
            EnterUnique(TagField(f1.items, text)) == f1.(input := if IsBlank(text) then text else "")
  {
  }

  /** Removing an entry keeps the skill list free of duplicates. */
  lemma RemoveAtKeepsNoDuplicates(xs: seq<string>, i: int)
    requires NoDuplicates(xs)
    ensures NoDuplicates(RemoveAt(xs, i))
  {
    if 0 <= i < |xs| {
      var r := RemoveAt(xs, i);
      forall a, b | 0 <= a < b < |r| ensures r[a] != r[b] {
        var a' := if a < i then a else a + 1;
        var b' := if b < i then b else b + 1;
        assert r[a] == xs[a'] && r[b] == xs[b'];
      }
    }
  }

  // ---------------------------------------------------------------------
  // Comma-separated list text

  function TrimAll(xs: seq<string>): (r: seq<string>)
    ensures |r| == |xs| && forall i :: 0 <= i < |xs| ==> r[i] == Trim(xs[i])
  {
    seq(|xs|, i requires 0 <= i < |xs| => Trim(xs[i]))
  }

  lemma TrimAllOfTrimmed(xs: seq<string>)
    requires AllTrimmed(xs)
    ensures TrimAll(xs) == xs
  {
  }

  lemma TrimAllTrimmed(xs: seq<string>)
    ensures forall x :: x in TrimAll(xs) ==> Trim(x) == x
  {
    var t := TrimAll(xs);
    forall x | x in t ensures Trim(x) == x {
      var k :| 0 <= k < |t| && t[k] == x;
      TrimIdempotent(xs[k]);
    }
  }

  /** The `filter(s => s)` test on a string: it is non-empty. */
  predicate NonEmpty(x: string) {
    x != ""
  }

  /** Splitting text whose pieces trim to a list of trimmed entries gives
      that list. */
  lemma ParseListOfPieces(text: string, xs: seq<string>)
    requires AllTrimmed(xs) && TrimAll(Split(text, ',')) == xs
    ensures ParseList(text) == xs
  {
    FilterKeepsAll(xs, NonEmpty);
  }

  /** `text.split(',').map(s => s.trim()).filter(s => s)`. */
  function ParseList(text: string): (r: seq<string>)
    ensures AllTrimmed(r)
    ensures forall x :: x in r <==> x != "" && x in TrimAll(Split(text, ','))
  {
    var t := TrimAll(Split(text, ','));
    TrimAllTrimmed(Split(text, ','));
    FilterNonEmptyTrimmed(t);
    Filter(t, NonEmpty)
  }

  /** Keeping the non-empty entries of a list of trimmed strings leaves only
      trimmed entries. */
  lemma FilterNonEmptyTrimmed(t: seq<string>)
    requires forall x :: x in t ==> Trim(x) == x
    ensures AllTrimmed(Filter(t, NonEmpty))
  {
    var r := Filter(t, NonEmpty);
    forall i | 0 <= i < |r| ensures Trimmed(r[i]) {
      assert r[i] in r;
    }
  }

  /** `xs.join(", ")`, the text a list is pre-filled with. */
  function ListText(xs: seq<string>): string {
    Join(xs, ", ")
  }

  /** The pieces `ListText(xs)` splits into on `,`: every entry after the
      first keeps the space that followed the comma. */
  function Spaced(xs: seq<string>): (r: seq<string>)
    requires |xs| >= 1
    ensures |r| == |xs| && r[0] == xs[0]
    ensures forall i :: 1 <= i < |xs| ==> r[i] == " " + xs[i]
  {
    [xs[0]] + seq(|xs| - 1, i requires 0 <= i < |xs| - 1 => " " + xs[i + 1])
  }

  lemma {:induction false} JoinSpaced(xs: seq<string>)
    requires |xs| >= 1
    ensures Join(xs, ", ") == Join(Spaced(xs), ",")
    decreases |xs|
  {
    if |xs| > 1 {
      JoinSpaced(xs[1..]);
      var tail := Spaced(xs[1..]);
      assert Spaced(xs)[1..] == [" " + tail[0]] + tail[1..];
      assert Join(Spaced(xs)[1..], ",") == " " + Join(tail, ",") by {
        JoinPrefixFirst(tail, " ");
      }
    }
  }

  /** Putting `p` before the first entry puts it before the joined text. */
  lemma {:induction false} JoinPrefixFirst(xs: seq<string>, p: string)
    requires |xs| >= 1
    ensures Join([p + xs[0]] + xs[1..], ",") == p + Join(xs, ",")
  {
    var ys := [p + xs[0]] + xs[1..];
    if |xs| > 1 {
      assert ys[1..] == xs[1..];
    }
  }

  /** The piece after a comma, trimmed, is the entry itself. */
  lemma TrimSpaced(x: string)
    requires x == "" || Trim(x) == x
    ensures Trim(" " + x) == x
  {
    TrimDropsLeadingSpace(x);
    if x == "" {
      assert Trim(x) == "";
    }
  }

  /** Pre-filling a list as text and splitting it again gives back the list,
      for entries that are non-empty, trimmed and free of commas. */
  lemma ParseListText(xs: seq<string>)
    requires AllTrimmed(xs)
    requires forall i :: 0 <= i < |xs| ==> ',' !in xs[i]
    ensures ParseList(ListText(xs)) == xs
  {
    if xs == [] {
      assert Split("", ',') == [""];
      assert TrimAll([""]) == [""];
      assert Trim("") == "";
      assert Filter([""], NonEmpty) == [];
    } else {
      JoinSpaced(xs);
      var pieces := Spaced(xs);
      forall i | 0 <= i < |pieces| ensures ',' !in pieces[i] {
        if i > 0 { assert pieces[i] == " " + xs[i]; }
      }
      SplitJoin(pieces, ',');
      assert Split(ListText(xs), ',') == pieces;
      forall i | 0 <= i < |xs| ensures Trim(pieces[i]) == xs[i] {
        if i > 0 { TrimSpaced(xs[i]); }
      }
      assert TrimAll(pieces) == xs;
      ParseListOfPieces(ListText(xs), xs);
    }
  }

  /** `text ? parse(text) : []`: the guard changes nothing, since empty text
      parses to the empty list anyway. */
  lemma ParseListOfEmpty()
    ensures ParseList("") == []
  {
    ParseListText([]);
  }
}

=== FILE: ui_register.dfy ===
/**
 The registration wizards' own state (frontend/src/components/AlumniRegister.jsx
 and StudentRegister.jsx): the skill box driven by a sequence of key
 events, the experience and education entries, the step navigation, and the
 student payload with the CGPA it sends. The Enter handlers themselves are `Lists.EnterUnique` and
 `Lists.EnterAppend`.
 */
module Register {
  import opened Base
  import opened Strings
  import opened Db
  import opened Lists
  import Auth
  import Numerals

  // ---------------------------------------------------------------------
  // A tag box as the user drives it

  /** What the user can do to a tag box: type into it, press Enter, or click
      the remove button of an entry. */
  datatype TagEvent = Type(text: string) | Enter | Remove(index: int)

  /** One event on the skills box. */
  function SkillStep(f: TagField, e: TagEvent): TagField {
    match e
    case Type(t) => f.(input := t)
    case Enter => EnterUnique(f)
    case Remove(i) => f.(items := RemoveAt(f.items, i))
  }

  /** The skills box after `events`, starting from `f`. */
  function RunSkills(f: TagField, events: seq<TagEvent>): TagField
    decreases |events|
  {
    if events == [] then f else RunSkills(SkillStep(f, events[0]), events[1..])
  }

  /** Whatever the user types, enters and removes, the skill list starting
      empty never holds a duplicate or a blank or untrimmed entry. */
  lemma {:induction false} SkillsStayDistinct(f: TagField, events: seq<TagEvent>)
    requires NoDuplicates(f.items) && AllTrimmed(f.items)
    ensures NoDuplicates(RunSkills(f, events).items) && AllTrimmed(RunSkills(f, events).items)
    decreases |events|
  {
    if events != [] {
      match events[0] {
        case Type(t) =>
        case Enter => EnterUniqueKeepsInvariant(f);
        case Remove(i) =>
          RemoveAtKeepsNoDuplicates(f.items, i);
          RemoveAtKeepsTrimmed(f.items, i);
      }
      SkillsStayDistinct(SkillStep(f, events[0]), events[1..]);
    }
  }

  lemma RemoveAtKeepsTrimmed(xs: seq<string>, i: int)
    requires AllTrimmed(xs)
    ensures AllTrimmed(RemoveAt(xs, i))
  {
    var r := RemoveAt(xs, i);
    forall a | 0 <= a < |r| ensures Trimmed(r[a]) {
      var b := RemoveAtSource(xs, i, a);
      assert Trimmed(xs[b]);
    }
  }

  /** The remove button of the entry just added takes it away again. */
  lemma RemoveUndoesAppend<T>(xs: seq<T>, x: T)
    ensures RemoveAt(xs + [x], |xs|) == xs
  {
    assert (xs + [x])[..|xs|] == xs;
  }

  // ---------------------------------------------------------------------
  // Experience and education entries

  /** A list after a save attempt, and whether the entry was taken. */
  datatype Saved<T> = Saved(items: seq<T>, accepted: bool)

  /** The wizard's own test for an education entry: institution and degree;
      year and grade are optional. */
  predicate EducationComplete(e: Education) {
    e.institution != "" && e.degree != ""
  }

  /** `saveExperience`: appends the entry only when company, role and
      duration are filled in (untrimmed), which is exactly the registration
      schema's rule for an entry; otherwise the list is unchanged. */
  function SaveExperience(xs: seq<Experience>, e: Experience): (r: Saved<Experience>)
    ensures r.accepted <==> Auth.ExperienceEntryValid(e)
    ensures r.accepted ==> r.items == xs + [e]
    ensures !r.accepted ==> r.items == xs
  {
    if e.company == "" || e.role == "" || e.duration == "" then Saved(xs, false)
    else Saved(xs + [e], true)
  }

  /** `saveEducation`: appends only when institution and degree are filled in;
      year and grade are optional. */
  function SaveEducation(xs: seq<Education>, e: Education): (r: Saved<Education>)
    ensures r.accepted <==> EducationComplete(e)
    ensures r.accepted ==> r.items == xs + [e]
    ensures !r.accepted ==> r.items == xs
  {
    if e.institution == "" || e.degree == "" then Saved(xs, false)
    else Saved(xs + [e], true)
  }

  /** Every entry in a list built by saves meets the registration schema's
      rule for experience entries. */
  lemma SavedExperienceComplete(xs: seq<Experience>, e: Experience)
    requires forall i :: 0 <= i < |xs| ==> Auth.ExperienceEntryValid(xs[i])
    ensures var r := SaveExperience(xs, e).items;
            forall i :: 0 <= i < |r| ==> Auth.ExperienceEntryValid(r[i])
  {
  }

  /** The wizard saves an education entry without a year, and an alumni
      registration carrying that entry is refused with 400 whatever else
      the form holds: the schema requires `year` and a Joi string rejects
      the empty one. */
  lemma EducationWithoutYearRefused(s: Store, xs: seq<Education>, e: Education, f: Auth.AlumniForm, hash: string)
    requires e.institution != "" && e.degree != "" && e.year == ""
    requires f.education == SaveEducation(xs, e).items
    ensures SaveEducation(xs, e).accepted
    ensures Auth.RegisterAlumni(s, f, hash) == Step(s, Fail(HTTP_BAD_REQUEST, Auth.VALIDATION_FAILED))
  {
    assert f.education[|xs|] == e;
    assert !Auth.EducationEntryValid(f.education[|xs|]);
  }

  /** The save the schema calls for: an education entry is taken only with
      institution, degree and year filled in. */
  function SaveEducationForSchema(xs: seq<Education>, e: Education): (r: Saved<Education>)
    ensures r.accepted <==> Auth.EducationEntryValid(e)
    ensures r.accepted ==> r.items == xs + [e]
    ensures !r.accepted ==> r.items == xs
  {
    if e.institution == "" || e.degree == "" || e.year == "" then Saved(xs, false)
    else Saved(xs + [e], true)
  }

  /** The education list a session of corrected saves builds. */
  function RunEducation(xs: seq<Education>, entries: seq<Education>): seq<Education>
    decreases |entries|
  {
    if entries == [] then xs else RunEducation(SaveEducationForSchema(xs, entries[0]).items, entries[1..])
  }

  /** Every entry meets the schema's education rule. */
  predicate SchemaEducation(xs: seq<Education>) {
    forall i :: 0 <= i < |xs| ==> Auth.EducationEntryValid(xs[i])
  }

  lemma SaveEducationForSchemaKeeps(xs: seq<Education>, e: Education)
    requires SchemaEducation(xs)
    ensures SchemaEducation(SaveEducationForSchema(xs, e).items)
  {
    var ys := SaveEducationForSchema(xs, e).items;
    forall i | 0 <= i < |ys| ensures Auth.EducationEntryValid(ys[i]) {
      if i < |xs| { assert ys[i] == xs[i]; }
    }
  }

  /** Whatever entries the user tries to save, the corrected list always
      passes the schema's education rule, so it never blocks registration. */
  lemma {:induction false} SavedEducationPassesSchema(xs: seq<Education>, entries: seq<Education>)
    requires SchemaEducation(xs)
    ensures SchemaEducation(RunEducation(xs, entries))
    decreases |entries|
  {
    if entries != [] {
      SaveEducationForSchemaKeeps(xs, entries[0]);
      SavedEducationPassesSchema(SaveEducationForSchema(xs, entries[0]).items, entries[1..]);
    }
  }

  // ---------------------------------------------------------------------
  // Step navigation

  /** The first step's fields of the alumni wizard, as typed. */
  datatype AlumniAccount = AlumniAccount(
    email: string,
    password: string,
    name: string,
    companyName: string,
    position: string,
    graduationYear: string)

  predicate AccountComplete(a: AlumniAccount) {
    && a.email != "" && a.password != "" && a.name != ""
    && a.companyName != "" && a.position != "" && a.graduationYear != ""
  }

  /** `nextStep`: on step 1 the wizard advances only when every required
      account field is filled in; on any other step it always advances. */
  function NextStep(step: int, a: AlumniAccount): (r: int)
    ensures step == 1 && !AccountComplete(a) ==> r == step
    ensures step != 1 || AccountComplete(a) ==> r == step + 1
  {
    if step == 1 && !AccountComplete(a) then step else step + 1
  }

  function PrevStep(step: int): (r: int)
    ensures r == step - 1
  {
    step - 1
  }

  /** Back undoes a successful next. */
  lemma BackUndoesNext(step: int, a: AlumniAccount)
    requires step != 1 || AccountComplete(a)
    ensures PrevStep(NextStep(step, a)) == step
  {
  }

  /** `n` presses of Next from `step`. */
  function Iterate(step: int, a: AlumniAccount, n: nat): int
    decreases n
  {
    if n == 0 then step else Iterate(NextStep(step, a), a, n - 1)
  }

  /** The wizard cannot leave step 1 with a required field empty. */
  lemma StuckOnFirstStep(a: AlumniAccount, n: nat)
    requires !AccountComplete(a)
    ensures Iterate(1, a, n) == 1
  {
  }

  // ---------------------------------------------------------------------
  // Student submit

  /** The student wizard's text fields, as typed. */
  datatype StudentFields = StudentFields(
    email: string,
    password: string,
    name: string,
    phone: string,
    graduationYear: string,
    major: string,
    cgpa: string,
    bio: string,
    githubUrl: string,
    linkedinUrl: string,
    portfolioUrl: string)

  datatype StudentPayload = StudentPayload(
    fields: StudentFields,
    skills: seq<string>,
    certifications: seq<string>,
    projects: seq<string>)

  /** `handleSubmit`'s `submitData`: the form and the three lists as they
      stand. */
  function StudentSubmit(form: StudentFields, skills: TagField, certs: TagField, projects: TagField): (r: StudentPayload)
    ensures r.fields == form
    ensures r.skills == skills.items && r.certifications == certs.items && r.projects == projects.items
  {
    StudentPayload(form, skills.items, certs.items, projects.items)
  }

  /** The skills a student submits after any session at the skills box are
      distinct, non-empty and trimmed. */
  lemma SubmittedSkillsDistinct(form: StudentFields, events: seq<TagEvent>, certs: TagField, projects: TagField)
    ensures var p := StudentSubmit(form, RunSkills(TagField([], ""), events), certs, projects);
            NoDuplicates(p.skills) && AllTrimmed(p.skills)
  {
    SkillsStayDistinct(TagField([], ""), events);
  }

  // ---------------------------------------------------------------------
  // The CGPA the student wizard sends

  /** `cgpa` as `...form` sends it: the number box's text, which is "" while
      the optional box is empty. Joi refuses the field exactly when that
      text is no numeral. */
  function SentCgpa(form: StudentFields): (r: Auth.BodyNumber)
    ensures Auth.JoiCgpa(r).None? <==> Numerals.NumeralValue(form.cgpa).None?
  {
    Auth.JsonString(form.cgpa)
  }

  /** A student who leaves the optional CGPA box empty can never register:
      the empty text fails `Joi.number()` and the whole form is refused
      with 400 and no write. */
  lemma BlankCgpaRefused(s: Store, form: StudentFields, f: Auth.StudentForm, hash: string)
    requires form.cgpa == "" && f.cgpa == SentCgpa(form)
    ensures Auth.RegisterStudent(s, f, hash) == Step(s, Fail(HTTP_BAD_REQUEST, Auth.VALIDATION_FAILED))
  {
    assert !Auth.StudentFormValid(f);
  }

  /** The corrected payload, `cgpa: form.cgpa || null`: an empty box is
      sent as null, and a filled one as before. */
  function SentCgpaCorrected(form: StudentFields): (r: Auth.BodyNumber)
    ensures Auth.JoiCgpa(r).None? <==> form.cgpa != "" && Numerals.NumeralValue(form.cgpa).None?
    ensures form.cgpa != "" ==> r == SentCgpa(form)
  {
    if form.cgpa == "" then Auth.JsonNull else Auth.JsonString(form.cgpa)
  }

  /** With the correction, an empty CGPA box means no CGPA: the form is
      judged, and the profile written, as if the field were left out. */
  lemma BlankCgpaAccepted(form: StudentFields, f: Auth.StudentForm)
    requires form.cgpa == "" && f.cgpa == SentCgpaCorrected(form)
    ensures Auth.StudentFormValid(f) <==> Auth.StudentFormValid(f.(cgpa := Auth.Omitted))
    ensures Auth.StudentProfileOf(f) == Auth.StudentProfileOf(f.(cgpa := Auth.Omitted))
  {
  }

  /** A filled box holding a two-decimal number (`"8.50"`) is converted
      to that number by both payloads. */
  lemma FilledCgpaConverted(form: StudentFields, a: nat, b: nat)
    requires b < 100 && form.cgpa == NatToString(a) + "." + [DigitChar(b / 10), DigitChar(b % 10)]
    ensures SentCgpaCorrected(form) == SentCgpa(form)
    ensures Auth.SentNumber(SentCgpa(form)) == Some(a as real + b as real / 100.0)
  {
    Numerals.CentsNumeral(a, b);
  }
}

=== FILE: ui_views.dfy ===
/**
 The list views' pure helpers: the user search page's role filter and
 initials (frontend/src/components/UserSearch.jsx), the connection list's
 display name, initials, search box, sender test and send guard
 (frontend/src/components/Connections/ConnectionList.jsx), and the
 application list's status filter, counts and type icons
 (frontend/src/components/MyApplications.jsx).
 */
module Views {
  import opened Base
  import opened Strings
  import opened Db
  import Directory
  import Messages

  /** `Filter` twice is `Filter` once with both conditions. */
  lemma {:induction false} FilterTwice<T(!new)>(s: seq<T>, p: T -> bool, q: T -> bool, both: T -> bool)
    requires forall x :: both(x) == (p(x) && q(x))
    ensures Filter(Filter(s, p), q) == Filter(s, both)
    decreases |s|
  {
    if |s| > 0 {
      FilterTwice(s[1..], p, q, both);
    }
  }

  lemma {:induction false} SubsequenceOfSelf<T>(s: seq<T>)
    ensures Subsequence(s, s)
    decreases |s|
  {
    if |s| > 0 {
      SubsequenceOfSelf(s[1..]);
    }
  }

  // ---------------------------------------------------------------------
  // User search page

  /** The role drop-down: `"all"` or one role. */
  datatype RoleFilter = AllRoles | Only(role: Role)

  /** Kept by the first filter: not an admin, and not the signed-in user
      (with nobody signed in, `user_id !== null` holds for every row). */
  predicate Listable(u: Directory.UserRow, me: Option<int>) {
    u.role != Role.Admin && (me.None? || u.userId != me.value)
  }

  predicate Shown(u: Directory.UserRow, me: Option<int>, f: RoleFilter) {
    Listable(u, me) && (f.AllRoles? || u.role == f.role)
  }

  /** `filterUsers`: drop admins and the signed-in user, then, unless the
      filter is `"all"`, keep only the chosen role. */
  function FilterUsers(users: seq<Directory.UserRow>, me: Option<int>, f: RoleFilter): (r: seq<Directory.UserRow>)
    ensures forall u :: u in r <==> u in users && Shown(u, me, f)
    ensures forall u :: u in r ==> u.role != Role.Admin && (me.Some? ==> u.userId != me.value)
    ensures f.Only? ==> forall u :: u in r ==> u.role == f.role
    ensures Subsequence(r, users)
  {
    var listable := Filter(users, (u: Directory.UserRow) => Listable(u, me));
    FilterIsSubsequence(users, (u: Directory.UserRow) => Listable(u, me));
    if f.AllRoles? then listable
    else
      var both := (u: Directory.UserRow) => Listable(u, me) && u.role == f.role;
      FilterTwice(users, (u: Directory.UserRow) => Listable(u, me), (u: Directory.UserRow) => u.role == f.role, both);
      FilterIsSubsequence(users, both);
      Filter(listable, (u: Directory.UserRow) => u.role == f.role)
  }

  /** Choosing a role shows exactly the `"all"` view's rows of that role, in
      the same order. */
  lemma RoleFilterNarrowsAll(users: seq<Directory.UserRow>, me: Option<int>, role: Role)
    ensures FilterUsers(users, me, Only(role))
         == Filter(FilterUsers(users, me, AllRoles), (u: Directory.UserRow) => u.role == role)
  {
  }

  // ---------------------------------------------------------------------
  // Initials

  /** `.map(n => n[0]).join('')`: the first character of every non-empty
      piece (an empty piece contributes `undefined`, which joins as ""). */
  function Heads(pieces: seq<string>): string
    decreases |pieces|
  {
    if pieces == [] then ""
    else (if pieces[0] == "" then "" else [pieces[0][0]]) + Heads(pieces[1..])
  }

  /** The reference reading: scanning left to right, every non-space
      character that follows a space or starts the text. */
  function WordStarts(s: string, atStart: bool): string
    decreases |s|
  {
    if s == [] then ""
    else (if atStart && s[0] != ' ' then [s[0]] else "") + WordStarts(s[1..], s[0] == ' ')
  }

  lemma {:induction false} WordStartsNoSpace(s: string, atStart: bool)
    requires ' ' !in s
    ensures WordStarts(s, atStart) == if atStart && s != "" then [s[0]] else ""
    decreases |s|
  {
    if s != "" {
      WordStartsNoSpace(s[1..], false);
    }
  }

  lemma {:induction false} WordStartsThroughSpace(x: string, tail: string, atStart: bool)
    requires ' ' !in x
    ensures WordStarts(x + [' '] + tail, atStart)
         == (if atStart && x != "" then [x[0]] else "") + WordStarts(tail, true)
    decreases |x|
  {
    var s := x + [' '] + tail;
    if x == "" {
      assert s[1..] == tail;
    } else {
      assert s[1..] == x[1..] + [' '] + tail;
      WordStartsThroughSpace(x[1..], tail, false);
    }
  }

  /** Splitting on spaces and taking every piece's first character finds
      exactly the characters that start a word. */
  lemma {:induction false} HeadsAreWordStarts(s: string)
    ensures Heads(Split(s, ' ')) == WordStarts(s, true)
    decreases |s|
  {
    if ' ' !in s {
      WordStartsNoSpace(s, true);
    } else {
      var k := IndexOf(s, ' ');
      var x, tail := s[..k], s[k + 1..];
      assert s == x + [' '] + tail;
      SplitAtFirst(x, ' ', tail);
      HeadsAreWordStarts(tail);
      WordStartsThroughSpace(x, tail, true);
      assert Split(s, ' ')[1..] == Split(tail, ' ');
    }
  }

  /** `substring(0, 2)` and `slice(0, 2)`. */
  function TakeTwo(s: string): (r: string)
    ensures |r| <= 2 && r <= s
    ensures |s| >= 2 ==> |r| == 2
  {
    s[..Min(2, |s|)]
  }

  predicate NoLowerAscii(s: string) {
    forall i :: 0 <= i < |s| ==> !('a' <= s[i] <= 'z')
  }

  lemma UpperHasNoLower(s: string)
    ensures NoLowerAscii(Upper(s))
  {
  }

  /** The user search page's `getInitials`: at most two upper-cased
      characters, the starts of the first two words. */
  function SearchInitials(name: string): (r: string)
    ensures |r| <= 2 && NoLowerAscii(r)
    ensures r == Upper(TakeTwo(WordStarts(name, true)))
  {
    HeadsAreWordStarts(name);
    UpperHasNoLower(TakeTwo(Heads(Split(name, ' '))));
    Upper(TakeTwo(Heads(Split(name, ' '))))
  }

  /** A double space between two words adds nothing: the initials are the
      words' first letters, upper-cased. */
  lemma DoubleSpaceAddsNothing(a: string, b: string)
    requires a != "" && b != "" && ' ' !in a && ' ' !in b
    ensures SearchInitials(a + "  " + b) == Upper([a[0], b[0]])
  {
    var tail := [' '] + b;
    assert a + "  " + b == a + [' '] + tail;
    WordStartsThroughSpace(a, tail, true);
    assert tail == "" + [' '] + b;
    WordStartsThroughSpace("", b, true);
    WordStartsNoSpace(b, true);
    var w := WordStarts(a + "  " + b, true);
    assert w == [a[0], b[0]];
    assert TakeTwo(w) == w;
  }

  // ---------------------------------------------------------------------
  // Connection list

  /** One accepted connection as the list shows it. */
  datatype Contact = Contact(userId: nat, name: Option<string>, email: Option<string>)

  /** `email.split('@')[0]`: the text before the first `@`, or all of it. */
  function EmailLocalPart(e: string): (r: string)
    ensures '@' !in r && r <= e
    ensures '@' !in e ==> r == e
    ensures '@' in e ==> r == e[..IndexOf(e, '@')]
  {
    Split(e, '@')[0]
  }

  /** `getDisplayName`: the name if non-empty, else the email's local part
      if non-empty, else `"User <id>"`. */
  function DisplayName(c: Contact): (r: string)
    ensures r != ""
    ensures c.name.Some? && c.name.value != "" ==> r == c.name.value
    ensures (c.name.None? || c.name.value == "") && c.email.Some? && EmailLocalPart(c.email.value) != ""
            ==> r == EmailLocalPart(c.email.value)
  {
    if c.name.Some? && c.name.value != "" then c.name.value
    else if c.email.Some? && EmailLocalPart(c.email.value) != "" then EmailLocalPart(c.email.value)
    else "User " + NatToString(c.userId)
  }

  /** Without a name or a usable email the fallback names the id, and it
      is never mistaken for an address. */
  lemma DisplayNameFallback(c: Contact)
    requires c.name.None? || c.name.value == ""
    requires c.email.None? || EmailLocalPart(c.email.value) == ""
    ensures DisplayName(c)[..5] == "User " && '@' !in DisplayName(c)
  {
    var digits := NatToString(c.userId);
    assert forall i :: 0 <= i < |digits| ==> digits[i] != '@';
    assert DisplayName(c) == "User " + digits;
  }

  /** The connection list's `getInitials`: the same letters upper-cased then
      cut to two, or `"??"` for a missing name or one with no word. */
  function ListInitials(name: Option<string>): (r: string)
    ensures name.None? ==> r == "??"
    ensures name.Some? && WordStarts(name.value, true) == "" ==> r == "??"
    ensures name.Some? && WordStarts(name.value, true) != "" ==> r == SearchInitials(name.value)
    ensures 1 <= |r| <= 2 && NoLowerAscii(r)
  {
    if name.None? then "??"
    else
      HeadsAreWordStarts(name.value);
      var upper := Upper(Heads(Split(name.value, ' ')));
      UpperHasNoLower(upper);
      var cut := TakeTwo(upper);
      assert cut == Upper(TakeTwo(WordStarts(name.value, true)));
      if cut == "" then "??" else cut
  }

  /** The lower-cased email, or "" when there is none. */
  function EmailKey(c: Contact): string {
    if c.email.Some? then Lower(c.email.value) else ""
  }

  /** The search box's test: the lower-cased query occurs in the lower-cased
      display name or email. */
  predicate ContactMatches(c: Contact, query: string) {
    Contains(Lower(DisplayName(c)), Lower(query)) || Contains(EmailKey(c), Lower(query))
  }

  /** `filteredConnections`. */
  function FilterContacts(cs: seq<Contact>, query: string): (r: seq<Contact>)
    ensures forall c :: c in r <==> c in cs && ContactMatches(c, query)
    ensures Subsequence(r, cs)
  {
    FilterIsSubsequence(cs, (c: Contact) => ContactMatches(c, query));
    Filter(cs, (c: Contact) => ContactMatches(c, query))
  }

  /** An empty search box shows every connection. */
  lemma EmptyQueryKeepsAll(cs: seq<Contact>)
    ensures FilterContacts(cs, "") == cs
  {
    LowerOfEmpty();
    forall i | 0 <= i < |cs| ensures ContactMatches(cs[i], "") {
      ContainsEmpty(Lower(DisplayName(cs[i])));
    }
    FilterKeepsAll(cs, (c: Contact) => ContactMatches(c, ""));
  }

  /** The search ignores ASCII case in the query. */
  lemma QueryCaseIgnored(cs: seq<Contact>, query: string)
    ensures FilterContacts(cs, Upper(query)) == FilterContacts(cs, query)
  {
    assert Lower(Upper(query)) == Lower(query);
    FilterCongruent(cs, (c: Contact) => ContactMatches(c, Upper(query)), (c: Contact) => ContactMatches(c, query));
  }

  /** `isCurrentUser`: a user is signed in and sent this message. */
  function IsCurrentUser(me: Option<int>, sender: int): (r: bool)
    ensures r <==> me.Some? && me.value == sender
  {
    me.Some? && sender == me.value
  }

  /** In a conversation with someone else, a message is drawn as the signed-in
      user's exactly when it went to the peer. */
  lemma OwnMessagesAreThoseToPeer(s: Store, caller: Caller, peer: int, m: Message)
    requires peer != caller.userId
    requires m in Messages.GetMessages(s, caller, peer).value
    ensures IsCurrentUser(Some(caller.userId), m.sender) <==> m.receiver == peer
  {
  }

  /** What `sendMessage` posts: the recipient and the text as typed. */
  datatype Outgoing = Outgoing(to: int, text: string)

  /** The guard of `sendMessage`: nothing happens when the text is blank or
      no chat is open; otherwise the untrimmed text goes out. */
  function SendGuard(text: string, chat: Option<int>): (r: Option<Outgoing>)
    ensures r.None? <==> IsBlank(text) || chat.None?
    ensures r.Some? ==> r.value == Outgoing(chat.value, text)
  {
    if IsBlank(text) || chat.None? then None else Some(Outgoing(chat.value, text))
  }

  /** A guarded message to a connection is stored with its surrounding white
      space: neither the guard nor the handler trims it. */
  lemma SentTextIsTyped(s: Store, caller: Caller, text: string, peer: int)
    requires !IsBlank(text)
    requires Messages.Connected(s.connections, caller.userId, peer)
    ensures var out := SendGuard(text, Some(peer));
            && out.Some?
            && var r := Messages.SendMessage(s, caller, Some(out.value.to), out.value.text);
            && r.reply.Ok?
            && r.store.messages[|s.messages|].text == text
  {
  }

  // ---------------------------------------------------------------------
  // My applications

  /** One of the student's applications as listed. */
  datatype Listing = Listing(status: string, kind: string)

  predicate HasStatus(a: Listing, f: string) {
    Lower(a.status) == f
  }

  /** `filteredApplications`: `"all"` shows everything; any other filter
      keeps the applications whose lower-cased status equals it. */
  function FilterApplications(apps: seq<Listing>, f: string): (r: seq<Listing>)
    ensures f == "all" ==> r == apps
    ensures f != "all" ==> forall a :: a in r <==> a in apps && HasStatus(a, f)
    ensures Subsequence(r, apps)
  {
    FilterIsSubsequence(apps, (a: Listing) => HasStatus(a, f));
    SubsequenceOfSelf(apps);
    if f == "all" then apps else Filter(apps, (a: Listing) => HasStatus(a, f))
  }

  /** The counters above the list. */
  datatype Counts = Counts(total: nat, pending: nat, accepted: nat, rejected: nat)

  function Count(apps: seq<Listing>, f: string): nat {
    |Filter(apps, (a: Listing) => HasStatus(a, f))|
  }

  /** `statusCounts`: each counter is the length of the list its filter would
      show. */
  function StatusCounts(apps: seq<Listing>): (r: Counts)
    ensures r.total == |apps| == |FilterApplications(apps, "all")|
    ensures r.pending == |FilterApplications(apps, "pending")|
    ensures r.accepted == |FilterApplications(apps, "accepted")|
    ensures r.rejected == |FilterApplications(apps, "rejected")|
  {
    Counts(|apps|, Count(apps, "pending"), Count(apps, "accepted"), Count(apps, "rejected"))
  }

  /** No application is counted twice: the three counters add up to at most
      the total. */
  lemma {:induction false} CountsWithinTotal(apps: seq<Listing>)
    ensures var c := StatusCounts(apps); c.pending + c.accepted + c.rejected <= c.total
    decreases |apps|
  {
    if |apps| > 0 {
      CountsWithinTotal(apps[1..]);
      assert "pending" != "accepted" && "pending" != "rejected" && "accepted" != "rejected";
    }
  }

  const JOB_ICON: string := "\U{1F4BC}"
  const INTERNSHIP_ICON: string := "\U{1F393}"
  const PROJECT_ICON: string := "\U{1F680}"
  const MENTORSHIP_ICON: string := "\U{1F468}\U{200D}\U{1F3EB}"
  const EVENT_ICON: string := "\U{1F4C5}"
  const WORKSHOP_ICON: string := "\U{1F6E0}\U{FE0F}"
  const DEFAULT_ICON: string := "\U{1F4A1}"

  /** The six opportunity types the icon table knows. */
  predicate KnownKind(kind: string) {
    kind == "Job" || kind == "Internship" || kind == "Project"
    || kind == "Mentorship" || kind == "Event" || kind == "Workshop"
  }

  /** `getTypeIcon`: the table's icon, or the light bulb for anything else
      (the match is exact, so `"job"` gets the light bulb). */
  function TypeIcon(kind: string): (r: string)
    ensures kind == "Job" ==> r == JOB_ICON
    ensures kind == "Internship" ==> r == INTERNSHIP_ICON
    ensures kind == "Project" ==> r == PROJECT_ICON
    ensures kind == "Mentorship" ==> r == MENTORSHIP_ICON
    ensures kind == "Event" ==> r == EVENT_ICON
    ensures kind == "Workshop" ==> r == WORKSHOP_ICON
  {
    if kind == "Job" then JOB_ICON
    else if kind == "Internship" then INTERNSHIP_ICON
    else if kind == "Project" then PROJECT_ICON
    else if kind == "Mentorship" then MENTORSHIP_ICON
    else if kind == "Event" then EVENT_ICON
    else if kind == "Workshop" then WORKSHOP_ICON
    else DEFAULT_ICON
  }

  /** The light bulb appears exactly for the unknown types. */
  lemma DefaultIconIffUnknown(kind: string)
    ensures TypeIcon(kind) == DEFAULT_ICON <==> !KnownKind(kind)
  {
  }
}
